=== FILE: README.md ===
# Course authoring desktop app: a Dafny model of its core

The application authors courses made of modules, lessons and tasks. It pushes them to
GitHub, where a course is a repository, a module is a folder and a lesson or task is a
Markdown file. It also pushes them to an LMS called Gushub. It mirrors the identifiers in
a local SQLite cache. The repository has two variants of the program:

- `app/` is the main application;
- `app_test/` is a second variant with its own cache class, GitHub adapter and pages.

This project models the decision logic of both variants:

- **The local cache.** There are four tables with AUTOINCREMENT ids.
  - `LocalDb` models the second variant's `LocalCourseDB`. Only the course path is
    UNIQUE, and deletes cascade by hand, deepest first.
  - `Database` models the main application's `Database`. `github_path` is UNIQUE in
    every table, course titles are UNIQUE as well, and deletes do not cascade.
  - `Tables`, `Schema` and `Sorting` hold what the two share: a table as a map from id
    to row plus a counter, the listings in id order, and `ORDER BY title` as a stable
    code-point sort.
- **Naming and paths on GitHub.**
  - `Naming` holds the repository-name sanitizer, the README text, and the folder, file,
    `html_url` and raw-URL shapes.
  - `UrlQuote` models `urllib.parse.quote` with the safe set `:/?=&`.
- **The two GitHub adapters.**
  - `GithubApi` is `GitHubAPI`. Its update and delete calls pass no SHA.
  - `TestGithubApi` is `GitHubCourseManager`. It reads the SHA right before each update.
    It also has `delete_file_or_folder`.
- **The pages.** Each page action is a state transition over a `World`, which has four
  parts:
  - the cache;
  - GitHub (`Hub`);
  - the LMS (`Lms`);
  - a log of the remote calls made.

  Every remote call can fail. An `Env` decides which calls fail, by their position in the
  log. An action ends in one of these outcomes:
  - `Ignored`: a silent return;
  - `Warned`: a warning dialog;
  - `Done`;
  - `Failed`: a caught exception;
  - `Escaped`: an exception that leaves the slot.

  The `App*Page` modules model the main application's pages, and `AppFileSteps` holds the
  file steps they share. The `Test*Page` modules model the second variant's pages, and
  `TestPageSteps` holds their shared steps. `Pages` holds the truth tests and the title
  checks of both variants. A call to a method that does not exist, or a call with the
  wrong arity, is modelled as the exception Python raises there.
- **Small pure parts.**
  - `CourseForm` is the course dialog's validator.
  - `Settings` holds both variants' settings stores and their "fully configured" gates.
  - `Sidebar` holds both sidebar trees.
  - `Analytics` holds `localize`, the table search, the in-progress counts and the
    group-member selection of the analytics page.

External behaviour is a parameter of the model:

- Which remote calls fail is part of `Env`.
- The `transliterate` library is an uninterpreted function `translit`.
- The files on disk are `Env.readFile`.
- The `download_url` GitHub reports for a new file is `Env.downloadUrl`, an uninterpreted
  function of the login, the repository and the path.
- The model's `Text.Lower` lowers only ASCII and the Russian capitals U+0400–U+042F.
  Python's `str.lower()` lowers every cased letter, so names and search queries with other
  capitals can differ.
- `str.strip()` strips the full Unicode whitespace table.

Two behaviours of the second variant worth noting:

- In the second variant, `delete_module`, `delete_lesson` and `delete_task` open the
  repository outside their inner `try`. A failure to open it therefore ends the action
  before the cache delete.
- The second variant's `is_fully_configured` accepts a store with no token at all.

## Model

| member | source | states |
|---|---|---|
| LocalDb.AddCourse | app_test/database/local_db.py:59-66 | a new course row with exactly the given fields under the next id, larger than every earlier id; it fails with the cache unchanged exactly when the `github_path` is already stored (the UNIQUE column) |
| LocalDb.AddModule | app_test/database/local_db.py:68-75 | one new module row with the given fields under a fresh, larger id; nothing is unique and the course is not checked; the other tables are unchanged |
| LocalDb.AddLesson | app_test/database/local_db.py:77-84 | one new lesson row with the given fields under a fresh, larger id; nothing else changes |
| LocalDb.AddTask | app_test/database/local_db.py:86-93 | one new task row with the given fields under a fresh, larger id; nothing else changes |
| LocalDb.ModuleByLesson | app_test/database/local_db.py:159-176 | found exactly when the lesson and its module exist; `id` and `course_id` are right, but `title` holds the module's LMS id and `description` its title, because the columns are read by position |
| LocalDb.ModuleByLessonLosesTitle | app_test/database/local_db.py:159-176 | for every lesson whose module is stored without an LMS id, the dictionary built as written carries no title at all, while reading the columns by name gives the stored title |
| LocalDb.ModuleByLessonByName | app_test/database/local_db.py:159-176 | reading the columns by name gives the module's own path, title and description |
| LocalDb.ModuleByLessonSameModule | app_test/database/local_db.py:159-176 | the two readings find the same module, with the same id, course id and repository path, or both find none |
| LocalDb.UpdateCourse | app_test/database/local_db.py:200-221 | no named column is a no-op, and so is a missing id; otherwise only the named columns of that row change and every other row stays; a new path taken by another course fails |
| LocalDb.UpdateModule | app_test/database/local_db.py:203-221 | no named column, or a missing id, changes nothing; otherwise exactly the named columns of that module change and the row set is the same |
| LocalDb.UpdateLesson | app_test/database/local_db.py:206-221 | no named column, or a missing id, changes nothing; otherwise exactly the named columns of that lesson change and the row set is the same |
| LocalDb.UpdateTask | app_test/database/local_db.py:209-221 | no named column, or a missing id, changes nothing; otherwise exactly the named columns of that task change and the row set is the same |
| LocalDb.UpdateLessonSameValues | app_test/database/local_db.py:212-221 | writing back a lesson's own title and path leaves the cache as it was |
| LocalDb.UpdateTaskSameValues | app_test/database/local_db.py:212-221 | writing back a task's own title and path leaves the cache as it was |
| LocalDb.DeleteTask | app_test/database/local_db.py:248-251 | exactly that task row goes; the other tables and the counter are unchanged |
| LocalDb.DeleteTaskRows | app_test/database/local_db.py:240-243 | the loop over the listed tasks removes exactly their ids |
| LocalDb.DeleteLesson | app_test/database/local_db.py:240-246 | the lesson and exactly the tasks of that lesson go; courses, modules and every counter are unchanged |
| LocalDb.DeleteLessonRows | app_test/database/local_db.py:232-235 | the loop over the listed lessons removes exactly them and their tasks |
| LocalDb.DeleteModule | app_test/database/local_db.py:232-238 | the module, exactly its lessons and exactly their tasks go; every other row is unchanged |
| LocalDb.DeleteModuleRows | app_test/database/local_db.py:224-227 | the loop over the listed modules removes exactly them, their lessons and those lessons' tasks |
| LocalDb.DeleteCourse | app_test/database/local_db.py:224-230 | the course, its modules, their lessons and their tasks go and nothing else; afterwards no module names the course |
| LocalDb.DeleteCourseKeepsLinks | app_test/database/local_db.py:224-230 | after the cascade every remaining child still has its parent |
| LocalDb.DeleteModuleKeepsLinks | app_test/database/local_db.py:232-238 | after the cascade every remaining child still has its parent |
| LocalDb.DeleteLessonKeepsLinks | app_test/database/local_db.py:240-246 | after the cascade every remaining task still has its lesson |
| LocalDb.DeleteMissingCourse | app_test/database/local_db.py:224-230 | deleting a course id that does not exist changes nothing |
| LocalDb.DeleteMissingModule | app_test/database/local_db.py:232-238 | deleting a module id that does not exist changes nothing |
| LocalDb.DeleteMissingLesson | app_test/database/local_db.py:240-246 | deleting a lesson id that does not exist changes nothing |
| LocalDb.DeleteWholeTree | app_test/database/local_db.py:224-251 | a course with one module, lesson and task, added to an empty cache and then deleted, leaves all four tables empty |
| Tables.Table.Insert | app_test/database/local_db.py:13 | AUTOINCREMENT: the new row gets the next id, larger than every stored id, and the counter moves past it |
| Tables.Table.Remove | app_test/database/local_db.py:248-251 | `DELETE ... WHERE id = ?` removes that row if present, keeps every other row, and never reissues the id |
| Tables.Scan | app_test/database/local_db.py:119-135 | a filtered `SELECT` returns every row that satisfies the filter, each once, in ascending id order |
| Schema.AllCourses | app_test/database/local_db.py:96-100 | `get_all_courses` lists every course exactly once, in id order |
| Schema.CoursesByTitle | app_test/database/local_db.py:110-117 | `get_courses` is a permutation of all courses sorted by title |
| Schema.ModulesOf | app_test/database/local_db.py:119-123 | `get_modules` returns exactly the modules of that course, in id order |
| Schema.LessonsOf | app_test/database/local_db.py:125-129 | `get_lessons` returns exactly the lessons of that module, in id order |
| Schema.TasksOf | app_test/database/local_db.py:131-135 | `get_tasks` returns exactly the tasks of that lesson, in id order |
| Schema.CourseOfModule | app_test/database/local_db.py:137-148 | the course is found exactly when the module and its course exist, and it is the module's course |
| Sorting.SortBy | app/database/database.py:80-89 | `ORDER BY title` gives a permutation of the rows, sorted by title |
| Sorting.SortByMembers | app/database/database.py:80-89 | a row is in the sorted listing exactly when it is in the table |
| Database.AddCourse | app/database/database.py:59-67 | it fails with no change exactly when the path or the title (exact, case-sensitive) is already stored; otherwise one row goes in under the next id and the UNIQUE invariant is kept |
| Database.AddModule | app/database/database.py:100-108 | it fails with no change exactly when a module already uses the path; titles are not constrained; otherwise one row goes in under the next id |
| Database.AddLesson | app/database/database.py:152-160 | it fails with no change exactly when a lesson already uses the path; otherwise one row goes in under the next id |
| Database.AddTask | app/database/database.py:204-212 | it fails with no change exactly when a task already uses the path; otherwise one row goes in under the next id |
| Database.ModulesByTitle | app/database/database.py:121-130 | `get_modules` lists every module once, sorted by title |
| Database.LessonsByTitle | app/database/database.py:173-182 | `get_lessons` lists every lesson once, sorted by title |
| Database.TasksByTitle | app/database/database.py:225-234 | `get_tasks` lists every task once, sorted by title |
| Database.DeleteCourse | app/database/database.py:91-98 | only that course row goes: the connection never enables foreign keys, so the declared cascade does not happen |
| Database.DeleteModule | app/database/database.py:143-150 | only that module row goes; its lessons stay |
| Database.DeleteLesson | app/database/database.py:195-202 | only that lesson row goes; its tasks stay |
| Database.DeleteTask | app/database/database.py:247-253 | only that task row goes |
| Database.DeleteLessonOrphansTasks | app/database/database.py:195-202 | after deleting a lesson that has tasks, a task is left pointing at a lesson that no longer exists |
| Database.AddThenDeleteCourse | app/database/database.py:59-98 | deleting the course just added gives back the table it was added to, with the counter moved on |
| Naming.SpacesToDashes | app/api/github_api.py:16 | each space becomes `-` and every other character stays, position by position |
| Naming.KeepValid | app/api/github_api.py:17 | only characters in `[a-zA-Z0-9-_]` survive; a name made only of them is unchanged |
| Naming.NormalizeRepoName | app/api/github_api.py:16-18 | the sanitized name is at most 100 characters long and has only `[a-zA-Z0-9-_]` characters, so no space |
| Naming.RepoName | app/api/github_api.py:14-18 | whatever `translit` returns, the repository name is at most 100 characters of `[a-zA-Z0-9-_]`, with no space and no `/` |
| Naming.KeepValidFrom | app/api/github_api.py:17 | every character that survives the filter comes from the input |
| Naming.NormalizeIdempotent | app/api/github_api.py:16-18 | the steps after transliteration leave their own output unchanged |
| Naming.NormalizedIsLowerChars | app/api/github_api.py:16-17 | a sanitized name holds no upper-case ASCII letter |
| Naming.MarkdownPathParts | app/api/github_api.py:64 | `{module_path}/{filename}.md` lies inside the module folder, and its last segment is the file name with `.md` |
| Naming.ModuleReadmePathParts | app/api/github_api.py:53 | `{name}/README.md` lies inside the folder, begins with the folder name, and ends in `README.md` |
| Naming.RepoNameFromHtmlUrl | app/ui/pages/courses_page.py:168 | the last `/`-segment of a stored `html_url` is the repository name |
| Naming.RepoNameRoundTrip | app/ui/pages/courses_page.py:168 | the repository name the course page derives from the stored URL is the one `create_course` named from the title |
| UrlQuote.Utf8Char | app/ui/pages/modules_page.py:180 | one character encodes to one to four UTF-8 bytes |
| UrlQuote.QuoteBytes | app/ui/pages/modules_page.py:180 | the quoted text is made only of `%`, hexadecimal digits and safe characters |
| UrlQuote.UnquoteQuoteBytes | app/ui/pages/modules_page.py:180 | unquoting the quoted bytes gives them back |
| UrlQuote.Quote | app/ui/pages/modules_page.py:180 | the quoted URL holds only `%`, hexadecimal digits and safe characters, and unquoting it gives back the URL's UTF-8 bytes, so quoting loses nothing |
| UrlQuote.QuoteSafeText | app/ui/pages/modules_page.py:180 | a URL made only of safe ASCII characters is left as it is |
| GithubApi.Rethrow | app/api/github_api.py:32-33 | a `GithubException` comes out as `RuntimeError`; every other result passes unchanged |
| GithubApi.CreateCourse | app/api/github_api.py:21-33 | a repository named from the title with a `README.md` holding `# {title}`, a blank line and the description; on failure `RuntimeError`; nothing is deleted |
| GithubApi.GetCourse | app/api/github_api.py:35-41 | only reads; it finds the repository named from the title, or fails with `RuntimeError` |
| GithubApi.GetCourseFindsCreated | app/api/github_api.py:22-38 | `get_course` on the title a course was created under finds that repository |
| GithubApi.DeleteCourse | app/api/github_api.py:43-48 | exactly that repository goes when both calls succeed; otherwise GitHub is unchanged and the error is `RuntimeError` |
| GithubApi.CreateModule | app/api/github_api.py:51-58 | it writes `{name}/README.md` with the module's README text and returns the bare folder name |
| GithubApi.CreateMarkdown | app/api/github_api.py:61-68 | it writes the content to `{module_path}/{filename}.md` and returns exactly that path |
| GithubApi.UpdateFileCall | app/api/github_api.py:72 | `update_file` without a SHA raises `TypeError` before any request; with one it is the GitHub update |
| GithubApi.DeleteFileCall | app/api/github_api.py:78 | `delete_file` without a SHA raises `TypeError` before any request; with one it is the GitHub delete |
| GithubApi.UpdateFileNoSha | app/api/github_api.py:70-74 | `update_lesson`/`update_task` never change anything and raise `TypeError` |
| GithubApi.DeleteFileNoSha | app/api/github_api.py:76-80 | `delete_lesson`/`delete_task` never change anything and raise `TypeError` |
| TestGithubApi.DeleteCourse | app_test/api/github_api.py:35-40 | the repository is addressed as `{login}/{repo_name}`; it goes exactly when both calls succeed, otherwise `RuntimeError` and no change |
| TestGithubApi.UpdateFileFresh | app_test/api/github_api.py:62-67 | the file is read and then updated with exactly the SHA just read; on failure GitHub is unchanged |
| Hub.FreshShaAccepted | app_test/api/github_api.py:64-65 | an update with the SHA `get_contents` just returned is accepted |
| Hub.StaleShaRejected | app_test/api/github_api.py:64-65 | after a file is written again, an update with its old SHA is rejected |
| TestGithubApi.DeleteCalls | app_test/api/github_api.py:91-92 | one delete call per listed entry, each with that entry's own SHA |
| TestGithubApi.DeleteEntries | app_test/api/github_api.py:91-92 | the loop deletes the listed paths from that repository only, stopping at the first failure |
| TestGithubApi.DeleteEntriesSucceeds | app_test/api/github_api.py:91-92 | with no failing call, a listing of distinct current files is deleted in full |
| TestGithubApi.DeleteReadme | app_test/api/github_api.py:93-94 | `{path}/README.md` is fetched again and deleted with its SHA |
| TestGithubApi.DeleteFileOrFolder | app_test/api/github_api.py:87-98 | a single file is deleted with its own SHA; errors are `RuntimeError` or `AttributeError` |
| TestGithubApi.ReadmeListed | app_test/api/github_api.py:89-92 | a folder's `README.md` is one of the entries the loop deletes |
| TestGithubApi.ReadmeDeletedTwice | app_test/api/github_api.py:90-94 | a folder holding a `README.md` is never deleted without an error: the README is gone before the second fetch |
| TestGithubApi.DeleteFileOrFolderOnce | app_test/api/github_api.py:87-98 | with the second README deletion skipped, a single file is still deleted with its own SHA |
| TestGithubApi.ListingPaths | app_test/api/github_api.py:89 | a folder listing names each child of the folder and nothing else |
| TestGithubApi.FolderOnceIsEntries | app_test/api/github_api.py:90-92 | once the listing is read and every entry deleted, the corrected folder delete is done |
| TestGithubApi.DeleteFolderOnceSucceeds | app_test/api/github_api.py:87-98 | with no failing call, a folder of plain files holding a `README.md` is deleted in full and nothing else goes |
| AppCoursesPage.PublishCourse | app/ui/pages/courses_page.py:108-124 | with the intended multipart upload: photo upload, then the LMS course with the photo's id, then the row under the repository URL and the LMS id; GitHub is not touched |
| AppCoursesPage.CreateCourse | app/ui/pages/courses_page.py:87-142 | with the intended upload: an empty title is ignored; a title equal to a stored one ignoring case is refused before any call; the row is inserted only after all three remote steps succeed |
| AppCoursesPage.CreateCourseKeepsPartialWork | app/ui/pages/courses_page.py:137-142 | whatever step fails, nothing is deleted: a repository or LMS record made before the failure stays |
| AppCoursesPage.CreateCourseDoneIff | app/ui/pages/courses_page.py:92-124 | with the intended upload, `create_course` finishes exactly when the title is new ignoring case, no call fails, the repository name is usable and free, the image is readable and the URL is new |
| AppCoursesPage.RepoFailedNotDone | app/ui/pages/courses_page.py:104-105 | when the repository cannot be made, `create_course` does not finish, and one of the first two calls failed or the repository name was empty or taken |
| AppCoursesPage.CreatedRepoThenPublish | app/ui/pages/courses_page.py:104-124 | with the intended upload, once the repository is made, `create_course` finishes exactly when the image is readable, both LMS calls succeed and the repository URL is not stored yet |
| AppCoursesPage.PublishDoneIff | app/ui/pages/courses_page.py:107-124 | with the intended upload, the publishing half finishes exactly when the image is readable, its two LMS calls succeed and the repository URL is not stored yet |
| Remote.UploadPhotoAsWritten | app/api/gushub_api.py:123-125 | as written, an unreadable file raises from `open`, and a readable one raises `TypeError` from the JSON body; no call reaches the LMS and nothing changes |
| AppCoursesPage.CreateCourseAsWritten | app/ui/pages/courses_page.py:87-142 | as written, `create_course` never finishes: the title checks and the repository step are as intended, and then the upload raises, so the LMS and the cache are untouched; it ends in `TypeError` exactly when the title is new, the repository is made and the image is readable |
| AppCoursesPage.CreateCourseAsWrittenNeverDone | app/ui/pages/courses_page.py:104-108 | wherever the intended action finishes, the written one ends in `TypeError` with the repository and README created and no LMS course or row; before the upload the two agree |
| AppCoursesPage.NewCourseRow | app/database/database.py:12-18 | with a title not stored, inserting a course fails exactly when its repository URL is already stored |
| AppCoursesPage.NoExactTitle | app/database/database.py:15 | a title new ignoring case also passes the exact UNIQUE column |
| AppCoursesPage.DeleteCourse | app/ui/pages/courses_page.py:144-193 | the repository named by the URL's last segment, then the LMS course only if it has an id, then the row; the row goes only if neither remote delete failed |
| AppCoursesPage.CreatedCourseTraces | app/ui/pages/courses_page.py:104-124 | the row a finished `create_course` stored holds the repository URL and the LMS course id |
| AppCoursesPage.DeleteCreatedCourse | app/ui/pages/courses_page.py:162-176 | deleting a course `create_course` made removes its repository, LMS course and row; only the photo stays |
| AppCoursesPage.CreateThenDeleteCourse | app/ui/pages/courses_page.py:87-193 | create then delete restores GitHub and the course table; only the uploaded photo stays on the LMS |
| AppCoursesPage.CreateModule | app/ui/pages/courses_page.py:195-260 | a sibling title equal ignoring case is refused before any call; a course without a URL does nothing; the folder comes first, and a course without an LMS id then fails with no row stored |
| AppCoursesPage.CreateModuleKeepsPartialWork | app/ui/pages/courses_page.py:219-253 | a folder created before a failure stays; nothing is deleted |
| AppCoursesPage.CreateModuleTwiceWarns | app/ui/pages/courses_page.py:207-216 | once a module is created, the same title in any case in the same course is refused |
| AppModulesPage.DropModule | app/ui/pages/modules_page.py:118-125 | the LMS module is deleted if it has an id, then the row |
| AppModulesPage.DeleteModule | app/ui/pages/modules_page.py:81-133 | a module with a path and a course calls the missing `github_api.delete_module` and fails with its row kept; GitHub never changes |
| AppModulesPage.DeleteModuleFixed | app/ui/pages/modules_page.py:104-125 | with a real folder delete in its place, a finished action has removed the module row, and a failure leaves the cache as it was |
| AppModulesPage.DeleteModuleFolder | app/ui/pages/modules_page.py:104-116 | as written the folder is never removed even with no failing call; with the folder step every file under it goes |
| AppModulesPage.CreateLesson | app/ui/pages/modules_page.py:135-217 | with a title and a file, the call to the missing `get_tasks_by_module` fails every attempt before any remote call or cache write |
| AppModulesPage.PublishLesson | app/ui/pages/modules_page.py:183-210 | the LMS lesson gets the quoted raw URL, and the row, with the unquoted raw URL and the LMS id, is inserted only after that succeeds |
| AppModulesPage.CreateLessonFixed | app/ui/pages/modules_page.py:143-210 | with the intended title check and the `commit_message` that the four-argument `create_lesson` call at line 177 omits: a duplicate lesson or task title in the module, ignoring case, is refused; the file goes first, and a finished action stores the raw URL `https://raw.githubusercontent.com/{login}/{repo}/main/{path}` |
| AppModulesPage.CreateLessonNeverCreates | app/ui/pages/modules_page.py:150-151 | wherever the intended version creates a lesson, the code as written fails with `AttributeError` and changes nothing |
| AppModulesPage.CreateLessonKeepsPartialWork | app/ui/pages/modules_page.py:183-217 | `create_lesson` deletes nothing, whatever fails |
| AppModulesPage.CreateLessonTwiceWarns | app/ui/pages/modules_page.py:154-171 | once a lesson is created, the same title in any case in the same module is refused |
| AppFileSteps.ShaOf | app/ui/pages/lessons_page.py:131-132 | `contents.sha` is the file's SHA; on a folder listing it raises `AttributeError` |
| AppFileSteps.ReplaceFile | app/ui/pages/lessons_page.py:124-139 | the file step of `update_lesson` only reads, and always ends in an error, `TypeError` when every read succeeded |
| AppFileSteps.DeleteFile | app/ui/pages/lessons_page.py:175-186 | the file step of the deletes only reads, and always ends in an error |
| AppFileSteps.DeleteFileWithSha | app/ui/pages/lessons_page.py:175-186 | the same two calls with the SHA passed remove the file exactly when both succeed |
| AppFileSteps.DeleteNeedsSha | app/ui/pages/lessons_page.py:175-186 | as written the delete fails with `TypeError` and GitHub is unchanged; with the SHA the file is gone |
| AppFileSteps.ReplaceFileWithSha | app/ui/pages/lessons_page.py:124-139 | the same calls with the SHA passed replace the file's content exactly when every step succeeds |
| AppFileSteps.ReplaceNeedsSha | app/ui/pages/lessons_page.py:124-139 | as written the update fails with `TypeError` and GitHub is unchanged; with the SHA the file holds the new text |
| AppLessonsPage.UpdateLesson | app/ui/pages/lessons_page.py:88-142 | a missing lesson or course returns silently and a missing file is reported; otherwise it only reads, never writes the cache, and ends with `TypeError` exactly when every step before the update succeeded |
| AppLessonsPage.FirstWithPathFinds | app/ui/pages/lessons_page.py:175-180 | the first task with a `github_path` is found exactly when some task has one |
| AppLessonsPage.DeleteLesson | app/ui/pages/lessons_page.py:144-210 | a lesson reachable on GitHub fails at its first file and nothing is deleted; any other lesson loses its row only, neither its tasks nor its LMS lesson |
| AppLessonsPage.DeleteLessonOrphansTasks | app/ui/pages/lessons_page.py:178-193 | a lesson deleted with tasks leaves them pointing at a missing lesson |
| AppLessonsPage.CreateTask | app/ui/pages/lessons_page.py:212-314 | after the field check and two exact title checks, the call to the missing `get_tasks_by_module` escapes the handler; nothing changes in any case |
| AppLessonsPage.PublishTask | app/ui/pages/lessons_page.py:283-306 | a lesson with an LMS id gets an `ASSIGNMENT` step whose id the row stores; otherwise the row goes in without an LMS id |
| AppLessonsPage.CreateTaskFixed | app/ui/pages/lessons_page.py:237-306 | with the third check reading the module's tasks, titles equal exactly to a task of the lesson, a lesson of the module or a task of the module are refused; a finished action writes the file, the step and the row |
| AppLessonsPage.CreateTaskNeverCreates | app/ui/pages/lessons_page.py:254-259 | wherever the intended version creates a task, the code as written escapes with `AttributeError` and changes nothing |
| AppLessonsPage.CreateTaskKeepsPartialWork | app/ui/pages/lessons_page.py:262-306 | `create_task` deletes nothing, whatever fails |
| AppLessonsPage.CreateTaskTwiceWarns | app/ui/pages/lessons_page.py:237-252 | once a task is created, the same title in any lesson of the module is refused |
| AppTasksPage.CourseOfTask | app/ui/pages/tasks_page.py:85-105 | the course is found exactly when the task, its lesson, its module and its course all exist |
| AppTasksPage.UpdateTask | app/ui/pages/tasks_page.py:79-138 | silent unless the task, lesson, module, course and file path are all there; it never writes the cache and ends with `TypeError` exactly when every step before the update succeeded |
| AppTasksPage.DeleteTask | app/ui/pages/tasks_page.py:140-198 | a task reachable on GitHub fails at its file, before the LMS step and the row; a task without a path or with a broken chain loses its row with no remote call |
| AppTasksPage.DeleteTaskKeepsFile | app/ui/pages/tasks_page.py:158-181 | with no failing call and the file present, as written the task survives; the delete with the SHA removes the file |
| Pages.TitleLikeReordered | app/ui/pages/courses_page.py:95-102 | a duplicate-title check gives the same answer on any order of the rows |
| Pages.AllCoursesCheck | app_test/database/local_db.py:96-100 | on a consistent cache, checking `get_all_courses` checks every stored course |
| Pages.CourseListingCheck | app/ui/pages/courses_page.py:95-102 | checking the title-sorted listing checks every stored course |
| Pages.ModuleListingCheck | app/ui/pages/courses_page.py:207-216 | checking a course's module listing checks every module of that course |
| Pages.LessonListingCheck | app/ui/pages/modules_page.py:154-160 | checking a module's lesson listing checks every lesson of that module |
| Pages.TaskListingCheck | app_test/ui/components/pages/tasks_page.py:137-150 | checking a lesson's task listing checks every task of that lesson |
| TestCoursesPage.CreateCourse | app_test/ui/components/pages/courses_page.py:81-119 | blank and duplicate titles (ignoring case) are refused before any GitHub call; otherwise the four-argument call raises `TypeError` and nothing is created or stored |
| TestCoursesPage.DeleteCourse | app_test/ui/components/pages/courses_page.py:121-150 | the repository goes first with nothing caught in between; a GitHub failure skips the cache delete; on success the whole subtree leaves the cache |
| TestCoursesPage.CascadeLeavesNoChildren | app_test/ui/components/pages/courses_page.py:140-143 | after the cascade, listing the course's modules, or their lessons, finds nothing |
| TestCoursesPage.DeleteCourseLeavesNothing | app_test/ui/components/pages/courses_page.py:134-147 | a finished delete leaves no course row, no module or lesson under it, and no repository |
| TestCoursesPage.CreateCourseRefusesTaken | app_test/ui/components/pages/courses_page.py:91-95 | the duplicate check refuses exactly the titles a stored course has, ignoring case |
| TestModulesPage.CreateModule | app_test/ui/components/pages/modules_page.py:92-140 | a missing course, a blank title or a duplicate in the course (ignoring case) is refused; otherwise the four-argument call raises `TypeError` and no module is created or stored |
| TestModulesPage.CreateModuleRefusesTaken | app_test/ui/components/pages/modules_page.py:103-110 | the duplicate check refuses exactly the titles a module of the course has, ignoring case |
| TestModulesPage.RemoveModuleFiles | app_test/ui/components/pages/modules_page.py:163-182 | a file is deleted with its SHA, a folder entry by entry with each entry's SHA; only that repository can change |
| TestModulesPage.DeleteModule | app_test/ui/components/pages/modules_page.py:142-192 | only opening the repository can stop the action; the errors of the folder removal are swallowed and the cascade delete runs |
| TestModulesPage.RemoveFolderComplete | app_test/ui/components/pages/modules_page.py:163-178 | with no failing call, exactly the files under a plain folder go |
| TestModulesPage.DeleteModuleFolder | app_test/ui/components/pages/modules_page.py:142-192 | with no failing call, exactly the files under the folder and the module's subtree go |
| TestPageSteps.SelectedCourse | app_test/ui/components/pages/lessons_page.py:148-150 | the course is found exactly when an id is selected and the row exists |
| TestPageSteps.OpenRepo | app_test/ui/components/pages/lessons_page.py:152-153 | the repository `{login}/{github_path}` is opened, reading only |
| TestPageSteps.ReplaceFetched | app_test/ui/components/pages/lessons_page.py:155-165 | the path is read, `contents[0]` taken on a listing, and the file updated with the SHA just read; a folder path is never updated |
| TestPageSteps.PushUpdate | app_test/ui/components/pages/lessons_page.py:152-165 | open the repository, then replace the file with the SHA just read; only that file can change |
| TestPageSteps.DeleteFetched | app_test/ui/components/pages/lessons_page.py:262-272 | read the path and delete it with the SHA read; every failure is swallowed |
| TestPageSteps.DeleteTaskFiles | app_test/ui/components/pages/lessons_page.py:273-285 | a swallowed delete of every task that has a path; only those paths can go |
| TestPageSteps.DeleteTaskFilesComplete | app_test/ui/components/pages/lessons_page.py:273-285 | with no failing call, exactly the task paths go |
| TestLessonsPage.UpdateLesson | app_test/ui/components/pages/lessons_page.py:119-181 | a changed title, or no new file path, is refused; a GitHub failure leaves the cache alone; on success the cache holds the same values as before |
| TestLessonsPage.PublishLesson | app_test/ui/components/pages/lessons_page.py:219-233 | the file goes to `{module path}/{title}.md`, and the row stores that path as both `github_path` and `raw_url` |
| TestLessonsPage.StoreLesson | app_test/ui/components/pages/lessons_page.py:209-237 | the file is read and the module and course looked up before anything is written |
| TestLessonsPage.CreateLesson | app_test/ui/components/pages/lessons_page.py:183-239 | blank fields and duplicate lesson titles in the module, ignoring case, are refused; task titles are not checked; only a finished action writes the cache |
| TestLessonsPage.CreateLessonTwiceWarns | app_test/ui/components/pages/lessons_page.py:201-205 | once a lesson is created, the same title in any case in the same module is refused |
| TestLessonsPage.RemoveLessonFiles | app_test/ui/components/pages/lessons_page.py:260-285 | the lesson's file is deleted before the task files, each failure swallowed |
| TestLessonsPage.RemoveLessonFilesComplete | app_test/ui/components/pages/lessons_page.py:260-285 | with no failing call, exactly the lesson's file and its tasks' files go |
| TestLessonsPage.DeleteLesson | app_test/ui/components/pages/lessons_page.py:241-301 | only opening the repository can stop the action; the lesson and its tasks then leave the cache |
| TestLessonsPage.DeleteLessonClearsFiles | app_test/ui/components/pages/lessons_page.py:241-301 | with no failing call, exactly the lesson's and its tasks' files and rows go |
| TestTasksPage.LoadTask | app_test/ui/components/pages/tasks_page.py:73-91 | a given module id is kept; with none, the lesson's module is looked up |
| TestTasksPage.PublishTask | app_test/ui/components/pages/tasks_page.py:165-184 | the file goes to `{module path}/{title}.md`, and the row, storing the `download_url` GitHub reports for that file, is inserted only after GitHub creation succeeds |
| TestTasksPage.StoreTask | app_test/ui/components/pages/tasks_page.py:155-190 | the file is read and the lesson and course looked up before anything is written |
| TestTasksPage.CreateTask | app_test/ui/components/pages/tasks_page.py:128-192 | a blank title or a duplicate among the lesson's tasks, ignoring case, is refused; only a finished action writes the cache |
| TestTasksPage.CreateTaskTwiceWarns | app_test/ui/components/pages/tasks_page.py:137-150 | once a task is created, the same title in any case in the same lesson is refused |
| TestTasksPage.CreateTaskInLessonModule | app_test/ui/components/pages/tasks_page.py:79-91 | a page opened without a module id writes the task into the folder of its lesson's module, and the row holds that file's path and GitHub's `download_url` for it |
| TestTasksPage.UpdateTask | app_test/ui/components/pages/tasks_page.py:194-256 | a title change, or no new file path, is refused; a GitHub failure comes before the cache update; on success the cache holds the same values |
| TestTasksPage.DeleteTask | app_test/ui/components/pages/tasks_page.py:258-300 | only opening the repository can stop the action; a file-delete failure is swallowed and the row always goes |
| TestTasksPage.DeleteTaskClearsFile | app_test/ui/components/pages/tasks_page.py:277-294 | with no failing call, exactly the task's file and row go |
| CourseForm.SelectImage | app/ui/forms/courses_add_form.py:46-56 | a cancelled file dialog keeps the previous choice; a picked file replaces it |
| CourseForm.Validate | app/ui/forms/courses_add_form.py:58-76 | accepted exactly when the stripped title is non-empty, the stripped description has at least three characters and an image is chosen; otherwise the first failing check, in that order |
| CourseForm.Data | app/ui/forms/courses_add_form.py:83-89 | the stripped title, the stripped description and the image path |
| CourseForm.AcceptedData | app/ui/forms/courses_add_form.py:58-89 | an accepted dialog hands on a title with no outer blanks, a description of at least three characters and an image |
| CourseForm.DataRoundTrip | app/ui/forms/courses_add_form.py:58-89 | typing the returned data back gives the same data and the same verdict |
| CourseForm.FirstFailureWins | app/ui/forms/courses_add_form.py:60-65 | a dialog failing every check is refused for its title only |
| Settings.Get | app/settings.py:23-24 | a stored key reads back its value; a missing key reads `None` |
| Settings.Set | app/settings.py:26-27 | only the key set changes |
| Settings.Remove | app/settings.py:29-30 | only the key removed goes |
| Settings.Clear | app/settings.py:77-78 | no key is left |
| Settings.SetThenGet | app/settings.py:23-74 | reading a key just set gives the value set, and other keys read as before |
| Settings.FullyConfiguredKeys | app/settings.py:8-20 | the gate holds exactly when the token, login and password are each stored and non-empty; the LMS token plays no part |
| Settings.FullyConfigured | app/settings.py:8-20 | the main gate never passes while the GitHub token, the LMS login or the LMS password is missing from the store |
| Settings.SetGushubCredentials | app/settings.py:58-63 | login and password are both set and nothing else changes |
| Settings.GetGushubCredentials | app/settings.py:53-56 | always a pair, each half possibly `None` |
| Settings.DeleteGushubCredentials | app/settings.py:65-67 | login and password go and nothing else |
| Settings.DeleteGithubToken | app/settings.py:29-30 | only `github/token` goes |
| Settings.CredentialsRoundTrip | app/settings.py:53-67 | credentials read back as set; after deleting them they read `(None, None)` and the gate fails |
| Settings.ConfigureThenUnconfigure | app/settings.py:8-30 | with all three values non-empty the gate holds; deleting the token makes it fail |
| Settings.ClearUnconfigures | app/settings.py:77-78 | after `clear` the gate fails |
| Settings.TestGateIgnoresCredentials | app_test/settings.py:8-14 | the gate fails only for a stored empty token; a cleared store passes, and login and password are never read |
| Settings.TestFullyConfigured | app_test/settings.py:8-14 | the second variant's gate passes exactly when the token is absent or stored non-empty |
| Settings.GatesDiffer | app_test/settings.py:8-14 | every store that passes the main gate passes the second variant's; a store with no LMS login and a token absent or non-empty passes only the second |
| Sidebar.Click | app/ui/components/sidebar.py:72-77 | a click emits the clicked node's tag, and a click on no node emits nothing |
| Sidebar.SettingsClick | app/ui/components/sidebar.py:136-138 | the settings button emits `("settings", None)` |
| Sidebar.TagsOfMember | app/ui/components/sidebar.py:79-129 | a node's tag and every tag below it are tags of the tree holding it |
| Sidebar.TagsOfForest | app/ui/components/sidebar.py:79-129 | every tag of a tree is a top-level tag or one below a top-level node |
| Sidebar.TopIdsOfCourses | app/ui/components/sidebar.py:87-91 | the top-level ids of a course tree are the ids of its course rows |
| Sidebar.AppTree | app/ui/components/sidebar.py:79-129 | the top level is every stored course exactly once, ordered by title, each tagged as a course |
| Sidebar.TestTree | app_test/ui/components/sidebar.py:33-66 | the rebuilt top level is every stored course exactly once, in increasing id order, each tagged as a course |
| Sidebar.CoursesByTitleOnce | app/database/database.py:80-87 | the title-ordered course listing holds no course twice |
| Sidebar.CountedOnce | app_test/database/local_db.py:96-100 | a listing with strictly increasing ids holds no row twice |
| Sidebar.InForestTag | app/ui/components/sidebar.py:79-129 | the tag of any node of a tree is among that tree's tags |
| Sidebar.ClickNamesRow | app/ui/components/sidebar.py:72-77 | a click on any node of either tree emits a tag naming a row stored in the cache |
| Sidebar.SettingsClickNamesNothing | app/ui/components/sidebar.py:136-138 | the settings tag names no row and is the tag of no tree node, so it cannot be confused with a tree click |
| Sidebar.TaskKidsExact | app/ui/components/sidebar.py:113-121 | below a lesson the task nodes are, each once, exactly the tasks of that lesson |
| Sidebar.LessonKidsExact | app/ui/components/sidebar.py:104-123 | below a module the lesson nodes are, each once, exactly the lessons of that module |
| Sidebar.ModuleKidsExact | app/ui/components/sidebar.py:95-125 | below a course the module nodes are, each once, exactly the modules of that course |
| Sidebar.TreesFollowParents | app_test/ui/components/sidebar.py:33-66 | in both trees every node has below it, each once, exactly the rows whose parent it is; a task node has nothing below it |
| Sidebar.TaskTagsName | app_test/ui/components/sidebar.py:55-60 | every tag of a task forest names a stored task |
| Sidebar.LessonTagsName | app_test/ui/components/sidebar.py:49-60 | every tag of a lesson forest names a stored lesson or task |
| Sidebar.ModuleTagsName | app_test/ui/components/sidebar.py:43-60 | every tag of a module forest names a stored row |
| Sidebar.CourseTagsName | app_test/ui/components/sidebar.py:37-60 | every tag of a course forest names a stored row |
| Sidebar.TreesAreSound | app/ui/components/sidebar.py:131-134 | both trees, rebuilt from the current cache, only name rows that exist, so every click emits a loadable tag |
| Sidebar.TaskUnderLesson | app_test/ui/components/sidebar.py:55-60 | a task of a lesson shown in the tree is shown below it |
| Sidebar.LessonListed | app/ui/components/sidebar.py:108-110 | a lesson of a module is among the lessons listed below that module |
| Sidebar.ModuleListed | app/ui/components/sidebar.py:96-98 | a module of a course is among the modules listed below that course |
| Sidebar.TaskUnderModule | app/ui/components/sidebar.py:108-121 | a task whose lesson belongs to a shown module is shown below it |
| Sidebar.TaskUnderCourse | app/ui/components/sidebar.py:96-121 | a task whose chain reaches a listed course is shown below that course |
| Sidebar.CoursesByTitleHasAll | app/ui/components/sidebar.py:87-91 | the title-ordered listing holds every course row |
| Sidebar.TreesShowEveryTask | app_test/ui/components/sidebar.py:33-66 | on a linked cache both trees show every stored task |
| Analytics.Localize | app/ui/pages/analytics_page.py:150-151 | `None`, `''` and `'None'` become `Не задано`; every other value is returned unchanged, and the result is never missing |
| Analytics.LocalizeIdempotent | app/ui/pages/analytics_page.py:309-310 | localizing a localized value changes nothing |
| Analytics.InProgress | app/ui/pages/analytics_page.py:255 | total minus completed when both are present, otherwise `Не задано` |
| Analytics.InProgressAddsUp | app/ui/pages/analytics_page.py:267 | a number is shown exactly when both counts are present, and it plus the completed count gives the total |
| Analytics.Contains | app/ui/pages/analytics_page.py:61 | the substring search answers exactly Python's `q in s` |
| Analytics.RowVisible | app/ui/pages/analytics_page.py:57-63 | the column scan with `break` shows a row exactly when some present cell holds the lower-cased query in its lower-cased text |
| Analytics.FilterRows | app/ui/pages/analytics_page.py:123-132 | every row's hidden flag is set, and a row is hidden exactly when no cell matches |
| Analytics.MatchesIgnoresCase | app/ui/pages/analytics_page.py:55-64 | a query and its lower-cased form keep the same rows |
| Analytics.EmptyQueryShowsFilledRows | app/ui/pages/analytics_page.py:55-64 | an empty query shows exactly the rows that have an item |
| Analytics.LoadMembers | app/ui/pages/analytics_page.py:403-424 | with members: one row and one id per member, in order, and an enabled table; with none: one placeholder row, no ids and a disabled table |
| Analytics.SelectMember | app/ui/pages/analytics_page.py:452-463 | a disabled table ignores the click; otherwise the recorded id of the row is emitted, and a row past the list emits nothing |
| Analytics.SelectLoadedMember | app/ui/pages/analytics_page.py:403-460 | a click on a member's row of a loaded group emits exactly that member's id, and the row shows that member's cells |
| Analytics.NoMembersIgnoresClicks | app/ui/pages/analytics_page.py:414-455 | with no members every click is ignored, the placeholder row's included |
| Analytics.MissingFieldsShowNotSet | app/ui/pages/analytics_page.py:406-409 | a member with no first name and no login shows `Не задано` in both cells |
| Analytics.Render | app/ui/pages/analytics_page.py:408 | a string is shown as itself, a missing value as `None`, and a number with a leading minus sign exactly when it is negative |
| Analytics.Decimal | app/ui/pages/analytics_page.py:408 | the decimal text of a number is non-empty, made of digits, with no leading zero unless the number is zero |
| Analytics.DecimalValue | app/ui/pages/analytics_page.py:408 | reading the decimal digits back gives the number |
| Analytics.RenderNumValue | app/ui/pages/analytics_page.py:408 | a shown integer reads back as that integer: an optional minus sign, then the digits of its magnitude |

## Left out

- Qt layout, widgets, message boxes and signal wiring are left out. So are the "Are you sure?" dialogs: an action is modelled from the point the user confirmed.
- The second variant's "create a child" buttons and the main window handlers they signal are left out: they only open the next form with the selected id, and an id of 0 counts as no selection.
- `main.py`, both main windows, both authorization windows and the settings page are left out. They hold no logic beyond the gates modelled in `Settings`.
- The trivial form getters are left out: the lesson, task, task-update and module dialogs. The module dialog returns an unstripped title, and the pages that use it take the title as given.
- PyGithub, `requests` and SQLite are not modelled inside. GitHub is a map of repositories to files with SHAs, the LMS is a map of records, and the cache is four maps. Commits, branches, durability and HTTP details are not modelled.
- `app/api/gushub_api.py` is a thin REST wrapper. Except for `upload_photo`, its calls appear only as LMS records created or deleted, and as the HTTP error a missing parent or a failed transport gives. `upload_photo` as written never sends a request (see Findings); `Remote.UploadPhotoAsWritten` models it, and `Remote.UploadPhoto` is the intended upload.
- The `transliterate` library is the uninterpreted function `translit`.
- Text.Lower: it lowers only ASCII and the Russian capitals U+0400–U+042F. Python's `str.lower()` lowers every cased letter (`É`, the Kelvin sign U+212A to `k`), so names and search queries with other capitals can differ; in particular `NormalizeRepoName` drops a Kelvin sign where Python keeps a `k`.
- File reading is `Env.readFile`.
- The analytics page's float arithmetic is left out: the completion percentage and the average grade.
- `strftime` dates are left out.
- The Excel export is left out.
- The statistics endpoints are left out.
- `on_student_selected` and `on_group_selected` re-fetch the user or group list over the network, so they are left out.
- The students' `load_data` display name is left out; the search treats the cells as given.
- Sidebar.TreesShowEveryTask: it states completeness for tasks only. For courses, modules and lessons, `AppTree`, `TestTree` and `TreesFollowParents` give it one level at a time; no single lemma chains the levels into "every row is shown".
- AppModulesPage.DeleteModuleFixed: it states the cache effect of the corrected action, but not its GitHub and LMS effects; `DeleteModuleFolder` states the GitHub effect for a plain folder.
- TestGithubApi.DeleteFileOrFolder: for a folder it states only the error kinds; `ReadmeDeletedTwice` states that a folder delete always fails.
- GithubApi.CreateCourse: an empty repository name counts as a failed `create_repo`; the GitHub rules for other names are not modelled.
- AppCoursesPage.PublishCourse: it models the intended multipart upload. As written, every upload raises `TypeError` before any request, so the LMS course and the row are never made; `CreateCourseAsWritten` states that. `CreatedCourseTraces`, `DeleteCreatedCourse` and `CreateThenDeleteCourse` start from a finished `CreateCourse`, so they too describe the intended upload.
- AppCoursesPage.CreateCourse: its `Done` and LMS clauses hold for the intended upload; as written the action never reaches `Done`, and a readable image ends in `TypeError` after the repository exists (`CreateCourseAsWritten`).
- AppCoursesPage.CreateCourseDoneIff: the condition is that of the intended upload; as written no input finishes.
- AppCoursesPage.CreatedRepoThenPublish: the condition is that of the intended upload; as written a made repository is always followed by `IoError` or `TypeError`.
- AppCoursesPage.PublishDoneIff: the condition is that of the intended upload; as written the publishing half never finishes.
- TestTasksPage.PublishTask: the stored URL is whatever GitHub reports; its branch and its percent-encoding of the path are not modelled.
- Lms ids: the LMS issues ids in one sequence for every record kind. The photo's id stands in for its URL.

## Findings

| source | as written | input that shows it | evidently intended | confidence | as-written member | corrected member |
|---|---|---|---|---|---|---|
| app_test/api/github_api.py:90-94 | on a folder, every listed entry is deleted, and then `{path}/README.md` is fetched and deleted again | any module folder holding `README.md`: the README is among the listed entries, so the second fetch finds nothing and raises | delete the listed entries only | high, not executed | TestGithubApi.ReadmeDeletedTwice | TestGithubApi.DeleteFolderOnceSucceeds |
| app/api/github_api.py:70-80 | `update_file` and `delete_file` are called without the SHA that PyGithub requires | any lesson or task update or delete on an existing file, with no failing call | pass the SHA read by `get_contents` | high, not executed | AppFileSteps.DeleteNeedsSha | AppFileSteps.DeleteFileWithSha |
| app/ui/pages/lessons_page.py:124-139 | passes the SHA just read as an undeclared `sha=` keyword to `update_file`, so the call raises `TypeError` | an update of an existing lesson file with a readable new file | update with the SHA just read | high, not executed | AppFileSteps.ReplaceNeedsSha | AppFileSteps.ReplaceFileWithSha |
| app/ui/pages/modules_page.py:104-116 | `github_api.delete_module` is called, but `GitHubAPI` has no such method | a module with a `github_path` whose course exists | delete the module's folder | high, not executed | AppModulesPage.DeleteModule | AppModulesPage.DeleteModuleFolder |
| app/ui/pages/modules_page.py:150-151 | `db.get_tasks_by_module` is called, but `Database` has no such method | any title and file for an existing module | check the titles of the module's tasks; then also pass `create_lesson` its required `commit_message`, which the call at line 177 omits, so it too would raise `TypeError` | high, not executed | AppModulesPage.CreateLessonNeverCreates | AppModulesPage.CreateLessonFixed |
| app/ui/pages/lessons_page.py:254-259 | `db.get_tasks_by_module` is called outside the `try` | any new title and file for an existing lesson | check the tasks of the module's lessons | high, not executed | AppLessonsPage.CreateTaskNeverCreates | AppLessonsPage.CreateTaskFixed |
| app_test/database/local_db.py:159-176 | columns 3 and 4 are read as `title` and `description`, but they are `site_id` and `title` | a module stored without an LMS id: its title comes back as `None` | read the columns by name | high, not executed | LocalDb.ModuleByLessonLosesTitle | LocalDb.ModuleByLessonByName |
| app/api/gushub_api.py:123-125 | `upload_photo` puts the open file in the `json=` body, which `requests` cannot encode, so it raises `TypeError` before any request, outside the `HTTPError` path | any accepted course dialog with a readable image and a repository that can be made: the repository and README are created, then the action fails with no LMS course and no row | send the photo as a multipart `files=` upload | high, not executed | AppCoursesPage.CreateCourseAsWrittenNeverDone | AppCoursesPage.CreateCourse |
| app/database/database.py:5-7 | `ON DELETE CASCADE` is declared, but foreign keys are never enabled on the connection | deleting a lesson that has a task | the task goes with the lesson | medium, not executed | Database.DeleteLessonOrphansTasks | LocalDb.DeleteLessonKeepsLinks |

=== FILE: analytics.dfy ===
/** The decision logic of the main application's analytics page: how missing values
    are shown, which rows the search box keeps visible in the student and group
    tables, the "in progress" counts of a student's statistics, and how a click on
    the member table of a group turns into a student id. */
module Analytics {
  import opened Wrappers
  import opened Text

  /** A value the LMS returns for a field: `None`, a string or an integer. */
  datatype Value = Null | Str(s: string) | Num(n: int)

  /** What `localize` shows instead of a missing value. */
  const NotSet := "Не задано"

  /** The values `localize` treats as missing: `None`, `''` and the string `'None'`.
      An integer is never among them, so a count of 0 is shown as 0. */
  predicate Missing(v: Value)
  {
    v == Null || v == Str("") || v == Str("None")
  }

  /** `localize`: a missing value becomes `NotSet`, every other value is kept. */
  function Localize(v: Value): (r: Value)
    ensures !Missing(v) <==> r == v
    ensures Missing(v) ==> r == Str(NotSet)
    ensures !Missing(r)
  {
    if Missing(v) then Str(NotSet) else v
  }

  /** Localizing a localized value changes nothing. */
  lemma LocalizeIdempotent(v: Value)
    ensures Localize(Localize(v)) == Localize(v)
  {
  }

  /** The "in progress" line of the course and task statistics: total minus completed
      when both are present, otherwise missing, then localized. */
  function InProgress(total: Option<int>, completed: Option<int>): (r: Value)
    ensures total.Some? && completed.Some? ==> r == Num(total.value - completed.value)
    ensures total.None? || completed.None? ==> r == Str(NotSet)
  {
    Localize(if total.Some? && completed.Some? then Num(total.value - completed.value) else Null)
  }

  /** Whenever a number is shown as in progress, it and the completed count add up to
      the total; it is shown exactly when both counts are present. */
  lemma InProgressAddsUp(total: Option<int>, completed: Option<int>)
    ensures InProgress(total, completed).Num? <==> total.Some? && completed.Some?
    ensures InProgress(total, completed).Num? ==>
              InProgress(total, completed).n + completed.value == total.value
  {
  }

  // ----- Search in the student and group tables -----

  /** A table cell: `None` where no item was set. */
  type Cell = Option<string>

  /** The reference meaning of the filter: some cell holds the query, both lower-cased. */
  predicate Matches(cells: seq<Cell>, query: string)
  {
    exists col :: 0 <= col < |cells| && cells[col].Some? && IsSubstring(Lower(query), Lower(cells[col].value))
  }

  /** `q in s`, by trying every start position in turn. */
  method Contains(q: string, s: string) returns (found: bool)
    ensures found <==> IsSubstring(q, s)
  {
    if |q| > |s| {
      return false;
    }
    var i := 0;
    while i <= |s| - |q|
      invariant 0 <= i <= |s| - |q| + 1
      invariant forall j :: 0 <= j < i ==> !OccursAt(q, s, j)
    {
      if s[i..i + |q|] == q {
        assert OccursAt(q, s, i);
        return true;
      }
      i := i + 1;
    }
    forall j | 0 <= j <= |s|
      ensures !OccursAt(q, s, j)
    {
      if j >= i {
        assert j + |q| > |s|;
      }
    }
    return false;
  }

  /** One row of `filter_students` / `filter_groups`: the columns are tried left to
      right and the first match stops the scan. */
  method RowVisible(cells: seq<Cell>, query: string) returns (show: bool)
    ensures show <==> Matches(cells, query)
  {
    var q := Lower(query);
    show := false;
    var col := 0;
    while col < |cells|
      invariant 0 <= col <= |cells|
      invariant !show
      invariant forall k :: 0 <= k < col && cells[k].Some? ==> !IsSubstring(q, Lower(cells[k].value))
    {
      if cells[col].Some? {
        var hit := Contains(q, Lower(cells[col].value));
        if hit {
          show := true;
          break;
        }
      }
      col := col + 1;
    }
  }

  /** `filter_students` / `filter_groups`: the hidden flag of every row, in row order;
      a row is hidden exactly when no cell matches. */
  method FilterRows(table: seq<seq<Cell>>, query: string) returns (hidden: seq<bool>)
    ensures |hidden| == |table|
    ensures forall row :: 0 <= row < |table| ==> (hidden[row] <==> !Matches(table[row], query))
  {
    hidden := [];
    var row := 0;
    while row < |table|
      invariant 0 <= row <= |table| && |hidden| == row
      invariant forall k :: 0 <= k < row ==> (hidden[k] <==> !Matches(table[k], query))
    {
      var show := RowVisible(table[row], query);
      hidden := hidden + [!show];
      row := row + 1;
    }
  }

  /** The search ignores case: a query and its lower-cased form keep the same rows. */
  lemma MatchesIgnoresCase(cells: seq<Cell>, query: string)
    ensures Matches(cells, Lower(query)) <==> Matches(cells, query)
  {
    LowerIdempotent(query);
  }

  /** An empty query shows every row that has at least one item, and hides a row with
      none. */
  lemma EmptyQueryShowsFilledRows(cells: seq<Cell>)
    ensures Matches(cells, "") <==> exists col :: 0 <= col < |cells| && cells[col].Some?
  {
    if exists col :: 0 <= col < |cells| && cells[col].Some? {
      var col :| 0 <= col < |cells| && cells[col].Some?;
      EmptyIsSubstring(Lower(cells[col].value));
      assert Lower("") == "";
    }
  }

  // ----- Members of a group -----

  /** What a member entry offers: the user's first name, login and id. */
  datatype Member = Member(firstName: Value, username: Value, id: int)

  /** The text `f"{value}"` gives for a localized value. Integers are shown in decimal;
      `None` as `"None"`, although a localized value is never `None`. */
  function Render(v: Value): (r: string)
    ensures v.Str? ==> r == v.s
    ensures v.Null? ==> r == "None"
    ensures v.Num? ==> r != [] && (r[0] == '-' <==> v.n < 0)
  {
    match v
    case Null => "None"
    case Str(s) => s
    case Num(n) => if n < 0 then "-" + Decimal(-n) else Decimal(n)
  }

  /** The decimal digits of a natural number, with no leading zero unless the number is
      zero itself. */
  function Decimal(n: nat): (r: string)
    ensures r != []
    ensures forall k :: 0 <= k < |r| ==> '0' <= r[k] <= '9'
    ensures r[0] == '0' ==> n == 0
  {
    if n < 10 then [Digit(n)] else Decimal(n / 10) + [Digit(n % 10)]
  }

  function Digit(d: nat): (c: char)
    requires d < 10
    ensures '0' <= c <= '9'
    ensures c as int - '0' as int == d
  {
    ['0', '1', '2', '3', '4', '5', '6', '7', '8', '9'][d]
  }

  /** The number a string of decimal digits spells, most significant digit first. */
  function DigitsValue(s: string): int
  {
    if s == [] then 0 else DigitsValue(s[..|s| - 1]) * 10 + (s[|s| - 1] as int - '0' as int)
  }

  /** Reading the digits back gives the number: `Decimal` loses nothing. */
  lemma {:induction false} DecimalValue(n: nat)
    ensures DigitsValue(Decimal(n)) == n
  {
    if n >= 10 {
      var r := Decimal(n);
      DecimalValue(n / 10);
      assert r[..|r| - 1] == Decimal(n / 10);
    }
  }

  /** A rendered integer reads back as the integer: an optional minus sign, then the
      digits of its magnitude. */
  lemma RenderNumValue(n: int)
    ensures n >= 0 ==> DigitsValue(Render(Num(n))) == n
    ensures n < 0 ==> Render(Num(n))[0] == '-' && DigitsValue(Render(Num(n))[1..]) == -n
  {
    if n < 0 {
      RenderNegative(n, Render(Num(n)));
    } else {
      DecimalValue(n);
    }
  }

  lemma RenderNegative(n: int, r: string)
    requires n < 0 && r == "-" + Decimal(-n)
    ensures r[0] == '-' && DigitsValue(r[1..]) == -n
  {
    assert r[1..] == Decimal(-n);
    DecimalValue(-n);
  }

  /** The text of the placeholder row shown for a group with no members. */
  const NoMembers := "Нет участников"

  /** The member table after loading a group: its rows of cells, the id list kept
      beside it, and whether the table takes clicks. */
  datatype MemberView = MemberView(rows: seq<seq<string>>, ids: seq<int>, enabled: bool)

  /** The members part of `load_data`: one row per member holding the stripped
      localized first name and the localized login, with the ids recorded in the same
      order; with no members, one spanned placeholder row, no ids, and the table
      disabled. */
  function LoadMembers(members: seq<Member>): (r: MemberView)
    ensures r.enabled <==> members != []
    ensures r.enabled ==> |r.rows| == |members| == |r.ids|
    ensures !r.enabled ==> r.rows == [[NoMembers]] && r.ids == []
  {
    if members == [] then MemberView([[NoMembers]], [], false)
    else MemberView(MemberRows(members), MemberIds(members), true)
  }

  function MemberRows(members: seq<Member>): (r: seq<seq<string>>)
    ensures |r| == |members|
  {
    seq(|members|, i requires 0 <= i < |members| => MemberCells(members[i]))
  }

  /** The two cells of one member's row. */
  function MemberCells(m: Member): seq<string>
  {
    [Strip(Render(Localize(m.firstName))), Render(Localize(m.username))]
  }

  function MemberIds(members: seq<Member>): (r: seq<int>)
    ensures |r| == |members|
  {
    seq(|members|, i requires 0 <= i < |members| => members[i].id)
  }

  /** `on_member_selected`: a disabled table ignores the click; otherwise the id kept
      for the clicked row is emitted, and a row past the list emits nothing, the
      `IndexError` being caught. */
  function SelectMember(view: MemberView, row: nat): (r: Option<int>)
    ensures r.Some? <==> view.enabled && row < |view.ids|
    ensures r.Some? ==> r.value == view.ids[row]
  {
    if !view.enabled then None
    else if row < |view.ids| then Some(view.ids[row])
    else None
  }

  /** A click on a member's row of a loaded group emits exactly that member's id, and
      the member's cells are the ones shown in that row. */
  lemma SelectLoadedMember(members: seq<Member>, row: nat)
    requires row < |members|
    ensures SelectMember(LoadMembers(members), row) == Some(members[row].id)
    ensures LoadMembers(members).rows[row] == MemberCells(members[row])
  {
  }

  /** With no members, every click, the placeholder row included, is ignored. */
  lemma NoMembersIgnoresClicks(row: nat)
    ensures SelectMember(LoadMembers([]), row).None?
  {
  }

  /** A member's shown cells are never empty for missing data: a missing first name or
      login reads `NotSet`. */
  lemma MissingFieldsShowNotSet(m: Member)
    requires Missing(m.firstName) && Missing(m.username)
    ensures MemberCells(m) == [NotSet, NotSet]
  {
    StripUnchanged(NotSet);
  }
}

=== FILE: app_courses_page.dfy ===
/** The course page of the main application: creating a course (GitHub repository,
    photo upload, LMS course, then the database row), deleting the selected course, and
    creating a module in it. A caught exception ends the action with an error dialog and
    nothing already done remotely is undone. */
module AppCoursesPage {
  import opened Wrappers
  import opened Text
  import opened Naming
  import opened Schema
  import opened Remote
  import opened Pages
  import GithubApi
  import Database
  import Hub
  import Lms

  /** What `create_course` does once the repository exists: upload the image, create
      the LMS course with the photo's id, then store the row under the repository's URL
      `url`. Nothing on GitHub changes here. */
  function PublishCourse(env: Env, w: World, title: string, description: string, imagePath: string, url: string): (r: Run)
    ensures r.w.hub == w.hub
    ensures NoDeletes(w, r.w)
    ensures r.out.Done? || r.out.Failed?
    ensures !r.out.Done? ==> r.w.cache == w.cache
    ensures r.out.Failed? ==> r.out.exc in {IoError, HttpError, Exc.IntegrityError}
    ensures r.out.Done? <==>
              env.readFile(imagePath).Some? && !env.fails(|w.log|) && !env.fails(|w.log| + 1)
              && Database.AddCourse(w.cache, url, title, Some(description), Some(w.lms.next + 1)).Ok?
    ensures r.out.Done? ==>
              r.w.log == w.log + [LmsUpload(imagePath), LmsCreate(Lms.CourseRec(title, description, w.lms.next))]
              && r.w.lms.records == w.lms.records[w.lms.next := Lms.PhotoRec(imagePath)][w.lms.next + 1 := Lms.CourseRec(title, description, w.lms.next)]
              && r.w.lms.next == w.lms.next + 2
              && r.w.cache == Database.AddCourse(w.cache, url, title, Some(description), Some(w.lms.next + 1)).value.0
  {
    var s1 := UploadPhoto(env, w, imagePath);
    if s1.r.Err? then Run(s1.w, Failed(s1.r.error))
    else
      var s2 := LmsCreateRecord(env, s1.w, Lms.CourseRec(title, description, s1.r.value));
      NoDeletesTrans(w, s1.w, s2.w);
      if s2.r.Err? then Run(s2.w, Failed(s2.r.error))
      else
        match Database.AddCourse(s2.w.cache, url, title, Some(description), Some(s2.r.value))
        case Err(_) => Run(s2.w, Failed(Exc.IntegrityError))
        case Ok((c, _)) => Run(s2.w.(cache := c), Done)
  }

  /** What a finished `create_course` leaves behind in `v`, starting from `w`: a new
      repository holding only the README, the photo and the LMS course under the next
      two LMS ids, the course row under the repository's URL, and exactly four calls. */
  predicate CourseCreated(env: Env, w: World, v: World, title: string, description: string, imagePath: string)
  {
    var name := RepoName(env.translit, title);
    var url := HtmlUrl(w.hub.login, name);
    var photo := w.lms.next;
    var sid := w.lms.next + 1;
    name !in w.hub.repos
    && v.log == w.log + [GhCreateRepo(name), GhCreateFile(name, "README.md"), LmsUpload(imagePath), LmsCreate(Lms.CourseRec(title, description, photo))]
    && v.hub.repos == w.hub.repos[name := Hub.Repo(map["README.md" := Hub.File(ReadmeText(title, description), w.hub.nextSha)])]
    && v.lms.records == w.lms.records[photo := Lms.PhotoRec(imagePath)][sid := Lms.CourseRec(title, description, photo)]
    && Database.AddCourse(w.cache, url, title, Some(description), Some(sid)).Ok?
    && v.cache == Database.AddCourse(w.cache, url, title, Some(description), Some(sid)).value.0
  }

  /** `create_course` once the dialog is accepted; `title`, `description` and `imagePath`
      are what the form hands back. The duplicate check compares titles ignoring case.
      A failure part way leaves whatever was already created where it is. */
  function CreateCourse(env: Env, w: World, title: string, description: string, imagePath: string): (r: Run)
    ensures title == "" ==> r == Run(w, Ignored)
    ensures title != "" && AnyTitleLike(CoursesByTitle(w.cache), CourseTitle, title) ==> r == Run(w, Warned(DuplicateTitle))
    ensures !r.out.Done? ==> r.w.cache == w.cache
    ensures r.out.Failed? ==> r.out.exc in {RuntimeError, IoError, HttpError, Exc.IntegrityError}
    ensures r.out == Failed(RuntimeError) ==> r.w.lms == w.lms
    ensures r.out.Failed? && r.out.exc != RuntimeError ==> RepoName(env.translit, title) in r.w.hub.repos
    ensures r.out.Done? ==> CourseCreated(env, w, r.w, title, description, imagePath)
  {
    if title == "" then Run(w, Ignored)
    else if AnyTitleLike(CoursesByTitle(w.cache), CourseTitle, title) then Run(w, Warned(DuplicateTitle))
    else
      var s := GithubApi.CreateCourse(env, w, title, description);
      if s.r.Err? then Run(s.w, Failed(s.r.error))
      else
        var p := PublishCourse(env, s.w, title, description, imagePath, HtmlUrl(w.hub.login, s.r.value));
        assert s.r.value in p.w.hub.repos;
        assert p.w.cache == w.cache || p.out.Done?;
        assert p.out.Done? ==> CourseCreated(env, w, p.w, title, description, imagePath) by {
          if p.out.Done? {
            PublishedCourseCreated(env, w, s, p, title, description, imagePath);
          }
        }
        p
  }

  /** `create_course` as written: the same checks and repository step as `CreateCourse`,
      after which `upload_photo` always raises, so no LMS course and no row is ever
      made. `CreateCourse` is the action with the intended upload. */
  function CreateCourseAsWritten(env: Env, w: World, title: string, description: string, imagePath: string): (r: Run)
    ensures title == "" ==> r == Run(w, Ignored)
    ensures title != "" && AnyTitleLike(CoursesByTitle(w.cache), CourseTitle, title) ==> r == Run(w, Warned(DuplicateTitle))
    ensures !r.out.Done?
    ensures r.w.cache == w.cache && r.w.lms == w.lms
    ensures r.out.Failed? ==> r.out.exc in {RuntimeError, IoError, TypeError}
    ensures r.out == Failed(TypeError) <==>
              title != "" && !AnyTitleLike(CoursesByTitle(w.cache), CourseTitle, title)
              && GithubApi.CreateCourse(env, w, title, description).r.Ok? && env.readFile(imagePath).Some?
  {
    if title == "" then Run(w, Ignored)
    else if AnyTitleLike(CoursesByTitle(w.cache), CourseTitle, title) then Run(w, Warned(DuplicateTitle))
    else
      var s := GithubApi.CreateCourse(env, w, title, description);
      if s.r.Err? then Run(s.w, Failed(s.r.error))
      else
        var u := UploadPhotoAsWritten(env, s.w, imagePath);
        Run(u.w, Failed(u.r.error))
  }

  /** Wherever the intended `create_course` finishes, the written one ends in
      `TypeError` with the repository and its README already created and nothing on the
      LMS or in the cache; before the upload the two do the same. */
  lemma CreateCourseAsWrittenNeverDone(env: Env, w: World, title: string, description: string, imagePath: string)
    ensures var written := CreateCourseAsWritten(env, w, title, description, imagePath);
            var intended := CreateCourse(env, w, title, description, imagePath);
            intended.out.Done? ==>
              written.out == Failed(TypeError) && written.w.lms == w.lms && written.w.cache == w.cache
              && written.w.hub == GithubApi.CreateCourse(env, w, title, description).w.hub
              && RepoName(env.translit, title) in written.w.hub.repos
    ensures var written := CreateCourseAsWritten(env, w, title, description, imagePath);
            var intended := CreateCourse(env, w, title, description, imagePath);
            var reachesUpload := title != "" && !AnyTitleLike(CoursesByTitle(w.cache), CourseTitle, title)
                                 && GithubApi.CreateCourse(env, w, title, description).r.Ok?;
            !reachesUpload ==> written == intended
  {
    if title != "" && !AnyTitleLike(CoursesByTitle(w.cache), CourseTitle, title) {
      var s := GithubApi.CreateCourse(env, w, title, description);
      if s.r.Ok? {
        assert s.r.value in s.w.hub.repos;
        assert CreateCourse(env, w, title, description, imagePath).out.Done? ==> env.readFile(imagePath).Some?;
      }
    }
  }

  /** A published course after a created repository is what `CourseCreated` describes. */
  lemma PublishedCourseCreated(env: Env, w: World, s: Step<string>, p: Run, title: string, description: string, imagePath: string)
    requires s == GithubApi.CreateCourse(env, w, title, description) && s.r.Ok?
    requires p == PublishCourse(env, s.w, title, description, imagePath, HtmlUrl(w.hub.login, s.r.value))
    requires p.out.Done?
    ensures CourseCreated(env, w, p.w, title, description, imagePath)
  {
  }

  /** `create_course` never rolls back: whatever step fails, nothing is deleted, so a
      repository or LMS record created before the failure stays. */
  lemma CreateCourseKeepsPartialWork(env: Env, w: World, title: string, description: string, imagePath: string)
    ensures NoDeletes(w, CreateCourse(env, w, title, description, imagePath).w)
  {
    if title != "" && !AnyTitleLike(CoursesByTitle(w.cache), CourseTitle, title) {
      var s := GithubApi.CreateCourse(env, w, title, description);
      if s.r.Ok? {
        NoDeletesTrans(w, s.w, PublishCourse(env, s.w, title, description, imagePath, HtmlUrl(w.hub.login, s.r.value)).w);
      }
    }
  }

  /** When `create_course` finishes: a new title (ignoring case), no failed call, a
      usable repository name not yet taken, a readable image, and a repository URL not
      yet stored. */
  lemma CreateCourseDoneIff(env: Env, w: World, title: string, description: string, imagePath: string)
    requires w.cache.Valid()
    ensures CreateCourse(env, w, title, description, imagePath).out.Done? <==>
              title != "" && !CourseTitleTaken(w.cache, title) && NoFailures(env, |w.log|, 4)
              && RepoName(env.translit, title) != "" && RepoName(env.translit, title) !in w.hub.repos
              && env.readFile(imagePath).Some?
              && !(exists k :: k in w.cache.courses.rows
                               && w.cache.courses.rows[k].githubPath == HtmlUrl(w.hub.login, RepoName(env.translit, title)))
  {
    if title != "" && !CourseTitleTaken(w.cache, title) {
      NewTitleDoneIff(env, w, title, description, imagePath);
    } else {
      TitleRefusedNotDone(env, w, title, description, imagePath);
    }
  }

  /** With a new title, `create_course` finishes exactly when the remote steps and the
      insert do. */
  lemma NewTitleDoneIff(env: Env, w: World, title: string, description: string, imagePath: string)
    requires w.cache.Valid()
    requires title != "" && !CourseTitleTaken(w.cache, title)
    ensures CreateCourse(env, w, title, description, imagePath).out.Done? <==>
              NoFailures(env, |w.log|, 4)
              && RepoName(env.translit, title) != "" && RepoName(env.translit, title) !in w.hub.repos
              && env.readFile(imagePath).Some?
              && !(exists k :: k in w.cache.courses.rows
                               && w.cache.courses.rows[k].githubPath == HtmlUrl(w.hub.login, RepoName(env.translit, title)))
  {
    if GithubApi.CreateCourse(env, w, title, description).r.Ok? {
      RepoMadeDoneIff(env, w, title, description, imagePath);
    } else {
      RepoFailedNotDone(env, w, title, description, imagePath);
    }
  }

  /** `CreatedRepoThenPublish` with the first two calls folded into the count. */
  lemma RepoMadeDoneIff(env: Env, w: World, title: string, description: string, imagePath: string)
    requires w.cache.Valid()
    requires title != "" && !CourseTitleTaken(w.cache, title)
    requires GithubApi.CreateCourse(env, w, title, description).r.Ok?
    ensures RepoName(env.translit, title) != "" && RepoName(env.translit, title) !in w.hub.repos
    ensures CreateCourse(env, w, title, description, imagePath).out.Done? <==>
              NoFailures(env, |w.log|, 4) && env.readFile(imagePath).Some?
              && !(exists k :: k in w.cache.courses.rows
                               && w.cache.courses.rows[k].githubPath == HtmlUrl(w.hub.login, RepoName(env.translit, title)))
  {
    NoExactTitle(w.cache, title);
    CreatedRepoThenPublish(env, w, title, description, imagePath);
    NoFailuresUpTo4(env, |w.log|);
  }

  /** An empty or taken title never finishes. */
  lemma TitleRefusedNotDone(env: Env, w: World, title: string, description: string, imagePath: string)
    requires w.cache.Valid()
    requires title == "" || CourseTitleTaken(w.cache, title)
    ensures !CreateCourse(env, w, title, description, imagePath).out.Done?
  {
    CourseListingCheck(w.cache, title);
  }

  /** When the repository cannot be made, `create_course` does not finish. */
  lemma RepoFailedNotDone(env: Env, w: World, title: string, description: string, imagePath: string)
    requires w.cache.Valid()
    requires title != "" && !CourseTitleTaken(w.cache, title)
    requires GithubApi.CreateCourse(env, w, title, description).r.Err?
    ensures !CreateCourse(env, w, title, description, imagePath).out.Done?
    ensures !(NoFailures(env, |w.log|, 4) && RepoName(env.translit, title) != ""
              && RepoName(env.translit, title) !in w.hub.repos)
  {
    CourseListingCheck(w.cache, title);
    NoFailuresUpTo4(env, |w.log|);
  }

  /** Once the repository is made, `create_course` finishes exactly when publishing does. */
  lemma CreatedRepoThenPublish(env: Env, w: World, title: string, description: string, imagePath: string)
    requires w.cache.Valid()
    requires title != "" && !CourseTitleTaken(w.cache, title)
    requires forall k :: k in w.cache.courses.rows ==> w.cache.courses.rows[k].title != title
    requires GithubApi.CreateCourse(env, w, title, description).r.Ok?
    ensures !env.fails(|w.log|) && !env.fails(|w.log| + 1)
            && RepoName(env.translit, title) != "" && RepoName(env.translit, title) !in w.hub.repos
    ensures CreateCourse(env, w, title, description, imagePath).out.Done? <==>
              env.readFile(imagePath).Some? && !env.fails(|w.log| + 2) && !env.fails(|w.log| + 3)
              && !(exists k :: k in w.cache.courses.rows
                               && w.cache.courses.rows[k].githubPath == HtmlUrl(w.hub.login, RepoName(env.translit, title)))
  {
    CourseListingCheck(w.cache, title);
    var s := GithubApi.CreateCourse(env, w, title, description);
    var url := HtmlUrl(w.hub.login, s.r.value);
    assert CreateCourse(env, w, title, description, imagePath) == PublishCourse(env, s.w, title, description, imagePath, url);
    PublishDoneIff(env, s.w, title, description, imagePath, url);
  }

  /** The publishing half finishes exactly when the image is readable, its two LMS calls
      succeed and the repository URL is not stored yet. */
  lemma PublishDoneIff(env: Env, v: World, title: string, description: string, imagePath: string, url: string)
    requires forall k :: k in v.cache.courses.rows ==> v.cache.courses.rows[k].title != title
    ensures PublishCourse(env, v, title, description, imagePath, url).out.Done? <==>
              env.readFile(imagePath).Some? && !env.fails(|v.log|) && !env.fails(|v.log| + 1)
              && !(exists k :: k in v.cache.courses.rows && v.cache.courses.rows[k].githubPath == url)
  {
    NewCourseRow(v.cache, url, title, Some(description), Some(v.lms.next + 1));
  }

  /** With a title not stored, the insert is refused exactly when the path is stored. */
  lemma NewCourseRow(c: Cache, url: string, title: string, description: Option<string>, siteId: Option<int>)
    requires forall k :: k in c.courses.rows ==> c.courses.rows[k].title != title
    ensures Database.AddCourse(c, url, title, description, siteId).Ok? <==>
              !(exists k :: k in c.courses.rows && c.courses.rows[k].githubPath == url)
  {
  }

  /** A title not taken ignoring case is not taken exactly either. */
  lemma NoExactTitle(c: Cache, title: string)
    requires !CourseTitleTaken(c, title)
    ensures forall k :: k in c.courses.rows ==> c.courses.rows[k].title != title
  {
    forall k | k in c.courses.rows
      ensures c.courses.rows[k].title != title
    {
      if c.courses.rows[k].title == title {
        ExactIsLike(c.courses.rows[k].title, title);
      }
    }
  }

  /** `delete_course` on the selected course once confirmed: the repository named by the
      last `/`-segment of the stored URL, then the LMS course if it has an id, then the
      row. A selection that names no course still runs the (empty) row delete, then
      fails reading the missing course's title. */
  function DeleteCourse(env: Env, w: World, current: Option<int>): (r: Run)
    ensures current.None? ==> r == Run(w, Ignored)
    ensures current.Some? && current.value !in w.cache.courses.rows ==> r == Run(w, Failed(TypeError))
    ensures !r.out.Done? ==> r.w.cache == w.cache
    ensures r.out == Failed(RuntimeError) ==> r.w.hub == w.hub && r.w.lms == w.lms
    ensures r.out.Done? <==>
              current.Some? && current.value in w.cache.courses.rows
              && var course := w.cache.courses.rows[current.value];
                 var calls := if course.githubPath != "" then 2 else 0;
                 (course.githubPath != "" ==> NoFailures(env, |w.log|, 2) && LastSegment(course.githubPath, '/') in w.hub.repos)
                 && (Truthy(course.siteId) ==> !env.fails(|w.log| + calls) && course.siteId.value in w.lms.records
                                               && w.lms.records[course.siteId.value].CourseRec?)
    ensures r.out.Done? ==>
              var course := w.cache.courses.rows[current.value];
              r.w.cache == Database.DeleteCourse(w.cache, current.value)
              && r.w.hub.repos == (if course.githubPath != "" then w.hub.repos - {LastSegment(course.githubPath, '/')} else w.hub.repos)
              && r.w.lms.records == (if Truthy(course.siteId) then w.lms.records - {course.siteId.value} else w.lms.records)
  {
    if current.None? then Run(w, Ignored)
    else
      var id := current.value;
      match w.cache.courses.Get(id)
      case None => Run(w.(cache := Database.DeleteCourse(w.cache, id)), Failed(TypeError))
      case Some(course) =>
        var s1 := if course.githubPath != "" then GithubApi.DeleteCourse(env, w, LastSegment(course.githubPath, '/'))
                  else Step(w, Ok(()));
        if s1.r.Err? then Run(s1.w, Failed(s1.r.error))
        else
          var s2 := if Truthy(course.siteId) then LmsDeleteRecord(env, s1.w, course.siteId.value, Lms.CourseKind)
                    else Step(s1.w, Ok(()));
          if s2.r.Err? then Run(s2.w, Failed(s2.r.error))
          else Run(s2.w.(cache := Database.DeleteCourse(s2.w.cache, id)), Done)
  }

  /** The course row a finished `create_course` stored, and what removing each of its
      traces gives back. */
  lemma CreatedCourseTraces(env: Env, w: World, v: World, title: string, description: string, imagePath: string)
    requires CourseCreated(env, w, v, title, description, imagePath)
    requires w.cache.Valid() && w.lms.Valid()
    ensures var name := RepoName(env.translit, title);
            var id := w.cache.courses.next;
            var sid := w.lms.next + 1;
            id in v.cache.courses.rows
            && v.cache.courses.rows[id] == Course(HtmlUrl(w.hub.login, name), Some(sid), title, Some(description))
            && LastSegment(v.cache.courses.rows[id].githubPath, '/') == name
            && Database.DeleteCourse(v.cache, id).courses.rows == w.cache.courses.rows
            && |v.log| == |w.log| + 4
            && name in v.hub.repos && v.hub.repos - {name} == w.hub.repos
            && sid in v.lms.records && v.lms.records[sid].CourseRec?
            && v.lms.records - {sid} == w.lms.records[w.lms.next := Lms.PhotoRec(imagePath)]
  {
    var name := RepoName(env.translit, title);
    var url := HtmlUrl(w.hub.login, name);
    var sid := w.lms.next + 1;
    RepoNameRoundTrip(env.translit, w.hub.login, title);
    Database.AddThenDeleteCourse(w.cache, url, title, Some(description), Some(sid));
    assert sid !in w.lms.records;
  }

  /** Deleting the course a finished `create_course` left in `v`: the repository, the
      LMS course and the row go, and only the photo remains of what was created. */
  lemma DeleteCreatedCourse(env: Env, w: World, v: World, title: string, description: string, imagePath: string)
    requires CourseCreated(env, w, v, title, description, imagePath)
    requires w.cache.Valid() && w.lms.Valid() && w.lms.next >= 0
    requires NoFailures(env, |w.log| + 4, 3)
    ensures var d := DeleteCourse(env, v, Some(w.cache.courses.next));
            d.out.Done?
            && d.w.cache.courses.rows == w.cache.courses.rows
            && d.w.hub.repos == w.hub.repos
            && d.w.lms.records == w.lms.records[w.lms.next := Lms.PhotoRec(imagePath)]
  {
    NoFailuresUpTo4(env, |w.log| + 4);
    CreatedCourseTraces(env, w, v, title, description, imagePath);
  }

  /** Deleting a course right after creating it removes its repository, its LMS course
      and its row, leaving GitHub and the course table as they were; only the uploaded
      photo stays behind on the LMS. */
  lemma CreateThenDeleteCourse(env: Env, w: World, title: string, description: string, imagePath: string)
    requires CreateCourse(env, w, title, description, imagePath).out.Done?
    requires w.cache.Valid() && w.lms.Valid() && w.lms.next >= 0
    requires NoFailures(env, |w.log| + 4, 3)
    ensures var c := CreateCourse(env, w, title, description, imagePath);
            var d := DeleteCourse(env, c.w, Some(w.cache.courses.next));
            d.out.Done?
            && d.w.cache.courses.rows == w.cache.courses.rows
            && d.w.hub.repos == w.hub.repos
            && d.w.lms.records == w.lms.records[w.lms.next := Lms.PhotoRec(imagePath)]
  {
    DeleteCreatedCourse(env, w, CreateCourse(env, w, title, description, imagePath).w, title, description, imagePath);
  }

  /** `create_module` on the selected course once the dialog is accepted. The title is
      used unstripped; the duplicate check (ignoring case) covers only that course's
      modules, and a course without a repository URL makes the action do nothing. */
  function CreateModule(env: Env, w: World, current: Option<int>, title: string, description: string): (r: Run)
    ensures current.None? || title == "" ==> r == Run(w, Ignored)
    ensures current.Some? && title != "" && (current.value !in w.cache.courses.rows || w.cache.courses.rows[current.value].githubPath == "")
            ==> r == Run(w, Ignored)
    ensures current.Some? && title != "" && current.value in w.cache.courses.rows && w.cache.courses.rows[current.value].githubPath != ""
            && AnyTitleLike(ModulesOf(w.cache, current.value), ModuleTitle, title)
            ==> r == Run(w, Warned(DuplicateTitle))
    ensures !r.out.Done? ==> r.w.cache == w.cache
    ensures r.out.Failed? ==> r.out.exc in {RuntimeError, Plain, HttpError, Exc.IntegrityError}
    ensures r.out == Failed(Plain) ==>
              var course := w.cache.courses.rows[current.value];
              var repo := RepoName(env.translit, course.title);
              !Truthy(course.siteId) && r.w.lms == w.lms
              && repo in r.w.hub.repos && ModuleReadmePath(title) in r.w.hub.repos[repo].files
    ensures r.out.Done? ==>
              var course := w.cache.courses.rows[current.value];
              var repo := RepoName(env.translit, course.title);
              Truthy(course.siteId)
              && repo in w.hub.repos && repo in r.w.hub.repos
              && r.w.hub.repos[repo].files == w.hub.repos[repo].files[ModuleReadmePath(title) := Hub.File(ReadmeText(title, description), w.hub.nextSha)]
              && r.w.lms.records == w.lms.records[w.lms.next := Lms.ModuleRec(course.siteId.value, title, description)]
              && Database.AddModule(w.cache, current.value, title, title, Some(description), Some(w.lms.next)).Ok?
              && r.w.cache == Database.AddModule(w.cache, current.value, title, title, Some(description), Some(w.lms.next)).value.0
  {
    if current.None? || title == "" then Run(w, Ignored)
    else
      var cid := current.value;
      match w.cache.courses.Get(cid)
      case None => Run(w, Ignored)
      case Some(course) =>
        if course.githubPath == "" then Run(w, Ignored)
        else if AnyTitleLike(ModulesOf(w.cache, cid), ModuleTitle, title) then Run(w, Warned(DuplicateTitle))
        else
          var s1 := GithubApi.GetCourse(env, w, course.title);
          if s1.r.Err? then Run(s1.w, Failed(s1.r.error))
          else
            var s2 := GithubApi.CreateModule(env, s1.w, s1.r.value, title, description);
            if s2.r.Err? then Run(s2.w, Failed(s2.r.error))
            else if !Truthy(course.siteId) then Run(s2.w, Failed(Plain))
            else
              var s3 := LmsCreateRecord(env, s2.w, Lms.ModuleRec(course.siteId.value, title, description));
              if s3.r.Err? then Run(s3.w, Failed(s3.r.error))
              else
                match Database.AddModule(s3.w.cache, cid, s2.r.value, title, Some(description), Some(s3.r.value))
                case Err(_) => Run(s3.w, Failed(Exc.IntegrityError))
                case Ok((c, _)) => Run(s3.w.(cache := c), Done)
  }

  /** `create_module` never rolls back either: a folder created before a failure stays. */
  lemma CreateModuleKeepsPartialWork(env: Env, w: World, current: Option<int>, title: string, description: string)
    ensures NoDeletes(w, CreateModule(env, w, current, title, description).w)
  {
    if current.Some? && title != "" && current.value in w.cache.courses.rows {
      var course := w.cache.courses.rows[current.value];
      if course.githubPath != "" && !AnyTitleLike(ModulesOf(w.cache, current.value), ModuleTitle, title) {
        var s1 := GithubApi.GetCourse(env, w, course.title);
        ReadsDeleteNothing(w, s1.w);
        if s1.r.Ok? {
          var s2 := GithubApi.CreateModule(env, s1.w, s1.r.value, title, description);
          NoDeletesTrans(w, s1.w, s2.w);
          if s2.r.Ok? && Truthy(course.siteId) {
            var s3 := LmsCreateRecord(env, s2.w, Lms.ModuleRec(course.siteId.value, title, description));
            NoDeletesTrans(w, s2.w, s3.w);
          }
        }
      }
    }
  }

  /** Once a module is created, creating it again in the same course under the same
      title (in any case) is refused as a duplicate. */
  lemma CreateModuleTwiceWarns(env: Env, env2: Env, w: World, cid: int, title: string, description: string, description2: string)
    requires w.cache.Valid()
    requires CreateModule(env, w, Some(cid), title, description).out.Done?
    ensures var w2 := CreateModule(env, w, Some(cid), title, description).w;
            CreateModule(env2, w2, Some(cid), title, description2) == Run(w2, Warned(DuplicateTitle))
  {
    var w2 := CreateModule(env, w, Some(cid), title, description).w;
    var added := Database.AddModule(w.cache, cid, title, title, Some(description), Some(w.lms.next));
    var id := added.value.1;
    assert w2.cache.modules.rows[id] == Module(cid, title, Some(w.lms.next), title, Some(description));
    ExactIsLike(title, title);
    assert ModuleTitleTaken(w2.cache, cid, title);
    ModuleListingCheck(w2.cache, cid, title);
    assert w2.cache.courses == w.cache.courses;
  }
}

=== FILE: app_file_steps.dfy ===
/** The two file steps the main application's lesson and task pages share: replacing a
    file's content and deleting a file, each after `repo.get_contents(path)` on the
    repository object itself (so a `GithubException` there is not re-raised as
    `RuntimeError`). Both hand the adapter a SHA it has no parameter for: `update_*`
    is called with a `sha=` keyword it does not declare, and `delete_*` receives the SHA
    in its `message` slot and calls PyGithub's `delete_file` without one. So neither ever
    reaches GitHub. */
module AppFileSteps {
  import opened Wrappers
  import opened Remote
  import GithubApi
  import Hub

  /** `contents.sha`: a file's SHA; a folder's contents are a Python list, which has no
      `sha` attribute. */
  function ShaOf(c: Hub.Contents): (r: Result<int, Exc>)
    ensures r.Ok? <==> c.FileAt?
    ensures r.Ok? ==> r.value == c.sha
    ensures r.Err? ==> r.error == AttributeError
  {
    match c
    case FileAt(_, sha) => Ok(sha)
    case Listing(_) => Err(AttributeError)
  }

  /** Why `get_contents(path)` on `repo` fails, if it does. */
  predicate ContentsFail(env: Env, w: World, repo: string, path: string)
  {
    env.fails(|w.log|) || Hub.GetContents(w.hub, repo, path).Err?
  }

  /** `contents = repo.get_contents(path)`, `open(filePath).read()`, then
      `update_*(..., sha=contents.sha)`: the lookup, the local read and the attribute
      access can fail first; otherwise the call itself is rejected with `TypeError`. */
  function ReplaceFile(env: Env, w: World, repo: string, path: string, filePath: string): (r: Step<()>)
    ensures r.w == w.(log := w.log + [GhGetContents(repo, path)])
    ensures OnlyReads(w, r.w)
    ensures r.r.Err?
    ensures r.r.error == (if ContentsFail(env, w, repo, path) then GithubError
                          else if env.readFile(filePath).None? then IoError
                          else if path !in w.hub.repos[repo].files then AttributeError
                          else TypeError)
  {
    var s1 := GetContents(env, w, repo, path);
    if s1.r.Err? then Step(s1.w, Err(s1.r.error))
    else match ReadFile(env, filePath)
      case Err(e) => Step(s1.w, Err(e))
      case Ok(content) =>
        match ShaOf(s1.r.value)
        case Err(e) => Step(s1.w, Err(e))
        case Ok(_) => Step(s1.w, Err(TypeError))
  }

  /** `contents = repo.get_contents(path)` then `delete_*(repo, path, contents.sha)`:
      past the lookup and the attribute access, the adapter's `delete_file` call lacks
      the SHA. */
  function DeleteFile(env: Env, w: World, repo: string, path: string): (r: Step<()>)
    ensures r.w == w.(log := w.log + [GhGetContents(repo, path)])
    ensures OnlyReads(w, r.w)
    ensures r.r.Err?
    ensures r.r.error == (if ContentsFail(env, w, repo, path) then GithubError
                          else if path !in w.hub.repos[repo].files then AttributeError
                          else TypeError)
  {
    var s1 := GetContents(env, w, repo, path);
    if s1.r.Err? then Step(s1.w, Err(s1.r.error))
    else match ShaOf(s1.r.value)
      case Err(e) => Step(s1.w, Err(e))
      case Ok(_) => GithubApi.DeleteFileNoSha(env, s1.w, repo, path)
  }

  /** What the delete step evidently means: delete the file with the SHA just read. */
  function DeleteFileWithSha(env: Env, w: World, repo: string, path: string): (r: Step<()>)
    ensures r.w.cache == w.cache && r.w.lms == w.lms
    ensures r.r.Ok? <==> !env.fails(|w.log|) && !env.fails(|w.log| + 1)
                         && repo in w.hub.repos && path in w.hub.repos[repo].files
    ensures r.r.Ok? ==> r.w.hub.repos.Keys == w.hub.repos.Keys
                        && r.w.hub.repos[repo].files == w.hub.repos[repo].files - {path}
    ensures r.r.Err? ==> r.w.hub == w.hub
  {
    var s1 := GetContents(env, w, repo, path);
    if s1.r.Err? then Step(s1.w, Err(s1.r.error))
    else match ShaOf(s1.r.value)
      case Err(e) => Step(s1.w, Err(e))
      case Ok(sha) => GithubApi.Rethrow(Remote.DeleteFile(env, s1.w, repo, path, sha))
  }

  /** The delete step as written never removes anything, while the same two calls with
      the SHA passed where PyGithub expects it delete any existing file when no call
      fails. */
  lemma DeleteNeedsSha(env: Env, w: World, repo: string, path: string)
    requires !env.fails(|w.log|) && !env.fails(|w.log| + 1)
    requires repo in w.hub.repos && path in w.hub.repos[repo].files
    ensures DeleteFile(env, w, repo, path).r == Err(TypeError)
    ensures DeleteFile(env, w, repo, path).w.hub == w.hub
    ensures DeleteFileWithSha(env, w, repo, path).r.Ok?
    ensures path !in DeleteFileWithSha(env, w, repo, path).w.hub.repos[repo].files
  {
  }

  /** What the replace step evidently means: update the file with the SHA just read. */
  function ReplaceFileWithSha(env: Env, w: World, repo: string, path: string, filePath: string): (r: Step<()>)
    ensures r.w.cache == w.cache && r.w.lms == w.lms
    ensures r.r.Ok? <==> !env.fails(|w.log|) && !env.fails(|w.log| + 1) && env.readFile(filePath).Some?
                         && repo in w.hub.repos && path in w.hub.repos[repo].files
    ensures r.r.Ok? ==> r.w.hub.repos.Keys == w.hub.repos.Keys
                        && r.w.hub.repos[repo].files == w.hub.repos[repo].files[path := Hub.File(env.readFile(filePath).value, w.hub.nextSha)]
    ensures r.r.Err? ==> r.w.hub == w.hub
  {
    var s1 := GetContents(env, w, repo, path);
    if s1.r.Err? then Step(s1.w, Err(s1.r.error))
    else match ReadFile(env, filePath)
      case Err(e) => Step(s1.w, Err(e))
      case Ok(content) =>
        match ShaOf(s1.r.value)
        case Err(e) => Step(s1.w, Err(e))
        case Ok(sha) => GithubApi.Rethrow(Remote.UpdateFile(env, s1.w, repo, path, content, sha))
  }

  /** The replace step as written never changes the file, while the same calls with the
      SHA passed on replace any existing file with the chosen file's text when no call
      fails. */
  lemma ReplaceNeedsSha(env: Env, w: World, repo: string, path: string, filePath: string)
    requires !env.fails(|w.log|) && !env.fails(|w.log| + 1) && env.readFile(filePath).Some?
    requires repo in w.hub.repos && path in w.hub.repos[repo].files
    ensures ReplaceFile(env, w, repo, path, filePath).r == Err(TypeError)
    ensures ReplaceFile(env, w, repo, path, filePath).w.hub == w.hub
    ensures var r := ReplaceFileWithSha(env, w, repo, path, filePath);
            r.r.Ok? && r.w.hub.repos[repo].files[path].content == env.readFile(filePath).value
  {
  }
}

=== FILE: app_lessons_page.dfy ===
/** The lesson page of the main application: replacing the selected lesson's file,
    deleting the lesson, and creating a task in it. A lesson reaches its course through
    its module; when either row is missing the update and create actions end silently. */
module AppLessonsPage {
  import opened Wrappers
  import opened Text
  import opened Naming
  import opened Tables
  import opened Schema
  import opened Remote
  import opened Pages
  import GithubApi
  import AppFileSteps
  import Database
  import Hub
  import Lms
  import UrlQuote

  /** `update_lesson`: after the lookups and a chosen file, the repository, the file's
      contents, the new text and `contents.sha` are fetched in turn; the adapter call then
      rejects its `sha=` keyword. So the action never updates anything: it only reads,
      and it ends with `TypeError` exactly when every earlier step succeeded. */
  function UpdateLesson(env: Env, w: World, current: Option<int>, filePath: string): (r: Run)
    ensures !Truthy(current) ==> r == Run(w, Ignored)
    ensures Truthy(current) && (current.value !in w.cache.lessons.rows
                                || CourseOfModule(w.cache, w.cache.lessons.rows[current.value].moduleId).None?)
            ==> r == Run(w, Ignored)
    ensures Truthy(current) && current.value in w.cache.lessons.rows
            && CourseOfModule(w.cache, w.cache.lessons.rows[current.value].moduleId).Some? && filePath == ""
            ==> r == Run(w, Warned(NoFile))
    ensures OnlyReads(w, r.w)
    ensures !r.out.Done?
    ensures r.out.Failed? ==> r.out.exc in {RuntimeError, GithubError, IoError, AttributeError, TypeError}
    ensures r.out == Failed(TypeError) <==>
              Truthy(current) && current.value in w.cache.lessons.rows && filePath != ""
              && var l := w.cache.lessons.rows[current.value];
                 CourseOfModule(w.cache, l.moduleId).Some?
                 && var repo := RepoName(env.translit, CourseOfModule(w.cache, l.moduleId).value.val.title);
                    NoFailures(env, |w.log|, 2) && repo in w.hub.repos && l.githubPath in w.hub.repos[repo].files
                    && env.readFile(filePath).Some?
  {
    if !Truthy(current) then Run(w, Ignored)
    else match w.cache.lessons.Get(current.value)
      case None => Run(w, Ignored)
      case Some(l) =>
        match CourseOfModule(w.cache, l.moduleId)
        case None => Run(w, Ignored)
        case Some(course) =>
          if filePath == "" then Run(w, Warned(NoFile))
          else
            var s1 := GithubApi.GetCourse(env, w, course.val.title);
            if s1.r.Err? then Run(s1.w, Failed(s1.r.error))
            else
              var s2 := AppFileSteps.ReplaceFile(env, s1.w, s1.r.value, l.githubPath, filePath);
              OnlyReadsTrans(w, s1.w, s2.w);
              Run(s2.w, Failed(s2.r.error))
  }

  /** The `github_path` of the first task in `ts` that has one. */
  function FirstWithPath(ts: seq<Row<Task>>): (r: Option<string>)
    ensures r.Some? ==> r.value != ""
  {
    if ts == [] then None
    else if ts[0].val.githubPath != "" then Some(ts[0].val.githubPath)
    else FirstWithPath(ts[1..])
  }

  /** `FirstWithPath` finds a path exactly when some task has one, and then it is the
      path of a task before which no task has one. */
  lemma {:induction false} FirstWithPathFinds(ts: seq<Row<Task>>)
    ensures FirstWithPath(ts).Some? <==> exists i :: 0 <= i < |ts| && ts[i].val.githubPath != ""
    ensures FirstWithPath(ts).Some? ==>
              exists i :: 0 <= i < |ts| && ts[i].val.githubPath == FirstWithPath(ts).value
                          && forall j :: 0 <= j < i ==> ts[j].val.githubPath == ""
  {
    if ts != [] && ts[0].val.githubPath == "" {
      var r := FirstWithPath(ts[1..]);
      FirstWithPathFinds(ts[1..]);
      if r.Some? {
        var i :| 0 <= i < |ts[1..]| && ts[1..][i].val.githubPath == r.value
                 && forall j :: 0 <= j < i ==> ts[1..][j].val.githubPath == "";
        assert ts[i + 1].val.githubPath == r.value;
        forall j | 0 <= j < i + 1
          ensures ts[j].val.githubPath == ""
        {
          if j > 0 { assert ts[j] == ts[1..][j - 1]; }
        }
      } else {
        forall i | 0 <= i < |ts|
          ensures ts[i].val.githubPath == ""
        {
          if i > 0 { assert ts[i] == ts[1..][i - 1]; }
        }
      }
    }
  }

  /** `delete_lesson`. A lesson with a `github_path` whose module and course exist goes
      to GitHub: the repository is looked up, then each of the lesson's tasks with a path
      and finally the lesson's own file is fetched and handed to a `delete_*` adapter that
      receives the SHA as its commit message and so fails. The first such file therefore
      ends the action, with nothing deleted. Otherwise only the row is deleted: not its
      tasks (the database does not cascade) and not its LMS lesson. */
  function DeleteLesson(env: Env, w: World, current: Option<int>): (r: Run)
    ensures current.None? ==> r == Run(w, Ignored)
    ensures current.Some? && current.value !in w.cache.lessons.rows ==> r == Run(w, Failed(TypeError))
    ensures r.out.Done? <==>
              current.Some? && current.value in w.cache.lessons.rows
              && var l := w.cache.lessons.rows[current.value];
                 l.githubPath == "" || CourseOfModule(w.cache, l.moduleId).None?
    ensures r.out.Done? ==> r.w == w.(cache := Database.DeleteLesson(w.cache, current.value))
    ensures !r.out.Done? ==> OnlyReads(w, r.w)
    ensures r.out.Failed? ==> r.out.exc in {TypeError, RuntimeError, GithubError, AttributeError}
  {
    if current.None? then Run(w, Ignored)
    else
      var id := current.value;
      match w.cache.lessons.Get(id)
      case None => Run(w.(cache := Database.DeleteLesson(w.cache, id)), Failed(TypeError))
      case Some(l) =>
        if l.githubPath == "" then Run(w.(cache := Database.DeleteLesson(w.cache, id)), Done)
        else
          match CourseOfModule(w.cache, l.moduleId)
          case None => Run(w.(cache := Database.DeleteLesson(w.cache, id)), Done)
          case Some(course) =>
            var s1 := GithubApi.GetCourse(env, w, course.val.title);
            if s1.r.Err? then Run(s1.w, Failed(s1.r.error))
            else
              var target := match FirstWithPath(TasksOf(w.cache, id))
                case Some(p) => p
                case None => l.githubPath;
              var s2 := AppFileSteps.DeleteFile(env, s1.w, s1.r.value, target);
              OnlyReadsTrans(w, s1.w, s2.w);
              Run(s2.w, Failed(s2.r.error))
  }

  /** A lesson deleted while it still has tasks leaves them behind, pointing at a lesson
      that no longer exists. */
  lemma DeleteLessonOrphansTasks(env: Env, w: World, id: int, taskId: int)
    requires DeleteLesson(env, w, Some(id)).out.Done?
    requires taskId in w.cache.tasks.rows && w.cache.tasks.rows[taskId].lessonId == id
    ensures var c := DeleteLesson(env, w, Some(id)).w.cache;
            taskId in c.tasks.rows && !c.Linked()
  {
    Database.DeleteLessonOrphansTasks(w.cache, id, taskId);
  }

  // ----- create_task -----

  /** The lookups every lesson-page action starts with succeed: the lesson, its module
      and the module's course all exist. */
  predicate LessonChain(c: Cache, current: Option<int>)
  {
    Truthy(current) && current.value in c.lessons.rows
    && CourseOfModule(c, c.lessons.rows[current.value].moduleId).Some?
  }

  /** `create_task` as written: past the lookups, the field check and the two exact
      title checks (the lesson's tasks, the module's lessons), it calls
      `get_tasks_by_module`, which the database class does not define. That call sits
      outside the `try`, so the `AttributeError` leaves the slot unhandled. Nothing
      changes in any case. */
  function CreateTask(env: Env, w: World, current: Option<int>, title: string, filePath: string): (r: Run)
    ensures r.w == w
    ensures !LessonChain(w.cache, current) ==> r.out == Ignored
    ensures LessonChain(w.cache, current) && (title == "" || filePath == "") ==> r.out == Warned(Incomplete)
    ensures LessonChain(w.cache, current) && title != "" && filePath != "" ==>
              var l := w.cache.lessons.rows[current.value];
              r.out == (if AnyTitleIs(TasksOf(w.cache, current.value), TaskTitle, title)
                           || AnyTitleIs(LessonsOf(w.cache, l.moduleId), LessonTitle, title)
                        then Warned(DuplicateTitle) else Escaped(AttributeError))
  {
    if !LessonChain(w.cache, current) then Run(w, Ignored)
    else if title == "" || filePath == "" then Run(w, Warned(Incomplete))
    else
      var l := w.cache.lessons.rows[current.value];
      if AnyTitleIs(TasksOf(w.cache, current.value), TaskTitle, title)
         || AnyTitleIs(LessonsOf(w.cache, l.moduleId), LessonTitle, title) then Run(w, Warned(DuplicateTitle))
      else Run(w, Escaped(AttributeError))
  }

  /** The last stage of `create_task` once the file is written at `path`: an LMS step of
      type `ASSIGNMENT` when the lesson's `site_id` is truthy, then the row (with the
      step's id, or with no `site_id`). */
  function PublishTask(env: Env, w: World, lessonId: int, lessonSite: Option<int>, title: string, path: string, raw: string): (r: Run)
    ensures r.w.hub == w.hub
    ensures r.out.Done? || r.out == Failed(HttpError) || r.out == Failed(Exc.IntegrityError)
    ensures !r.out.Done? ==> r.w.cache == w.cache
    ensures var site := if Truthy(lessonSite) then Some(w.lms.next) else None;
            r.out.Done? <==>
              (Truthy(lessonSite) ==> !env.fails(|w.log|) && lessonSite.value in w.lms.records
                                      && w.lms.records[lessonSite.value].LessonRec?)
              && Database.AddTask(w.cache, lessonId, path, title, raw, site).Ok?
    ensures r.out.Done? ==>
              var site := if Truthy(lessonSite) then Some(w.lms.next) else None;
              r.w.lms.records == (if Truthy(lessonSite)
                                  then w.lms.records[w.lms.next := Lms.StepRec(lessonSite.value, title, UrlQuote.Quote(raw), "ASSIGNMENT")]
                                  else w.lms.records)
              && r.w.cache == Database.AddTask(w.cache, lessonId, path, title, raw, site).value.0
    ensures NoDeletes(w, r.w)
  {
    if Truthy(lessonSite) then
      var s := LmsCreateRecord(env, w, Lms.StepRec(lessonSite.value, title, UrlQuote.Quote(raw), "ASSIGNMENT"));
      if s.r.Err? then Run(s.w, Failed(s.r.error))
      else
        match Database.AddTask(s.w.cache, lessonId, path, title, raw, Some(s.r.value))
        case Err(_) => Run(s.w, Failed(Exc.IntegrityError))
        case Ok((c, _)) => Run(s.w.(cache := c), Done)
    else
      match Database.AddTask(w.cache, lessonId, path, title, raw, None)
      case Err(_) => Run(w, Failed(Exc.IntegrityError))
      case Ok((c, _)) => Run(w.(cache := c), Done)
  }

  /** `create_task` as evidently intended: the third title check looks, exactly, at the
      tasks of every lesson of the module; then, inside the `try`, the repository, the
      chosen file's text, the file `{module title}/{title}.md`, and the LMS step and row. */
  function CreateTaskFixed(env: Env, w: World, current: Option<int>, title: string, filePath: string): (r: Run)
    ensures !LessonChain(w.cache, current) ==> r == Run(w, Ignored)
    ensures LessonChain(w.cache, current) && (title == "" || filePath == "") ==> r == Run(w, Warned(Incomplete))
    ensures LessonChain(w.cache, current) && title != "" && filePath != ""
            && TaskTitleIsInModule(w.cache, w.cache.lessons.rows[current.value].moduleId, title)
            ==> r == Run(w, Warned(DuplicateTitle))
    ensures !r.out.Done? ==> r.w.cache == w.cache
    ensures r.out.Failed? ==> r.out.exc in {RuntimeError, IoError, HttpError, Exc.IntegrityError}
    ensures r.out.Done? ==>
              var l := w.cache.lessons.rows[current.value];
              var m := w.cache.modules.rows[l.moduleId];
              var repo := RepoName(env.translit, w.cache.courses.rows[m.courseId].title);
              var path := MarkdownPath(m.title, title);
              var raw := RawUrl(w.hub.login, repo, path);
              var site := if Truthy(l.siteId) then Some(w.lms.next) else None;
              env.readFile(filePath).Some?
              && repo in w.hub.repos && repo in r.w.hub.repos
              && r.w.hub.repos[repo].files == w.hub.repos[repo].files[path := Hub.File(env.readFile(filePath).value, w.hub.nextSha)]
              && Database.AddTask(w.cache, current.value, path, title, raw, site).Ok?
              && r.w.cache == Database.AddTask(w.cache, current.value, path, title, raw, site).value.0
  {
    if !LessonChain(w.cache, current) then Run(w, Ignored)
    else if title == "" || filePath == "" then Run(w, Warned(Incomplete))
    else
      var lid := current.value;
      var l := w.cache.lessons.rows[lid];
      var m := w.cache.modules.rows[l.moduleId];
      var course := w.cache.courses.rows[m.courseId];
      if AnyTitleIs(TasksOf(w.cache, lid), TaskTitle, title)
         || AnyTitleIs(LessonsOf(w.cache, l.moduleId), LessonTitle, title)
         || TaskTitleIsInModule(w.cache, l.moduleId, title) then Run(w, Warned(DuplicateTitle))
      else
        var s1 := GithubApi.GetCourse(env, w, course.title);
        if s1.r.Err? then Run(s1.w, Failed(s1.r.error))
        else
          match ReadFile(env, filePath)
          case Err(e) => Run(s1.w, Failed(e))
          case Ok(content) =>
            var s2 := GithubApi.CreateMarkdown(env, s1.w, s1.r.value, m.title, title, content);
            if s2.r.Err? then Run(s2.w, Failed(s2.r.error))
            else
              var p := PublishTask(env, s2.w, lid, l.siteId, title, s2.r.value, RawUrl(w.hub.login, s1.r.value, s2.r.value));
              assert s1.r.value in p.w.hub.repos;
              p
  }

  /** Wherever the intended version creates a task, the code as written escapes with
      `AttributeError` and changes nothing. */
  lemma CreateTaskNeverCreates(env: Env, w: World, current: Option<int>, title: string, filePath: string)
    requires CreateTaskFixed(env, w, current, title, filePath).out.Done?
    ensures CreateTask(env, w, current, title, filePath) == Run(w, Escaped(AttributeError))
  {
  }

  /** `create_task` deletes nothing, whatever fails. */
  lemma CreateTaskKeepsPartialWork(env: Env, w: World, current: Option<int>, title: string, filePath: string)
    ensures NoDeletes(w, CreateTaskFixed(env, w, current, title, filePath).w)
  {
    if LessonChain(w.cache, current) && title != "" && filePath != "" {
      var lid := current.value;
      var l := w.cache.lessons.rows[lid];
      var m := w.cache.modules.rows[l.moduleId];
      var course := w.cache.courses.rows[m.courseId];
      if !(AnyTitleIs(TasksOf(w.cache, lid), TaskTitle, title)
           || AnyTitleIs(LessonsOf(w.cache, l.moduleId), LessonTitle, title)
           || TaskTitleIsInModule(w.cache, l.moduleId, title)) {
        var s1 := GithubApi.GetCourse(env, w, course.title);
        ReadsDeleteNothing(w, s1.w);
        if s1.r.Ok? && env.readFile(filePath).Some? {
          var s2 := GithubApi.CreateMarkdown(env, s1.w, s1.r.value, m.title, title, env.readFile(filePath).value);
          NoDeletesTrans(w, s1.w, s2.w);
          if s2.r.Ok? {
            var p := PublishTask(env, s2.w, lid, l.siteId, title, s2.r.value, RawUrl(w.hub.login, s1.r.value, s2.r.value));
            NoDeletesTrans(w, s2.w, p.w);
          }
        }
      }
    }
  }

  /** Once a task is created, creating one under the same title in any lesson of the
      same module is refused as a duplicate. */
  lemma CreateTaskTwiceWarns(env: Env, env2: Env, w: World, lid: int, lid2: int, title: string, filePath: string, filePath2: string)
    requires filePath2 != ""
    requires CreateTaskFixed(env, w, Some(lid), title, filePath).out.Done?
    requires lid2 in w.cache.lessons.rows && w.cache.lessons.rows[lid2].moduleId == w.cache.lessons.rows[lid].moduleId
    requires LessonChain(w.cache, Some(lid2))
    ensures var w2 := CreateTaskFixed(env, w, Some(lid), title, filePath).w;
            CreateTaskFixed(env2, w2, Some(lid2), title, filePath2) == Run(w2, Warned(DuplicateTitle))
  {
    var l := w.cache.lessons.rows[lid];
    var m := w.cache.modules.rows[l.moduleId];
    var repo := RepoName(env.translit, w.cache.courses.rows[m.courseId].title);
    var path := MarkdownPath(m.title, title);
    var raw := RawUrl(w.hub.login, repo, path);
    var site := if Truthy(l.siteId) then Some(w.lms.next) else None;
    var c2 := CreateTaskFixed(env, w, Some(lid), title, filePath).w.cache;
    var id := Database.AddTask(w.cache, lid, path, title, raw, site).value.1;
    assert c2.tasks.rows[id].lessonId == lid && c2.tasks.rows[id].title == title;
    assert c2.lessons == w.cache.lessons && c2.modules == w.cache.modules && c2.courses == w.cache.courses;
    assert lid in LessonIdsOf(c2, {l.moduleId});
    assert TaskTitleIsInModule(c2, l.moduleId, title);
  }
}

=== FILE: app_modules_page.dfy ===
/** The module page of the main application: deleting the selected module and creating a
    lesson in it. Both actions run inside one `try` whose handler shows an error dialog;
    nothing done remotely before a failure is undone. */
module AppModulesPage {
  import opened Wrappers
  import opened Text
  import opened Naming
  import opened Schema
  import opened Remote
  import opened Pages
  import GithubApi
  import TestGithubApi
  import Database
  import Hub
  import Lms
  import UrlQuote

  /** The end of `delete_module` for a module row `m` found under `id`: its LMS module
      when `site_id` is truthy, then the row. */
  function DropModule(env: Env, w: World, id: int, m: Module): (r: Run)
    ensures r.w.hub == w.hub
    ensures r.out.Done? || r.out == Failed(HttpError)
    ensures r.out.Done? <==>
              (Truthy(m.siteId) ==> !env.fails(|w.log|) && m.siteId.value in w.lms.records
                                    && w.lms.records[m.siteId.value].ModuleRec?)
    ensures r.out.Done? ==> r.w.cache == Database.DeleteModule(w.cache, id)
                            && r.w.lms.records == (if Truthy(m.siteId) then w.lms.records - {m.siteId.value} else w.lms.records)
    ensures !r.out.Done? ==> r.w.cache == w.cache && r.w.lms == w.lms
  {
    var s := if Truthy(m.siteId) then LmsDeleteRecord(env, w, m.siteId.value, Lms.ModuleKind) else Step(w, Ok(()));
    if s.r.Err? then Run(s.w, Failed(s.r.error))
    else Run(s.w.(cache := Database.DeleteModule(s.w.cache, id)), Done)
  }

  /** `delete_module` as written. The remote clean-up runs only when the module's course
      exists; a module with a `github_path` looks its repository up and then calls a
      `delete_module` the GitHub adapter does not have (`AttributeError`), so such a
      module is never deleted. A missing module still has its (absent) row deleted and
      then fails on `module['title']`. */
  function DeleteModule(env: Env, w: World, current: Option<int>): (r: Run)
    ensures current.None? ==> r == Run(w, Ignored)
    ensures current.Some? && current.value !in w.cache.modules.rows ==> r == Run(w, Failed(TypeError))
    ensures r.w.hub == w.hub
    ensures !r.out.Done? ==> r.w.cache == w.cache && r.w.lms == w.lms
    ensures r.out.Done? <==>
              current.Some? && current.value in w.cache.modules.rows
              && var m := w.cache.modules.rows[current.value];
                 m.courseId in w.cache.courses.rows ==>
                   m.githubPath == ""
                   && (Truthy(m.siteId) ==> !env.fails(|w.log|) && m.siteId.value in w.lms.records
                                            && w.lms.records[m.siteId.value].ModuleRec?)
    ensures r.out.Done? ==>
              var m := w.cache.modules.rows[current.value];
              r.w.cache == Database.DeleteModule(w.cache, current.value)
              && r.w.lms.records == (if m.courseId in w.cache.courses.rows && Truthy(m.siteId)
                                     then w.lms.records - {m.siteId.value} else w.lms.records)
    ensures current.Some? && current.value in w.cache.modules.rows
            && w.cache.modules.rows[current.value].courseId in w.cache.courses.rows
            && w.cache.modules.rows[current.value].githubPath != "" ==>
              var course := w.cache.courses.rows[w.cache.modules.rows[current.value].courseId];
              var repo := RepoName(env.translit, course.title);
              r.w == w.(log := w.log + [GhGetRepo(repo)])
              && r.out == Failed(if env.fails(|w.log|) || repo !in w.hub.repos then RuntimeError else AttributeError)
  {
    if current.None? then Run(w, Ignored)
    else
      var id := current.value;
      match w.cache.modules.Get(id)
      case None => Run(w.(cache := Database.DeleteModule(w.cache, id)), Failed(TypeError))
      case Some(m) =>
        match w.cache.courses.Get(m.courseId)
        case None => Run(w.(cache := Database.DeleteModule(w.cache, id)), Done)
        case Some(course) =>
          if m.githubPath != "" then
            var s := GithubApi.GetCourse(env, w, course.title);
            Run(s.w, Failed(if s.r.Err? then s.r.error else AttributeError))
          else DropModule(env, w, id, m)
  }

  /** `delete_module` with the folder step it evidently means: the module's folder is
      deleted from the course repository (with the folder delete that skips the second
      README deletion) before the LMS module and the row. */
  function DeleteModuleFixed(env: Env, w: World, current: Option<int>): (r: Run)
    ensures current.None? ==> r == Run(w, Ignored)
    ensures current.Some? && current.value !in w.cache.modules.rows ==> r == Run(w, Failed(TypeError))
    ensures !r.out.Done? ==> r.w.cache == w.cache
    ensures r.out.Failed? ==> r.out.exc in {TypeError, RuntimeError, AttributeError, HttpError}
    ensures r.out.Done? ==> r.w.cache == Database.DeleteModule(w.cache, current.value)
  {
    if current.None? then Run(w, Ignored)
    else
      var id := current.value;
      match w.cache.modules.Get(id)
      case None => Run(w.(cache := Database.DeleteModule(w.cache, id)), Failed(TypeError))
      case Some(m) =>
        match w.cache.courses.Get(m.courseId)
        case None => Run(w.(cache := Database.DeleteModule(w.cache, id)), Done)
        case Some(course) =>
          if m.githubPath != "" then
            var s1 := GithubApi.GetCourse(env, w, course.title);
            if s1.r.Err? then Run(s1.w, Failed(s1.r.error))
            else
              var s2 := TestGithubApi.DeleteFileOrFolderOnce(env, s1.w, s1.r.value, m.githubPath);
              if s2.r.Err? then Run(s2.w, Failed(s2.r.error))
              else DropModule(env, s2.w, id, m)
          else DropModule(env, w, id, m)
  }

  /** A module whose folder holds its README and plain files: as written, deleting it
      fails with `AttributeError` and leaves GitHub as it was, even when no call fails;
      with the folder step, every file under the folder is gone and the action ends
      either done or on the LMS call. */
  lemma DeleteModuleFolder(env: Env, w: World, id: int)
    requires forall n :: n >= |w.log| ==> !env.fails(n)
    requires id in w.cache.modules.rows && w.cache.modules.rows[id].courseId in w.cache.courses.rows
    requires var m := w.cache.modules.rows[id];
             var repo := RepoName(env.translit, w.cache.courses.rows[m.courseId].title);
             m.githubPath != "" && repo in w.hub.repos
             && var files := w.hub.repos[repo].files;
             m.githubPath !in files && ModuleReadmePath(m.githubPath) in files
             && forall f :: f in files && IsPrefix(m.githubPath + "/", f) ==> '/' !in f[|m.githubPath| + 1..]
    ensures DeleteModule(env, w, Some(id)).out == Failed(AttributeError)
    ensures DeleteModule(env, w, Some(id)).w.hub == w.hub
    ensures var m := w.cache.modules.rows[id];
            var repo := RepoName(env.translit, w.cache.courses.rows[m.courseId].title);
            var r := DeleteModuleFixed(env, w, Some(id));
            (r.out.Done? || r.out == Failed(HttpError))
            && repo in r.w.hub.repos
            && forall f :: f in r.w.hub.repos[repo].files <==> f in w.hub.repos[repo].files && !IsPrefix(m.githubPath + "/", f)
  {
    var m := w.cache.modules.rows[id];
    var course := w.cache.courses.rows[m.courseId];
    var s1 := GithubApi.GetCourse(env, w, course.title);
    assert s1.w.hub == w.hub;
    TestGithubApi.DeleteFolderOnceSucceeds(env, s1.w, s1.r.value, m.githubPath);
  }

  // ----- create_lesson -----

  /** `create_lesson` as written: once a title and a file are given, it reads the module
      (`module['course_id']` fails on a missing one) and then calls `get_tasks_by_module`,
      which the database class does not define. So no lesson is ever created and nothing
      changes. */
  function CreateLesson(env: Env, w: World, current: Option<int>, title: string, filePath: string): (r: Run)
    ensures r.w == w
    ensures current.None? || title == "" || filePath == "" ==> r.out == Ignored
    ensures current.Some? && title != "" && filePath != "" ==>
              r.out == Failed(if current.value in w.cache.modules.rows then AttributeError else TypeError)
  {
    if current.None? || title == "" || filePath == "" then Run(w, Ignored)
    else match w.cache.modules.Get(current.value)
      case None => Run(w, Failed(TypeError))
      case Some(_) => Run(w, Failed(AttributeError))
  }

  /** The last stage of `create_lesson` once the file is written at `path`: the LMS
      lesson (its `urlMd` is the quoted raw URL), then the row, which stores the raw URL
      unquoted. */
  function PublishLesson(env: Env, w: World, moduleId: int, moduleSite: int, title: string, path: string, raw: string): (r: Run)
    ensures r.w.hub == w.hub
    ensures r.out.Done? || r.out == Failed(HttpError) || r.out == Failed(Exc.IntegrityError)
    ensures !r.out.Done? ==> r.w.cache == w.cache
    ensures r.out.Done? <==>
              !env.fails(|w.log|) && moduleSite in w.lms.records && w.lms.records[moduleSite].ModuleRec?
              && Database.AddLesson(w.cache, moduleId, path, title, raw, Some(w.lms.next)).Ok?
    ensures r.out.Done? ==>
              r.w.lms.records == w.lms.records[w.lms.next := Lms.LessonRec(moduleSite, title, UrlQuote.Quote(raw))]
              && r.w.cache == Database.AddLesson(w.cache, moduleId, path, title, raw, Some(w.lms.next)).value.0
    ensures NoDeletes(w, r.w)
  {
    var s := LmsCreateRecord(env, w, Lms.LessonRec(moduleSite, title, UrlQuote.Quote(raw)));
    if s.r.Err? then Run(s.w, Failed(s.r.error))
    else
      match Database.AddLesson(s.w.cache, moduleId, path, title, raw, Some(s.r.value))
      case Err(_) => Run(s.w, Failed(Exc.IntegrityError))
      case Ok((c, _)) => Run(s.w.(cache := c), Done)
  }

  /** `create_lesson` as evidently intended: the task-title check looks at the tasks of
      the module's lessons, and the adapter gets its commit message. The file written is
      still the text of `file_path` itself, as the page passes it. A missing course, or
      one without a `github_path`, ends the action silently. */
  function CreateLessonFixed(env: Env, w: World, current: Option<int>, title: string, filePath: string): (r: Run)
    ensures current.None? || title == "" || filePath == "" ==> r == Run(w, Ignored)
    ensures current.Some? && title != "" && filePath != "" && current.value !in w.cache.modules.rows
            ==> r == Run(w, Failed(TypeError))
    ensures current.Some? && title != "" && filePath != "" && current.value in w.cache.modules.rows
            && (AnyTitleLike(LessonsOf(w.cache, current.value), LessonTitle, title) || TaskTitleInModule(w.cache, current.value, title))
            ==> r == Run(w, Warned(DuplicateTitle))
    ensures !r.out.Done? ==> r.w.cache == w.cache
    ensures r.out.Failed? ==> r.out.exc in {TypeError, RuntimeError, Plain, HttpError, Exc.IntegrityError}
    ensures r.out == Failed(Plain) ==>
              var m := w.cache.modules.rows[current.value];
              m.courseId in w.cache.courses.rows &&
              var repo := RepoName(env.translit, w.cache.courses.rows[m.courseId].title);
              !Truthy(m.siteId) && r.w.lms == w.lms
              && repo in r.w.hub.repos && MarkdownPath(m.title, title) in r.w.hub.repos[repo].files
    ensures r.out.Done? ==>
              var m := w.cache.modules.rows[current.value];
              m.courseId in w.cache.courses.rows &&
              var repo := RepoName(env.translit, w.cache.courses.rows[m.courseId].title);
              var path := MarkdownPath(m.title, title);
              var raw := RawUrl(w.hub.login, repo, path);
              Truthy(m.siteId)
              && repo in w.hub.repos && repo in r.w.hub.repos
              && r.w.hub.repos[repo].files == w.hub.repos[repo].files[path := Hub.File(filePath, w.hub.nextSha)]
              && r.w.lms.records == w.lms.records[w.lms.next := Lms.LessonRec(m.siteId.value, title, UrlQuote.Quote(raw))]
              && Database.AddLesson(w.cache, current.value, path, title, raw, Some(w.lms.next)).Ok?
              && r.w.cache == Database.AddLesson(w.cache, current.value, path, title, raw, Some(w.lms.next)).value.0
  {
    if current.None? || title == "" || filePath == "" then Run(w, Ignored)
    else
      var mid := current.value;
      match w.cache.modules.Get(mid)
      case None => Run(w, Failed(TypeError))
      case Some(m) =>
        if AnyTitleLike(LessonsOf(w.cache, mid), LessonTitle, title) || TaskTitleInModule(w.cache, mid, title) then
          Run(w, Warned(DuplicateTitle))
        else
          match w.cache.courses.Get(m.courseId)
          case None => Run(w, Ignored)
          case Some(course) =>
            if course.githubPath == "" then Run(w, Ignored)
            else
              var s1 := GithubApi.GetCourse(env, w, course.title);
              if s1.r.Err? then Run(s1.w, Failed(s1.r.error))
              else
                var s2 := GithubApi.CreateMarkdown(env, s1.w, s1.r.value, m.title, title, filePath);
                if s2.r.Err? then Run(s2.w, Failed(s2.r.error))
                else if !Truthy(m.siteId) then Run(s2.w, Failed(Plain))
                else
                  var p := PublishLesson(env, s2.w, mid, m.siteId.value, title, s2.r.value, RawUrl(w.hub.login, s1.r.value, s2.r.value));
                  assert s1.r.value in p.w.hub.repos;
                  p
  }

  /** Wherever the intended version creates a lesson, the code as written stops with
      `AttributeError` and changes nothing. */
  lemma CreateLessonNeverCreates(env: Env, w: World, mid: int, title: string, filePath: string)
    requires CreateLessonFixed(env, w, Some(mid), title, filePath).out.Done?
    ensures CreateLesson(env, w, Some(mid), title, filePath) == Run(w, Failed(AttributeError))
  {
  }

  /** `create_lesson` deletes nothing, whatever fails. */
  lemma CreateLessonKeepsPartialWork(env: Env, w: World, current: Option<int>, title: string, filePath: string)
    ensures NoDeletes(w, CreateLessonFixed(env, w, current, title, filePath).w)
  {
    if current.Some? && title != "" && filePath != "" && current.value in w.cache.modules.rows {
      var mid := current.value;
      var m := w.cache.modules.rows[mid];
      if !(AnyTitleLike(LessonsOf(w.cache, mid), LessonTitle, title) || TaskTitleInModule(w.cache, mid, title))
         && m.courseId in w.cache.courses.rows {
        var course := w.cache.courses.rows[m.courseId];
        if course.githubPath != "" {
          var s1 := GithubApi.GetCourse(env, w, course.title);
          ReadsDeleteNothing(w, s1.w);
          if s1.r.Ok? {
            var s2 := GithubApi.CreateMarkdown(env, s1.w, s1.r.value, m.title, title, filePath);
            NoDeletesTrans(w, s1.w, s2.w);
            if s2.r.Ok? && Truthy(m.siteId) {
              var p := PublishLesson(env, s2.w, mid, m.siteId.value, title, s2.r.value, RawUrl(w.hub.login, s1.r.value, s2.r.value));
              NoDeletesTrans(w, s2.w, p.w);
            }
          }
        }
      }
    }
  }

  /** Once a lesson is created, creating one under the same title (in any case) in the
      same module is refused as a duplicate. */
  lemma CreateLessonTwiceWarns(env: Env, env2: Env, w: World, mid: int, title: string, filePath: string, filePath2: string)
    requires w.cache.Valid()
    requires filePath2 != ""
    requires CreateLessonFixed(env, w, Some(mid), title, filePath).out.Done?
    ensures var w2 := CreateLessonFixed(env, w, Some(mid), title, filePath).w;
            CreateLessonFixed(env2, w2, Some(mid), title, filePath2) == Run(w2, Warned(DuplicateTitle))
  {
    var m := w.cache.modules.rows[mid];
    var repo := RepoName(env.translit, w.cache.courses.rows[m.courseId].title);
    var path := MarkdownPath(m.title, title);
    var raw := RawUrl(w.hub.login, repo, path);
    var c2 := CreateLessonFixed(env, w, Some(mid), title, filePath).w.cache;
    var id := Database.AddLesson(w.cache, mid, path, title, raw, Some(w.lms.next)).value.1;
    assert c2.lessons.rows[id].moduleId == mid && c2.lessons.rows[id].title == title;
    ExactIsLike(title, title);
    assert LessonTitleTaken(c2, mid, title);
    LessonListingCheck(c2, mid, title);
  }
}

=== FILE: app_tasks_page.dfy ===
/** The task page of the main application: replacing the selected task's file and
    deleting the task. A task reaches its course through its lesson and the lesson's
    module. */
module AppTasksPage {
  import opened Wrappers
  import opened Naming
  import opened Schema
  import opened Remote
  import opened Pages
  import GithubApi
  import AppFileSteps
  import Database

  /** The course of the task stored under `taskId`, through its lesson and module;
      `None` when any of the rows is missing. */
  function CourseOfTask(c: Cache, taskId: int): (r: Option<Course>)
    ensures r.Some? <==> taskId in c.tasks.rows && c.tasks.rows[taskId].lessonId in c.lessons.rows
                         && CourseOfModule(c, c.lessons.rows[c.tasks.rows[taskId].lessonId].moduleId).Some?
    ensures r.Some? ==> var m := c.modules.rows[c.lessons.rows[c.tasks.rows[taskId].lessonId].moduleId];
                        m.courseId in c.courses.rows && r.value == c.courses.rows[m.courseId]
  {
    match c.tasks.Get(taskId)
    case None => None
    case Some(t) =>
      match c.lessons.Get(t.lessonId)
      case None => None
      case Some(l) =>
        match CourseOfModule(c, l.moduleId)
        case None => None
        case Some(course) => Some(course.val)
  }

  /** `update_task`: the same steps as `update_lesson`, on the task's file. It never
      updates anything, and it ends with `TypeError` exactly when every step before the
      adapter call succeeded. */
  function UpdateTask(env: Env, w: World, current: Option<int>, filePath: string): (r: Run)
    ensures !Truthy(current) || CourseOfTask(w.cache, current.value).None? ==> r == Run(w, Ignored)
    ensures Truthy(current) && CourseOfTask(w.cache, current.value).Some? && filePath == "" ==> r == Run(w, Warned(NoFile))
    ensures OnlyReads(w, r.w)
    ensures !r.out.Done?
    ensures r.out.Failed? ==> r.out.exc in {RuntimeError, GithubError, IoError, AttributeError, TypeError}
    ensures r.out == Failed(TypeError) <==>
              Truthy(current) && CourseOfTask(w.cache, current.value).Some? && filePath != ""
              && var t := w.cache.tasks.rows[current.value];
                 var repo := RepoName(env.translit, CourseOfTask(w.cache, current.value).value.title);
                 NoFailures(env, |w.log|, 2) && repo in w.hub.repos && t.githubPath in w.hub.repos[repo].files
                 && env.readFile(filePath).Some?
  {
    if !Truthy(current) then Run(w, Ignored)
    else match CourseOfTask(w.cache, current.value)
      case None => Run(w, Ignored)
      case Some(course) =>
        if filePath == "" then Run(w, Warned(NoFile))
        else
          var t := w.cache.tasks.rows[current.value];
          var s1 := GithubApi.GetCourse(env, w, course.title);
          if s1.r.Err? then Run(s1.w, Failed(s1.r.error))
          else
            var s2 := AppFileSteps.ReplaceFile(env, s1.w, s1.r.value, t.githubPath, filePath);
            OnlyReadsTrans(w, s1.w, s2.w);
            Run(s2.w, Failed(s2.r.error))
  }

  /** `delete_task`. A task with a `github_path` whose lesson, module and course exist
      has its file fetched and handed to `delete_task` with the SHA in the commit-message
      slot, which fails: such a task is never deleted, and its LMS step is not reached.
      Any other existing task loses its row only. */
  function DeleteTask(env: Env, w: World, current: Option<int>): (r: Run)
    ensures current.None? ==> r == Run(w, Ignored)
    ensures current.Some? && current.value !in w.cache.tasks.rows ==> r == Run(w, Failed(TypeError))
    ensures r.out.Done? <==>
              current.Some? && current.value in w.cache.tasks.rows
              && (w.cache.tasks.rows[current.value].githubPath == "" || CourseOfTask(w.cache, current.value).None?)
    ensures r.out.Done? ==> r.w == w.(cache := Database.DeleteTask(w.cache, current.value))
    ensures !r.out.Done? ==> OnlyReads(w, r.w)
    ensures r.out.Failed? ==> r.out.exc in {TypeError, RuntimeError, GithubError, AttributeError}
  {
    if current.None? then Run(w, Ignored)
    else
      var id := current.value;
      match w.cache.tasks.Get(id)
      case None => Run(w.(cache := Database.DeleteTask(w.cache, id)), Failed(TypeError))
      case Some(t) =>
        if t.githubPath == "" then Run(w.(cache := Database.DeleteTask(w.cache, id)), Done)
        else
          match CourseOfTask(w.cache, id)
          case None => Run(w.(cache := Database.DeleteTask(w.cache, id)), Done)
          case Some(course) =>
            var s1 := GithubApi.GetCourse(env, w, course.title);
            if s1.r.Err? then Run(s1.w, Failed(s1.r.error))
            else
              var s2 := AppFileSteps.DeleteFile(env, s1.w, s1.r.value, t.githubPath);
              OnlyReadsTrans(w, s1.w, s2.w);
              Run(s2.w, Failed(s2.r.error))
  }

  /** A task the page can reach on GitHub is never deleted as written, even when no call
      fails and its file exists; deleting the file with the SHA just read removes it. */
  lemma DeleteTaskKeepsFile(env: Env, w: World, id: int)
    requires forall n :: n >= |w.log| ==> !env.fails(n)
    requires CourseOfTask(w.cache, id).Some? && w.cache.tasks.rows[id].githubPath != ""
    requires var repo := RepoName(env.translit, CourseOfTask(w.cache, id).value.title);
             repo in w.hub.repos && w.cache.tasks.rows[id].githubPath in w.hub.repos[repo].files
    ensures DeleteTask(env, w, Some(id)) ==
              Run(w.(log := w.log + [GhGetRepo(RepoName(env.translit, CourseOfTask(w.cache, id).value.title)),
                                     GhGetContents(RepoName(env.translit, CourseOfTask(w.cache, id).value.title), w.cache.tasks.rows[id].githubPath)]),
                  Failed(TypeError))
    ensures var repo := RepoName(env.translit, CourseOfTask(w.cache, id).value.title);
            var s1 := GithubApi.GetCourse(env, w, CourseOfTask(w.cache, id).value.title);
            var r := AppFileSteps.DeleteFileWithSha(env, s1.w, repo, w.cache.tasks.rows[id].githubPath);
            r.r.Ok? && w.cache.tasks.rows[id].githubPath !in r.w.hub.repos[repo].files
  {
    var repo := RepoName(env.translit, CourseOfTask(w.cache, id).value.title);
    var s1 := GithubApi.GetCourse(env, w, CourseOfTask(w.cache, id).value.title);
    AppFileSteps.DeleteNeedsSha(env, s1.w, repo, w.cache.tasks.rows[id].githubPath);
  }
}

=== FILE: course_form.dfy ===
/** The course creation dialog of the main application: what the user typed and
    picked, the order in which `validate_and_accept` refuses it, and the values
    `get_course_data` hands to the course page. */
module CourseForm {
  import opened Wrappers
  import opened Text

  /** The dialog's state: the title line, the description box and the picked image
      (`None` until a file is chosen). */
  datatype Form = Form(titleText: string, descriptionText: string, imagePath: Option<string>)

  /** Why the dialog stays open; only the first failed check is reported. */
  datatype Refusal = NoTitle | ShortDescription | NoImage

  /** `select_image`: a cancelled file dialog returns an empty path and keeps the
      previous choice. */
  function SelectImage(f: Form, picked: string): (r: Form)
    ensures r.titleText == f.titleText && r.descriptionText == f.descriptionText
    ensures picked == "" ==> r == f
    ensures picked != "" ==> r.imagePath == Some(picked)
  {
    if picked != "" then f.(imagePath := Some(picked)) else f
  }

  /** `not self.image_path`: no file chosen, or an empty path. */
  predicate HasImage(f: Form)
  {
    f.imagePath.Some? && f.imagePath.value != ""
  }

  /** `validate_and_accept`: `None` when the dialog is accepted, otherwise the first
      check that failed, in the order title, description length, image. The
      description is measured in characters after stripping. */
  function Validate(f: Form): (r: Option<Refusal>)
    ensures r.None? <==> Strip(f.titleText) != "" && |Strip(f.descriptionText)| >= 3 && HasImage(f)
    ensures r == Some(NoTitle) <==> Strip(f.titleText) == ""
    ensures r == Some(ShortDescription) <==> Strip(f.titleText) != "" && |Strip(f.descriptionText)| < 3
    ensures r == Some(NoImage) <==> Strip(f.titleText) != "" && |Strip(f.descriptionText)| >= 3 && !HasImage(f)
  {
    var title := Strip(f.titleText);
    var description := Strip(f.descriptionText);
    if title == "" then Some(NoTitle)
    else if |description| < 3 then Some(ShortDescription)
    else if !HasImage(f) then Some(NoImage)
    else None
  }

  /** What `get_course_data` returns. */
  datatype CourseData = CourseData(title: string, description: string, imagePath: Option<string>)

  /** `get_course_data`: the stripped title and description and the image path as
      chosen. */
  function Data(f: Form): (r: CourseData)
    ensures r.title == Strip(f.titleText) && r.description == Strip(f.descriptionText)
    ensures r.imagePath == f.imagePath
  {
    CourseData(Strip(f.titleText), Strip(f.descriptionText), f.imagePath)
  }

  /** The data of an accepted dialog is what the course page needs: a title with no
      blank at either end, a description of at least three characters with none either,
      and a chosen image. */
  lemma AcceptedData(f: Form)
    requires Validate(f).None?
    ensures var d := Data(f);
            d.title != "" && !IsSpace(d.title[0]) && !IsSpace(d.title[|d.title| - 1])
            && |d.description| >= 3 && !IsSpace(d.description[0]) && !IsSpace(d.description[|d.description| - 1])
            && d.imagePath.Some? && d.imagePath.value != ""
  {
    StripHasNoOuterSpace(f.titleText);
    StripHasNoOuterSpace(f.descriptionText);
  }

  /** Typing the returned data back into a fresh dialog gives the same data and the
      same verdict: validation only looks at what `get_course_data` returns. */
  lemma DataRoundTrip(f: Form)
    ensures var d := Data(f);
            var g := Form(d.title, d.description, d.imagePath);
            Data(g) == d && Validate(g) == Validate(f)
  {
    StripIdempotent(f.titleText);
    StripIdempotent(f.descriptionText);
  }

  /** Only the first failure is reported: a dialog failing every check is refused for
      its title and for nothing else. */
  lemma FirstFailureWins(f: Form)
    requires Strip(f.titleText) == "" && |Strip(f.descriptionText)| < 3 && !HasImage(f)
    ensures Validate(f) == Some(NoTitle)
    ensures Validate(f) != Some(ShortDescription) && Validate(f) != Some(NoImage)
  {
  }
}

=== FILE: database.dfy ===
/** The cache of the main application variant (`Database`): `github_path` is UNIQUE in
    every table and course titles are UNIQUE too; whole-table listings are ordered by title;
    deletion removes one row only, because the connection never turns on SQLite's
    foreign-key enforcement and the declared `ON DELETE CASCADE` therefore never fires. */
module Database {
  import opened Wrappers
  import opened Tables
  import opened Sorting
  import opened Schema

  /** What the UNIQUE columns guarantee of every state the database can be in. */
  ghost predicate Unique(c: Cache)
  {
    (forall a, b :: a in c.courses.rows && b in c.courses.rows && a != b ==>
       c.courses.rows[a].githubPath != c.courses.rows[b].githubPath && c.courses.rows[a].title != c.courses.rows[b].title)
    && (forall a, b :: a in c.modules.rows && b in c.modules.rows && a != b ==>
          c.modules.rows[a].githubPath != c.modules.rows[b].githubPath)
    && (forall a, b :: a in c.lessons.rows && b in c.lessons.rows && a != b ==>
          c.lessons.rows[a].githubPath != c.lessons.rows[b].githubPath)
    && (forall a, b :: a in c.tasks.rows && b in c.tasks.rows && a != b ==>
          c.tasks.rows[a].githubPath != c.tasks.rows[b].githubPath)
  }

  /** `add_course`: fails if either the `github_path` or the title (compared exactly, case
      included) is already taken; otherwise inserts one course under a fresh id. */
  function AddCourse(c: Cache, githubPath: string, title: string, description: Option<string>, siteId: Option<int>)
    : (r: Result<(Cache, int), DbError>)
    ensures r.Err? <==> exists k :: k in c.courses.rows && (c.courses.rows[k].githubPath == githubPath || c.courses.rows[k].title == title)
    ensures r.Ok? ==> r.value.0.courses.rows == c.courses.rows[r.value.1 := Course(githubPath, siteId, title, description)]
    ensures r.Ok? ==> r.value.0.(courses := c.courses) == c
    ensures r.Ok? && c.Valid() ==> r.value.0.Valid() && c.courses.Above(r.value.1)
    ensures r.Ok? && c.Valid() && Unique(c) ==> Unique(r.value.0)
    ensures r.Ok? ==> r.value.1 == c.courses.next && r.value.0.courses.next == c.courses.next + 1
  {
    if exists k :: k in c.courses.rows && c.courses.rows[k].githubPath == githubPath then
      Err(IntegrityError("courses.github_path"))
    else if exists k :: k in c.courses.rows && c.courses.rows[k].title == title then
      Err(IntegrityError("courses.title"))
    else
      var (t, id) := c.courses.Insert(Course(githubPath, siteId, title, description));
      Ok((c.(courses := t), id))
  }

  /** `add_module`: fails if the `github_path` is used by any module (of any course);
      titles are not constrained. */
  function AddModule(c: Cache, courseId: int, githubPath: string, title: string, description: Option<string>, siteId: Option<int>)
    : (r: Result<(Cache, int), DbError>)
    ensures r.Err? <==> exists k :: k in c.modules.rows && c.modules.rows[k].githubPath == githubPath
    ensures r.Ok? ==> r.value.0.modules.rows == c.modules.rows[r.value.1 := Module(courseId, githubPath, siteId, title, description)]
    ensures r.Ok? ==> r.value.0.(modules := c.modules) == c
    ensures r.Ok? && c.Valid() ==> r.value.0.Valid() && c.modules.Above(r.value.1)
    ensures r.Ok? && c.Valid() && Unique(c) ==> Unique(r.value.0)
    ensures r.Ok? ==> r.value.1 == c.modules.next && r.value.0.modules.next == c.modules.next + 1
  {
    if exists k :: k in c.modules.rows && c.modules.rows[k].githubPath == githubPath then
      Err(IntegrityError("modules.github_path"))
    else
      var (t, id) := c.modules.Insert(Module(courseId, githubPath, siteId, title, description));
      Ok((c.(modules := t), id))
  }

  /** `add_lesson`: fails if the `github_path` is used by any lesson. */
  function AddLesson(c: Cache, moduleId: int, githubPath: string, title: string, rawUrl: string, siteId: Option<int>)
    : (r: Result<(Cache, int), DbError>)
    ensures r.Err? <==> exists k :: k in c.lessons.rows && c.lessons.rows[k].githubPath == githubPath
    ensures r.Ok? ==> r.value.0.lessons.rows == c.lessons.rows[r.value.1 := Lesson(moduleId, githubPath, siteId, title, rawUrl)]
    ensures r.Ok? ==> r.value.0.(lessons := c.lessons) == c
    ensures r.Ok? && c.Valid() ==> r.value.0.Valid() && c.lessons.Above(r.value.1)
    ensures r.Ok? && c.Valid() && Unique(c) ==> Unique(r.value.0)
    ensures r.Ok? ==> r.value.1 == c.lessons.next && r.value.0.lessons.next == c.lessons.next + 1
  {
    if exists k :: k in c.lessons.rows && c.lessons.rows[k].githubPath == githubPath then
      Err(IntegrityError("lessons.github_path"))
    else
      var (t, id) := c.lessons.Insert(Lesson(moduleId, githubPath, siteId, title, rawUrl));
      Ok((c.(lessons := t), id))
  }

  /** `add_task`: fails if the `github_path` is used by any task. */
  function AddTask(c: Cache, lessonId: int, githubPath: string, title: string, rawUrl: string, siteId: Option<int>)
    : (r: Result<(Cache, int), DbError>)
    ensures r.Err? <==> exists k :: k in c.tasks.rows && c.tasks.rows[k].githubPath == githubPath
    ensures r.Ok? ==> r.value.0.tasks.rows == c.tasks.rows[r.value.1 := Task(lessonId, githubPath, siteId, title, rawUrl)]
    ensures r.Ok? ==> r.value.0.(tasks := c.tasks) == c
    ensures r.Ok? && c.Valid() ==> r.value.0.Valid() && c.tasks.Above(r.value.1)
    ensures r.Ok? && c.Valid() && Unique(c) ==> Unique(r.value.0)
    ensures r.Ok? ==> r.value.1 == c.tasks.next && r.value.0.tasks.next == c.tasks.next + 1
  {
    if exists k :: k in c.tasks.rows && c.tasks.rows[k].githubPath == githubPath then
      Err(IntegrityError("tasks.github_path"))
    else
      var (t, id) := c.tasks.Insert(Task(lessonId, githubPath, siteId, title, rawUrl));
      Ok((c.(tasks := t), id))
  }

  /** `get_modules`: every module once, ordered by title. */
  function ModulesByTitle(c: Cache): (r: seq<Row<Module>>)
    ensures multiset(r) == multiset(Scan(c.modules, AnyModule))
    ensures SortedBy(r, ModuleTitle)
  {
    SortBy(Scan(c.modules, AnyModule), ModuleTitle)
  }

  /** `get_lessons`: every lesson once, ordered by title. */
  function LessonsByTitle(c: Cache): (r: seq<Row<Lesson>>)
    ensures multiset(r) == multiset(Scan(c.lessons, AnyLesson))
    ensures SortedBy(r, LessonTitle)
  {
    SortBy(Scan(c.lessons, AnyLesson), LessonTitle)
  }

  /** `get_tasks`: every task once, ordered by title. */
  function TasksByTitle(c: Cache): (r: seq<Row<Task>>)
    ensures multiset(r) == multiset(Scan(c.tasks, AnyTask))
    ensures SortedBy(r, TaskTitle)
  {
    SortBy(Scan(c.tasks, AnyTask), TaskTitle)
  }

  /** `delete_course`: removes that course row and nothing else; its modules stay. */
  function DeleteCourse(c: Cache, id: int): (r: Cache)
    ensures r.courses.rows.Keys == c.courses.rows.Keys - {id}
    ensures forall k :: k in r.courses.rows ==> r.courses.rows[k] == c.courses.rows[k]
    ensures r.(courses := c.courses) == c
    ensures c.Valid() ==> r.Valid()
    ensures Unique(c) ==> Unique(r)
  {
    c.(courses := c.courses.Remove(id))
  }

  /** `delete_module`: removes that module row and nothing else; its lessons stay. */
  function DeleteModule(c: Cache, id: int): (r: Cache)
    ensures r.modules.rows.Keys == c.modules.rows.Keys - {id}
    ensures forall k :: k in r.modules.rows ==> r.modules.rows[k] == c.modules.rows[k]
    ensures r.(modules := c.modules) == c
    ensures c.Valid() ==> r.Valid()
    ensures Unique(c) ==> Unique(r)
  {
    c.(modules := c.modules.Remove(id))
  }

  /** `delete_lesson`: removes that lesson row and nothing else; its tasks stay. */
  function DeleteLesson(c: Cache, id: int): (r: Cache)
    ensures r.lessons.rows.Keys == c.lessons.rows.Keys - {id}
    ensures forall k :: k in r.lessons.rows ==> r.lessons.rows[k] == c.lessons.rows[k]
    ensures r.(lessons := c.lessons) == c
    ensures c.Valid() ==> r.Valid()
    ensures Unique(c) ==> Unique(r)
  {
    c.(lessons := c.lessons.Remove(id))
  }

  /** `delete_task`: removes that task row. */
  function DeleteTask(c: Cache, id: int): (r: Cache)
    ensures r.tasks.rows.Keys == c.tasks.rows.Keys - {id}
    ensures forall k :: k in r.tasks.rows ==> r.tasks.rows[k] == c.tasks.rows[k]
    ensures r.(tasks := c.tasks) == c
    ensures c.Valid() ==> r.Valid()
    ensures Unique(c) ==> Unique(r)
  {
    c.(tasks := c.tasks.Remove(id))
  }

  /** Without the cascade, deleting a lesson that has tasks leaves those tasks pointing at a
      lesson that no longer exists: the linked-tree invariant breaks. */
  lemma DeleteLessonOrphansTasks(c: Cache, lessonId: int, taskId: int)
    requires taskId in c.tasks.rows && c.tasks.rows[taskId].lessonId == lessonId
    ensures taskId in DeleteLesson(c, lessonId).tasks.rows
    ensures !DeleteLesson(c, lessonId).Linked()
  {
    var r := DeleteLesson(c, lessonId);
    assert r.tasks.rows[taskId].lessonId !in r.lessons.rows;
  }

  /** Deleting the course just added gives back the database it was added to, except
      that the AUTOINCREMENT counter has moved on: the id is not reused. */
  lemma AddThenDeleteCourse(c: Cache, githubPath: string, title: string, description: Option<string>, siteId: Option<int>)
    requires c.Valid()
    requires AddCourse(c, githubPath, title, description, siteId).Ok?
    ensures var (c2, id) := AddCourse(c, githubPath, title, description, siteId).value;
            DeleteCourse(c2, id) == c.(courses := c.courses.(next := c.courses.next + 1))
  {
    var (c2, id) := AddCourse(c, githubPath, title, description, siteId).value;
    var d := DeleteCourse(c2, id);
    assert id !in c.courses.rows;
    assert d.courses.rows == c.courses.rows;
  }
}

=== FILE: github_api.dfy ===
/** `GitHubAPI`, the application's GitHub adapter: a course is a repository named from
    its title, a module is a folder holding a README, a lesson or task is a Markdown file
    in its module's folder. Every `GithubException` is re-raised as `RuntimeError`. The
    `update_*` and `delete_*` methods call PyGithub without the file's SHA, which that
    library requires, so they raise `TypeError` before any request. The creating methods
    are word for word the same in the test variant's `GitHubCourseManager`. */
module GithubApi {
  import opened Wrappers
  import opened Naming
  import opened Remote
  import Hub

  /** `except GithubException as e: raise RuntimeError(...)`: other exceptions pass. */
  function Rethrow<T>(s: Step<T>): (r: Step<T>)
    ensures r.w == s.w
    ensures r.r.Ok? <==> s.r.Ok?
    ensures r.r.Ok? ==> r.r.value == s.r.value
    ensures r.r.Err? ==> r.r.error == (if s.r.error == GithubError then RuntimeError else s.r.error)
  {
    if s.r.Err? && s.r.error == GithubError then Step(s.w, Err(RuntimeError)) else s
  }

  /** `create_course`: a repository named from the title, then its `README.md`; the
      value is the repository (its name). A failed README leaves the new, empty
      repository behind. */
  function CreateCourse(env: Env, w: World, title: string, description: string): (r: Step<string>)
    ensures r.w.cache == w.cache && r.w.lms == w.lms && r.w.hub.login == w.hub.login
    ensures var name := RepoName(env.translit, title);
            r.r.Ok? <==> !env.fails(|w.log|) && !env.fails(|w.log| + 1) && name != "" && name !in w.hub.repos
    ensures r.r.Ok? ==> r.r.value == RepoName(env.translit, title)
                        && r.w.hub.repos == w.hub.repos[r.r.value := Hub.Repo(map["README.md" := Hub.File(ReadmeText(title, description), w.hub.nextSha)])]
                        && r.w.log == w.log + [GhCreateRepo(r.r.value), GhCreateFile(r.r.value, "README.md")]
    ensures r.r.Err? ==> r.r.error == RuntimeError
    ensures r.r.Err? ==> r.w.hub.repos == w.hub.repos
                         || r.w.hub.repos == w.hub.repos[RepoName(env.translit, title) := Hub.Repo(map[])]
    ensures NoDeletes(w, r.w)
  {
    var name := RepoName(env.translit, title);
    var s1 := CreateRepo(env, w, name);
    if s1.r.Err? then Step(s1.w, Err(RuntimeError))
    else
      assert Hub.Creatable(map[], "README.md");
      var s2 := CreateFile(env, s1.w, name, "README.md", ReadmeText(title, description));
      NoDeletesTrans(w, s1.w, s2.w);
      if s2.r.Err? then Step(s2.w, Err(RuntimeError)) else Step(s2.w, Ok(name))
  }

  /** `get_course`: the repository named from the title. */
  function GetCourse(env: Env, w: World, title: string): (r: Step<string>)
    ensures r.w == w.(log := w.log + [GhGetRepo(RepoName(env.translit, title))])
    ensures r.r.Ok? <==> !env.fails(|w.log|) && RepoName(env.translit, title) in w.hub.repos
    ensures r.r.Ok? ==> r.r.value == RepoName(env.translit, title)
    ensures r.r.Err? ==> r.r.error == RuntimeError
    ensures OnlyReads(w, r.w)
  {
    Rethrow(GetRepo(env, w, RepoName(env.translit, title)))
  }

  /** `get_course` recomputes the name `create_course` used: looking a course up by the
      title it was created with finds the created repository. */
  lemma GetCourseFindsCreated(env: Env, w: World, title: string, description: string)
    requires CreateCourse(env, w, title, description).r.Ok?
    requires !env.fails(|w.log| + 2)
    ensures var c := CreateCourse(env, w, title, description);
            GetCourse(env, c.w, title).r == Ok(c.r.value)
  {
  }

  /** `delete_course(repo_name)`: `user.get_repo` then `repo.delete()`. */
  function DeleteCourse(env: Env, w: World, repoName: string): (r: Step<()>)
    ensures r.w.cache == w.cache && r.w.lms == w.lms
    ensures r.r.Ok? <==> !env.fails(|w.log|) && !env.fails(|w.log| + 1) && repoName in w.hub.repos
    ensures r.r.Ok? ==> r.w.hub == w.hub.(repos := w.hub.repos - {repoName})
                        && r.w.log == w.log + [GhGetRepo(repoName), GhDeleteRepo(repoName)]
    ensures r.r.Err? ==> r.w.hub == w.hub && r.r.error == RuntimeError
  {
    var s1 := GetRepo(env, w, repoName);
    if s1.r.Err? then Step(s1.w, Err(RuntimeError)) else Rethrow(DeleteRepo(env, s1.w, repoName))
  }

  /** `create_module`: writes `{name}/README.md` with the module's README text and
      returns the bare folder name, not the file's path. */
  function CreateModule(env: Env, w: World, repo: string, name: string, description: string): (r: Step<string>)
    ensures r.w.cache == w.cache && r.w.lms == w.lms
    ensures r.w.log == w.log + [GhCreateFile(repo, ModuleReadmePath(name))]
    ensures r.r.Ok? <==> !env.fails(|w.log|) && repo in w.hub.repos
                         && Hub.Creatable(w.hub.repos[repo].files, ModuleReadmePath(name))
    ensures r.r.Ok? ==> r.r.value == name && repo in r.w.hub.repos
                        && r.w.hub.repos[repo].files == w.hub.repos[repo].files[ModuleReadmePath(name) := Hub.File(ReadmeText(name, description), w.hub.nextSha)]
    ensures r.r.Err? ==> r.w.hub == w.hub && r.r.error == RuntimeError
    ensures NoDeletes(w, r.w)
  {
    var s := CreateFile(env, w, repo, ModuleReadmePath(name), ReadmeText(name, description));
    if s.r.Err? then Step(s.w, Err(RuntimeError)) else Step(s.w, Ok(name))
  }

  /** `create_lesson` and `create_task` (the same code): writes `content` to
      `{module_path}/{filename}.md` and returns that path. */
  function CreateMarkdown(env: Env, w: World, repo: string, modulePath: string, filename: string, content: string): (r: Step<string>)
    ensures r.w.cache == w.cache && r.w.lms == w.lms
    ensures r.w.log == w.log + [GhCreateFile(repo, MarkdownPath(modulePath, filename))]
    ensures r.r.Ok? <==> !env.fails(|w.log|) && repo in w.hub.repos
                         && Hub.Creatable(w.hub.repos[repo].files, MarkdownPath(modulePath, filename))
    ensures r.r.Ok? ==> r.r.value == MarkdownPath(modulePath, filename) && repo in r.w.hub.repos
                        && r.w.hub.repos[repo].files == w.hub.repos[repo].files[r.r.value := Hub.File(content, w.hub.nextSha)]
    ensures r.r.Err? ==> r.w.hub == w.hub && r.r.error == RuntimeError
    ensures NoDeletes(w, r.w)
  {
    var path := MarkdownPath(modulePath, filename);
    var s := CreateFile(env, w, repo, path, content);
    if s.r.Err? then Step(s.w, Err(RuntimeError)) else Step(s.w, Ok(path))
  }

  /** A file-writing call as PyGithub checks its arguments: `update_file` and
      `delete_file` take the blob SHA as a required argument, so a call without one
      raises `TypeError` in Python before any request; with one it is the request. */
  function UpdateFileCall(env: Env, w: World, repo: string, path: string, content: string, sha: Option<int>): (r: Step<()>)
    ensures sha.None? ==> r == Step(w, Err(TypeError))
    ensures sha.Some? ==> r == UpdateFile(env, w, repo, path, content, sha.value)
  {
    match sha
    case None => Step(w, Err(TypeError))
    case Some(s) => UpdateFile(env, w, repo, path, content, s)
  }

  function DeleteFileCall(env: Env, w: World, repo: string, path: string, sha: Option<int>): (r: Step<()>)
    ensures sha.None? ==> r == Step(w, Err(TypeError))
    ensures sha.Some? ==> r == DeleteFile(env, w, repo, path, sha.value)
  {
    match sha
    case None => Step(w, Err(TypeError))
    case Some(s) => DeleteFile(env, w, repo, path, s)
  }

  /** `update_lesson` and `update_task` (the same code): `repo.update_file` without a
      SHA. The `TypeError` is not a `GithubException`, so it leaves the adapter as it is,
      and nothing on GitHub changes. */
  function UpdateFileNoSha(env: Env, w: World, repo: string, path: string, content: string): (r: Step<()>)
    ensures r.w == w && r.r == Err(TypeError)
  {
    Rethrow(UpdateFileCall(env, w, repo, path, content, None))
  }

  /** `delete_lesson` and `delete_task` (the same code): `repo.delete_file` without a
      SHA, which raises `TypeError` and changes nothing. */
  function DeleteFileNoSha(env: Env, w: World, repo: string, path: string): (r: Step<()>)
    ensures r.w == w && r.r == Err(TypeError)
  {
    Rethrow(DeleteFileCall(env, w, repo, path, None))
  }
}

=== FILE: hub.dfy ===
/** The part of GitHub the application touches: the authenticated user's repositories,
    each a map from file path to content and blob SHA, with the contents API's rules
    (creating an existing file fails, updating or deleting needs the file's current SHA,
    a folder is listed as its immediate children). */
module Hub {
  import opened Wrappers
  import opened Text
  import opened Sorting

  /** A stored file and the SHA GitHub reports for its current version. */
  datatype File = File(content: string, sha: int)

  /** A repository's files by path (folders exist only through the files inside them). */
  datatype Repo = Repo(files: map<string, File>)

  /** The user's login, repositories by name, and the next fresh SHA. */
  datatype Hub = Hub(login: string, repos: map<string, Repo>, nextSha: int)
  {
    /** SHAs already handed out are below `nextSha`. */
    ghost predicate Valid()
    {
      forall n, p :: n in repos && p in repos[n].files ==> repos[n].files[p].sha < nextSha
    }
  }

  /** One entry of a folder listing: its path, its SHA, and whether it is a sub-folder. */
  datatype Entry = Entry(path: string, sha: int, isDir: bool)

  /** What `repo.get_contents(path)` returns: one file, or a folder's entries. */
  datatype Contents = FileAt(path: string, sha: int) | Listing(entries: seq<Entry>)

  /** `path` is a folder: some file lies beneath it. */
  predicate IsDir(files: map<string, File>, path: string)
  {
    exists f :: f in files && IsPrefix(path + "/", f)
  }

  /** The part of `s` before its first `/` (all of `s` when there is none). */
  function FirstSegment(s: string): (r: string)
    ensures IsPrefix(r, s) && '/' !in r
    ensures |r| < |s| ==> s[|r|] == '/'
    ensures '/' !in s ==> r == s
  {
    if s == [] || s[0] == '/' then [] else [s[0]] + FirstSegment(s[1..])
  }

  /** The immediate children of folder `dir`: for each file beneath it, the path of the
      file or sub-folder directly inside `dir`. */
  function Children(files: map<string, File>, dir: string): set<string>
  {
    set f | f in files && IsPrefix(dir + "/", f) :: dir + "/" + FirstSegment(f[|dir| + 1..])
  }

  /** The entry for `path`: a file with its SHA, or a sub-folder. */
  function EntryOf(files: map<string, File>, path: string): (e: Entry)
    ensures e.path == path && (e.isDir <==> path !in files)
    ensures !e.isDir ==> e.sha == files[path].sha
  {
    if path in files then Entry(path, files[path].sha, false) else Entry(path, 0, true)
  }

  /** The entries for a list of paths. */
  function EntriesOf(files: map<string, File>, paths: seq<string>): (r: seq<Entry>)
    ensures |r| == |paths|
    ensures forall i :: 0 <= i < |r| ==> r[i] == EntryOf(files, paths[i])
  {
    seq(|paths|, i requires 0 <= i < |paths| => EntryOf(files, paths[i]))
  }

  /** A folder's listing, ordered by path. */
  function ListDir(files: map<string, File>, dir: string): (r: seq<Entry>)
    ensures forall i :: 0 <= i < |r| ==> r[i].path in Children(files, dir)
    ensures forall i :: 0 <= i < |r| ==> (r[i].isDir <==> r[i].path !in files)
    ensures forall i :: 0 <= i < |r| && !r[i].isDir ==> r[i].sha == files[r[i].path].sha
    ensures forall p :: p in Children(files, dir) ==> exists i :: 0 <= i < |r| && r[i].path == p
    ensures forall i, j :: 0 <= i < j < |r| ==> r[i].path != r[j].path
  {
    var kids := Children(files, dir);
    var names := SortedList(kids);
    ListedEntries(files, names, kids);
    EntriesOf(files, names)
  }

  /** The entries for a list naming each path of `kids` exactly once. */
  lemma ListedEntries(files: map<string, File>, names: seq<string>, kids: set<string>)
    requires forall x :: x in names <==> x in kids
    requires forall i, j :: 0 <= i < j < |names| ==> names[i] != names[j]
    ensures var r := EntriesOf(files, names);
            (forall i :: 0 <= i < |r| ==> r[i].path in kids)
            && (forall p :: p in kids ==> exists i :: 0 <= i < |r| && r[i].path == p)
            && (forall i, j :: 0 <= i < j < |r| ==> r[i].path != r[j].path)
  {
    var r := EntriesOf(files, names);
    forall p | p in kids
      ensures exists i :: 0 <= i < |r| && r[i].path == p
    {
      var i :| 0 <= i < |names| && names[i] == p;
      assert r[i].path == p;
    }
  }

  /** Why a GitHub call failed: an absent repository or path, or a rejected write. */
  datatype HubError = NotFound | Conflict | Unprocessable

  /** `user.create_repo(name)`: an empty name or one already used is rejected. */
  function CreateRepo(h: Hub, name: string): (r: Result<Hub, HubError>)
    ensures r.Err? <==> name == "" || name in h.repos
    ensures r.Ok? ==> r.value == h.(repos := h.repos[name := Repo(map[])])
  {
    if name == "" || name in h.repos then Err(Unprocessable)
    else Ok(h.(repos := h.repos[name := Repo(map[])]))
  }

  /** `user.get_repo(name)`. */
  function GetRepo(h: Hub, name: string): (r: Result<string, HubError>)
    ensures r.Ok? <==> name in h.repos
    ensures r.Ok? ==> r.value == name
  {
    if name in h.repos then Ok(name) else Err(NotFound)
  }

  /** `github.get_repo("{owner}/{name}")`: only the user's own repositories are modelled,
      so the owner must be the login. */
  function GetRepoByFullName(h: Hub, fullName: string): (r: Result<string, HubError>)
    ensures r.Ok? <==> exists n :: n in h.repos && fullName == h.login + "/" + n
    ensures r.Ok? ==> r.value in h.repos && fullName == h.login + "/" + r.value
  {
    var pre := h.login + "/";
    if IsPrefix(pre, fullName) && fullName[|pre|..] in h.repos then
      assert fullName == pre + fullName[|pre|..];
      Ok(fullName[|pre|..])
    else
      assert forall n :: n in h.repos && fullName == pre + n ==> fullName[|pre|..] == n;
      Err(NotFound)
  }

  /** `repo.delete()`. */
  function DeleteRepo(h: Hub, name: string): (r: Result<Hub, HubError>)
    ensures r.Ok? <==> name in h.repos
    ensures r.Ok? ==> r.value == h.(repos := h.repos - {name})
  {
    if name in h.repos then Ok(h.(repos := h.repos - {name})) else Err(NotFound)
  }

  /** A new file can go at `path`: not empty, not taken by a file or folder, and not
      below an existing file. */
  predicate Creatable(files: map<string, File>, path: string)
  {
    path != "" && path !in files && !IsDir(files, path)
    && !(exists f :: f in files && IsPrefix(f + "/", path))
  }

  /** `repo.create_file(path, message, content)`: the new file gets a fresh SHA. */
  function CreateFile(h: Hub, repo: string, path: string, content: string): (r: Result<Hub, HubError>)
    ensures r.Ok? <==> repo in h.repos && Creatable(h.repos[repo].files, path)
    ensures r.Ok? ==> r.value.login == h.login && r.value.repos.Keys == h.repos.Keys
    ensures r.Ok? ==> r.value.repos[repo].files == h.repos[repo].files[path := File(content, h.nextSha)]
    ensures r.Ok? ==> forall n :: n in h.repos && n != repo ==> r.value.repos[n] == h.repos[n]
    ensures r.Ok? && h.Valid() ==> r.value.Valid()
  {
    if repo !in h.repos then Err(NotFound)
    else if !Creatable(h.repos[repo].files, path) then Err(Unprocessable)
    else
      var files := h.repos[repo].files[path := File(content, h.nextSha)];
      Ok(Hub(h.login, h.repos[repo := Repo(files)], h.nextSha + 1))
  }

  /** `repo.get_contents(path)`: a file, a folder listing, or not found. */
  function GetContents(h: Hub, repo: string, path: string): (r: Result<Contents, HubError>)
    ensures r.Ok? <==> repo in h.repos && (path in h.repos[repo].files || IsDir(h.repos[repo].files, path))
    ensures r.Ok? && path in h.repos[repo].files ==> r.value == FileAt(path, h.repos[repo].files[path].sha)
    ensures r.Ok? && path !in h.repos[repo].files ==> r.value.Listing?
  {
    if repo !in h.repos then Err(NotFound)
    else
      var files := h.repos[repo].files;
      if path in files then Ok(FileAt(path, files[path].sha))
      else if IsDir(files, path) then Ok(Listing(ListDir(files, path)))
      else Err(NotFound)
  }

  /** `repo.update_file(path, message, content, sha)`: only a file whose current SHA is
      `sha` is replaced, and it gets a fresh SHA. */
  function UpdateFile(h: Hub, repo: string, path: string, content: string, sha: int): (r: Result<Hub, HubError>)
    ensures r.Ok? <==> repo in h.repos && path in h.repos[repo].files && h.repos[repo].files[path].sha == sha
    ensures r.Ok? ==> r.value.login == h.login && r.value.repos.Keys == h.repos.Keys
    ensures r.Ok? ==> r.value.repos[repo].files == h.repos[repo].files[path := File(content, h.nextSha)]
    ensures r.Ok? ==> forall n :: n in h.repos && n != repo ==> r.value.repos[n] == h.repos[n]
    ensures r.Ok? && h.Valid() ==> r.value.Valid()
  {
    if repo !in h.repos || path !in h.repos[repo].files then Err(NotFound)
    else if h.repos[repo].files[path].sha != sha then Err(Conflict)
    else
      var files := h.repos[repo].files[path := File(content, h.nextSha)];
      Ok(Hub(h.login, h.repos[repo := Repo(files)], h.nextSha + 1))
  }

  /** `repo.delete_file(path, message, sha)`: only a file whose current SHA is `sha`. */
  function DeleteFile(h: Hub, repo: string, path: string, sha: int): (r: Result<Hub, HubError>)
    ensures r.Ok? <==> repo in h.repos && path in h.repos[repo].files && h.repos[repo].files[path].sha == sha
    ensures r.Ok? ==> r.value.login == h.login && r.value.repos.Keys == h.repos.Keys
    ensures r.Ok? ==> r.value.repos[repo].files == h.repos[repo].files - {path}
    ensures r.Ok? ==> forall n :: n in h.repos && n != repo ==> r.value.repos[n] == h.repos[n]
    ensures r.Ok? && h.Valid() ==> r.value.Valid()
  {
    if repo !in h.repos || path !in h.repos[repo].files then Err(NotFound)
    else if h.repos[repo].files[path].sha != sha then Err(Conflict)
    else Ok(h.(repos := h.repos[repo := Repo(h.repos[repo].files - {path})]))
  }

  /** A SHA read with `get_contents` is the one `update_file` accepts: updating right after
      reading succeeds (unless the transport fails). */
  lemma FreshShaAccepted(h: Hub, repo: string, path: string, content: string)
    requires repo in h.repos && path in h.repos[repo].files
    ensures GetContents(h, repo, path) == Ok(FileAt(path, h.repos[repo].files[path].sha))
    ensures UpdateFile(h, repo, path, content, GetContents(h, repo, path).value.sha).Ok?
    ensures DeleteFile(h, repo, path, GetContents(h, repo, path).value.sha).Ok?
  {
  }

  /** Once a file has been written again its old SHA is stale: a second write with the
      same SHA is a conflict. */
  lemma StaleShaRejected(h: Hub, repo: string, path: string, c1: string, c2: string, sha: int)
    requires h.Valid()
    requires UpdateFile(h, repo, path, c1, sha).Ok?
    ensures UpdateFile(UpdateFile(h, repo, path, c1, sha).value, repo, path, c2, sha).Err?
  {
  }
}

=== FILE: lms.dfy ===
/** The LMS ("Gushub") as the application sees it through its REST endpoints: records
    under server-issued ids. Creating a child needs an existing parent of the right kind;
    deleting needs an existing record of the right kind. */
module Lms {
  import opened Wrappers

  /** One server-side record. */
  datatype Record =
    | PhotoRec(path: string)
    | CourseRec(title: string, description: string, imageId: int)
    | ModuleRec(courseId: int, title: string, description: string)
    | LessonRec(moduleId: int, title: string, urlMd: string)
    | StepRec(lessonId: int, title: string, urlMd: string, stepType: string)

  /** The kinds of record a delete endpoint addresses. */
  datatype Kind = CourseKind | ModuleKind | LessonKind | StepKind

  predicate OfKind(r: Record, k: Kind)
  {
    match k
    case CourseKind => r.CourseRec?
    case ModuleKind => r.ModuleRec?
    case LessonKind => r.LessonRec?
    case StepKind => r.StepRec?
  }

  /** The records by id and the next id the server issues. */
  datatype Lms = Lms(records: map<int, Record>, next: int)
  {
    ghost predicate Valid()
    {
      forall id :: id in records ==> id < next
    }
  }

  /** Why a request failed with an HTTP status: the addressed record does not exist. */
  datatype LmsError = NotFound

  /** A POST that creates `rec` under a fresh id. */
  function Add(l: Lms, rec: Record): (r: (Lms, int))
    ensures r.0.records == l.records[r.1 := rec]
    ensures l.Valid() ==> r.1 !in l.records && r.0.Valid()
  {
    (Lms(l.records[l.next := rec], l.next + 1), l.next)
  }

  /** `POST /api/upload` of a photo. */
  function UploadPhoto(l: Lms, path: string): (r: (Lms, int))
    ensures r.0.records == l.records[r.1 := PhotoRec(path)]
    ensures l.Valid() ==> r.1 !in l.records && r.0.Valid()
  {
    Add(l, PhotoRec(path))
  }

  /** `POST /api/courses`. */
  function CreateCourse(l: Lms, title: string, description: string, imageId: int): (r: (Lms, int))
    ensures r.0.records == l.records[r.1 := CourseRec(title, description, imageId)]
    ensures l.Valid() ==> r.1 !in l.records && r.0.Valid()
  {
    Add(l, CourseRec(title, description, imageId))
  }

  /** `POST /api/courses/{id}/modules`: the course must exist. */
  function CreateModule(l: Lms, courseId: int, title: string, description: string): (r: Result<(Lms, int), LmsError>)
    ensures r.Ok? <==> courseId in l.records && l.records[courseId].CourseRec?
    ensures r.Ok? ==> r.value.0.records == l.records[r.value.1 := ModuleRec(courseId, title, description)]
    ensures r.Ok? && l.Valid() ==> r.value.1 !in l.records && r.value.0.Valid()
  {
    if courseId in l.records && l.records[courseId].CourseRec? then Ok(Add(l, ModuleRec(courseId, title, description)))
    else Err(NotFound)
  }

  /** `POST /api/courses/modules/{id}/lessons`: the module must exist. */
  function CreateLesson(l: Lms, moduleId: int, title: string, urlMd: string): (r: Result<(Lms, int), LmsError>)
    ensures r.Ok? <==> moduleId in l.records && l.records[moduleId].ModuleRec?
    ensures r.Ok? ==> r.value.0.records == l.records[r.value.1 := LessonRec(moduleId, title, urlMd)]
    ensures r.Ok? && l.Valid() ==> r.value.1 !in l.records && r.value.0.Valid()
  {
    if moduleId in l.records && l.records[moduleId].ModuleRec? then Ok(Add(l, LessonRec(moduleId, title, urlMd)))
    else Err(NotFound)
  }

  /** `POST /api/courses/lessons/{id}/steps`: the lesson must exist. */
  function CreateStep(l: Lms, lessonId: int, title: string, urlMd: string, stepType: string): (r: Result<(Lms, int), LmsError>)
    ensures r.Ok? <==> lessonId in l.records && l.records[lessonId].LessonRec?
    ensures r.Ok? ==> r.value.0.records == l.records[r.value.1 := StepRec(lessonId, title, urlMd, stepType)]
    ensures r.Ok? && l.Valid() ==> r.value.1 !in l.records && r.value.0.Valid()
  {
    if lessonId in l.records && l.records[lessonId].LessonRec? then Ok(Add(l, StepRec(lessonId, title, urlMd, stepType)))
    else Err(NotFound)
  }

  /** `DELETE` of a course, module, lesson or step by id. */
  function Delete(l: Lms, id: int, k: Kind): (r: Result<Lms, LmsError>)
    ensures r.Ok? <==> id in l.records && OfKind(l.records[id], k)
    ensures r.Ok? ==> r.value.records == l.records - {id} && r.value.next == l.next
  {
    if id in l.records && OfKind(l.records[id], k) then Ok(l.(records := l.records - {id}))
    else Err(NotFound)
  }
}

=== FILE: local_db.dfy ===
/** The cache of the second application variant (`LocalCourseDB`): only course
    `github_path` is UNIQUE, updates take any set of named columns, and deletion walks the
    tree itself, deepest level first. */
module LocalDb {
  import opened Wrappers
  import opened Tables
  import opened Schema

  // ----- Adding rows -----

  /** `add_course`: inserts one course; a `github_path` already in the table breaks its
      UNIQUE constraint. */
  function AddCourse(c: Cache, githubPath: string, title: string, description: Option<string>, siteId: Option<int>)
    : (r: Result<(Cache, int), DbError>)
    ensures r.Err? <==> exists k :: k in c.courses.rows && c.courses.rows[k].githubPath == githubPath
    ensures r.Ok? ==> r.value.0.courses.rows == c.courses.rows[r.value.1 := Course(githubPath, siteId, title, description)]
    ensures r.Ok? ==> r.value.0.(courses := c.courses) == c
    ensures r.Ok? && c.Valid() ==> r.value.0.Valid() && c.courses.Above(r.value.1)
  {
    if exists k :: k in c.courses.rows && c.courses.rows[k].githubPath == githubPath then
      Err(IntegrityError("courses.github_path"))
    else
      var (t, id) := c.courses.Insert(Course(githubPath, siteId, title, description));
      Ok((c.(courses := t), id))
  }

  /** `add_module`: inserts one module; nothing is unique and the course is not checked. */
  function AddModule(c: Cache, courseId: int, githubPath: string, title: string, description: Option<string>, siteId: Option<int>)
    : (r: (Cache, int))
    ensures r.0.modules.rows == c.modules.rows[r.1 := Module(courseId, githubPath, siteId, title, description)]
    ensures r.0.(modules := c.modules) == c
    ensures c.Valid() ==> r.0.Valid() && c.modules.Above(r.1)
  {
    var (t, id) := c.modules.Insert(Module(courseId, githubPath, siteId, title, description));
    (c.(modules := t), id)
  }

  /** `add_lesson`: inserts one lesson; nothing is unique and the module is not checked. */
  function AddLesson(c: Cache, moduleId: int, githubPath: string, title: string, rawUrl: string, siteId: Option<int>)
    : (r: (Cache, int))
    ensures r.0.lessons.rows == c.lessons.rows[r.1 := Lesson(moduleId, githubPath, siteId, title, rawUrl)]
    ensures r.0.(lessons := c.lessons) == c
    ensures c.Valid() ==> r.0.Valid() && c.lessons.Above(r.1)
  {
    var (t, id) := c.lessons.Insert(Lesson(moduleId, githubPath, siteId, title, rawUrl));
    (c.(lessons := t), id)
  }

  /** `add_task`: inserts one task; nothing is unique and the lesson is not checked. */
  function AddTask(c: Cache, lessonId: int, githubPath: string, title: string, rawUrl: string, siteId: Option<int>)
    : (r: (Cache, int))
    ensures r.0.tasks.rows == c.tasks.rows[r.1 := Task(lessonId, githubPath, siteId, title, rawUrl)]
    ensures r.0.(tasks := c.tasks) == c
    ensures c.Valid() ==> r.0.Valid() && c.tasks.Above(r.1)
  {
    var (t, id) := c.tasks.Insert(Task(lessonId, githubPath, siteId, title, rawUrl));
    (c.(tasks := t), id)
  }

  // ----- The positional lookup -----

  /** A value read back from a SQLite column. */
  datatype SqlValue = Null | Int(i: int) | Text(s: string)

  function IntOrNull(v: Option<int>): SqlValue
  {
    match v
    case Some(i) => Int(i)
    case None => Null
  }

  function TextOrNull(v: Option<string>): SqlValue
  {
    match v
    case Some(s) => Text(s)
    case None => Null
  }

  /** The dictionary `get_module_by_lesson` builds from a module row. */
  datatype ModuleDict = ModuleDict(id: int, courseId: int, githubPath: string, title: SqlValue, description: SqlValue)

  /** `get_module_by_lesson` as written: the module joined to the lesson, read by position.
      Positions 3 and 4 of a `modules` row are `site_id` and `title`, so the dictionary's
      `title` holds the LMS id and its `description` holds the title. */
  function ModuleByLesson(c: Cache, lessonId: int): (r: Option<ModuleDict>)
    ensures r.Some? <==> lessonId in c.lessons.rows && c.lessons.rows[lessonId].moduleId in c.modules.rows
    ensures r.Some? ==> r.value.id == c.lessons.rows[lessonId].moduleId
    ensures r.Some? ==> var m := c.modules.rows[c.lessons.rows[lessonId].moduleId];
                        r.value.courseId == m.courseId && r.value.githubPath == m.githubPath
                        && r.value.title == IntOrNull(m.siteId) && r.value.description == Text(m.title)
  {
    if lessonId in c.lessons.rows && c.lessons.rows[lessonId].moduleId in c.modules.rows then
      var mid := c.lessons.rows[lessonId].moduleId;
      var m := c.modules.rows[mid];
      Some(ModuleDict(mid, m.courseId, m.githubPath, IntOrNull(m.siteId), Text(m.title)))
    else None
  }

  /** Any module stored without an LMS id comes back from `ModuleByLesson` with no title
      at all, where reading the columns by name gives its stored title. */
  lemma ModuleByLessonLosesTitle(c: Cache, lessonId: int)
    requires lessonId in c.lessons.rows && c.lessons.rows[lessonId].moduleId in c.modules.rows
    requires c.modules.rows[c.lessons.rows[lessonId].moduleId].siteId.None?
    ensures ModuleByLesson(c, lessonId).Some? && ModuleByLesson(c, lessonId).value.title == Null
    ensures ModuleByLessonByName(c, lessonId).Some?
            && ModuleByLessonByName(c, lessonId).value.title == Text(c.modules.rows[c.lessons.rows[lessonId].moduleId].title)
  {
  }

  /** `get_module_by_lesson` reading the columns by name, as the other lookups do. */
  function ModuleByLessonByName(c: Cache, lessonId: int): (r: Option<ModuleDict>)
    ensures r.Some? <==> lessonId in c.lessons.rows && c.lessons.rows[lessonId].moduleId in c.modules.rows
    ensures r.Some? ==> r.value.id == c.lessons.rows[lessonId].moduleId
    ensures r.Some? ==> var m := c.modules.rows[c.lessons.rows[lessonId].moduleId];
                        r.value.courseId == m.courseId && r.value.githubPath == m.githubPath
                        && r.value.title == Text(m.title) && r.value.description == TextOrNull(m.description)
  {
    if lessonId in c.lessons.rows && c.lessons.rows[lessonId].moduleId in c.modules.rows then
      var mid := c.lessons.rows[lessonId].moduleId;
      var m := c.modules.rows[mid];
      Some(ModuleDict(mid, m.courseId, m.githubPath, Text(m.title), TextOrNull(m.description)))
    else None
  }

  /** Both readings find the same module or none: they differ only in the two mislabelled
      fields. */
  lemma ModuleByLessonSameModule(c: Cache, lessonId: int)
    ensures ModuleByLesson(c, lessonId).Some? <==> ModuleByLessonByName(c, lessonId).Some?
    ensures ModuleByLesson(c, lessonId).Some? ==>
              ModuleByLesson(c, lessonId).value.id == ModuleByLessonByName(c, lessonId).value.id
              && ModuleByLesson(c, lessonId).value.courseId == ModuleByLessonByName(c, lessonId).value.courseId
              && ModuleByLesson(c, lessonId).value.githubPath == ModuleByLessonByName(c, lessonId).value.githubPath
  {
  }

  // ----- Updating rows -----

  /** The columns named in an `update_course(id, **fields)` call with their new values;
      `None` means the column is not named. */
  datatype CoursePatch = CoursePatch(githubPath: Option<string>, siteId: Option<Option<int>>, title: Option<string>, description: Option<Option<string>>)
  {
    predicate IsEmpty()
    {
      githubPath.None? && siteId.None? && title.None? && description.None?
    }
  }

  /** The columns named in an `update_module` call. */
  datatype ModulePatch = ModulePatch(courseId: Option<int>, githubPath: Option<string>, siteId: Option<Option<int>>, title: Option<string>, description: Option<Option<string>>)
  {
    predicate IsEmpty()
    {
      courseId.None? && githubPath.None? && siteId.None? && title.None? && description.None?
    }
  }

  /** The columns named in an `update_lesson` or `update_task` call (lessons and tasks have
      the same columns; `parent` is `module_id` or `lesson_id`). */
  datatype LeafPatch = LeafPatch(parent: Option<int>, githubPath: Option<string>, siteId: Option<Option<int>>, title: Option<string>, rawUrl: Option<string>)
  {
    predicate IsEmpty()
    {
      parent.None? && githubPath.None? && siteId.None? && title.None? && rawUrl.None?
    }
  }

  /** `after` is `before` with exactly the named columns of `p` replaced. */
  predicate CoursePatched(before: Course, p: CoursePatch, after: Course)
  {
    after.githubPath == p.githubPath.GetOr(before.githubPath) && after.siteId == p.siteId.GetOr(before.siteId)
    && after.title == p.title.GetOr(before.title) && after.description == p.description.GetOr(before.description)
  }

  predicate ModulePatched(before: Module, p: ModulePatch, after: Module)
  {
    after.courseId == p.courseId.GetOr(before.courseId)
    && after.githubPath == p.githubPath.GetOr(before.githubPath) && after.siteId == p.siteId.GetOr(before.siteId)
    && after.title == p.title.GetOr(before.title) && after.description == p.description.GetOr(before.description)
  }

  predicate LessonPatched(before: Lesson, p: LeafPatch, after: Lesson)
  {
    after.moduleId == p.parent.GetOr(before.moduleId)
    && after.githubPath == p.githubPath.GetOr(before.githubPath) && after.siteId == p.siteId.GetOr(before.siteId)
    && after.title == p.title.GetOr(before.title) && after.rawUrl == p.rawUrl.GetOr(before.rawUrl)
  }

  predicate TaskPatched(before: Task, p: LeafPatch, after: Task)
  {
    after.lessonId == p.parent.GetOr(before.lessonId)
    && after.githubPath == p.githubPath.GetOr(before.githubPath) && after.siteId == p.siteId.GetOr(before.siteId)
    && after.title == p.title.GetOr(before.title) && after.rawUrl == p.rawUrl.GetOr(before.rawUrl)
  }

  /** `update_course`: no named columns is a no-op; otherwise the row with that id (if any)
      gets the named columns, unless the new `github_path` belongs to another course. */
  function UpdateCourse(c: Cache, id: int, p: CoursePatch): (r: Result<Cache, DbError>)
    ensures r.Err? <==> !p.IsEmpty() && id in c.courses.rows && p.githubPath.Some?
                        && exists k :: k in c.courses.rows && k != id && c.courses.rows[k].githubPath == p.githubPath.value
    ensures r.Ok? && (p.IsEmpty() || id !in c.courses.rows) ==> r.value == c
    ensures r.Ok? ==> r.value.(courses := c.courses) == c && r.value.courses.rows.Keys == c.courses.rows.Keys
    ensures r.Ok? ==> forall k :: k in c.courses.rows && k != id ==> r.value.courses.rows[k] == c.courses.rows[k]
    ensures r.Ok? && !p.IsEmpty() && id in c.courses.rows ==> CoursePatched(c.courses.rows[id], p, r.value.courses.rows[id])
    ensures r.Ok? && c.Valid() ==> r.value.Valid()
  {
    if p.IsEmpty() || id !in c.courses.rows then Ok(c)
    else
      var v := c.courses.rows[id];
      var nv := Course(p.githubPath.GetOr(v.githubPath), p.siteId.GetOr(v.siteId), p.title.GetOr(v.title), p.description.GetOr(v.description));
      if p.githubPath.Some? && exists k :: k in c.courses.rows && k != id && c.courses.rows[k].githubPath == p.githubPath.value then
        Err(IntegrityError("courses.github_path"))
      else Ok(c.(courses := c.courses.Put(id, nv)))
  }

  /** `update_module`: the named columns of that module; no column is unique. */
  function UpdateModule(c: Cache, id: int, p: ModulePatch): (r: Cache)
    ensures p.IsEmpty() || id !in c.modules.rows ==> r == c
    ensures r.(modules := c.modules) == c && r.modules.rows.Keys == c.modules.rows.Keys
    ensures forall k :: k in c.modules.rows && k != id ==> r.modules.rows[k] == c.modules.rows[k]
    ensures !p.IsEmpty() && id in c.modules.rows ==> ModulePatched(c.modules.rows[id], p, r.modules.rows[id])
    ensures c.Valid() ==> r.Valid()
  {
    if p.IsEmpty() || id !in c.modules.rows then c
    else
      var v := c.modules.rows[id];
      c.(modules := c.modules.Put(id, Module(p.courseId.GetOr(v.courseId), p.githubPath.GetOr(v.githubPath),
                                             p.siteId.GetOr(v.siteId), p.title.GetOr(v.title), p.description.GetOr(v.description))))
  }

  /** `update_lesson`: the named columns of that lesson; no column is unique. */
  function UpdateLesson(c: Cache, id: int, p: LeafPatch): (r: Cache)
    ensures p.IsEmpty() || id !in c.lessons.rows ==> r == c
    ensures r.(lessons := c.lessons) == c && r.lessons.rows.Keys == c.lessons.rows.Keys
    ensures forall k :: k in c.lessons.rows && k != id ==> r.lessons.rows[k] == c.lessons.rows[k]
    ensures !p.IsEmpty() && id in c.lessons.rows ==> LessonPatched(c.lessons.rows[id], p, r.lessons.rows[id])
    ensures c.Valid() ==> r.Valid()
  {
    if p.IsEmpty() || id !in c.lessons.rows then c
    else
      var v := c.lessons.rows[id];
      c.(lessons := c.lessons.Put(id, Lesson(p.parent.GetOr(v.moduleId), p.githubPath.GetOr(v.githubPath),
                                             p.siteId.GetOr(v.siteId), p.title.GetOr(v.title), p.rawUrl.GetOr(v.rawUrl))))
  }

  /** `update_task`: the named columns of that task; no column is unique. */
  function UpdateTask(c: Cache, id: int, p: LeafPatch): (r: Cache)
    ensures p.IsEmpty() || id !in c.tasks.rows ==> r == c
    ensures r.(tasks := c.tasks) == c && r.tasks.rows.Keys == c.tasks.rows.Keys
    ensures forall k :: k in c.tasks.rows && k != id ==> r.tasks.rows[k] == c.tasks.rows[k]
    ensures !p.IsEmpty() && id in c.tasks.rows ==> TaskPatched(c.tasks.rows[id], p, r.tasks.rows[id])
    ensures c.Valid() ==> r.Valid()
  {
    if p.IsEmpty() || id !in c.tasks.rows then c
    else
      var v := c.tasks.rows[id];
      c.(tasks := c.tasks.Put(id, Task(p.parent.GetOr(v.lessonId), p.githubPath.GetOr(v.githubPath),
                                       p.siteId.GetOr(v.siteId), p.title.GetOr(v.title), p.rawUrl.GetOr(v.rawUrl))))
  }

  /** Setting a lesson's title and path to the values it already has leaves the cache as it
      was: the only update the lessons and tasks pages issue. */
  lemma UpdateLessonSameValues(c: Cache, id: int)
    requires id in c.lessons.rows
    ensures UpdateLesson(c, id, LeafPatch(None, Some(c.lessons.rows[id].githubPath), None, Some(c.lessons.rows[id].title), None)) == c
  {
    var p := LeafPatch(None, Some(c.lessons.rows[id].githubPath), None, Some(c.lessons.rows[id].title), None);
    assert c.lessons.rows[id := c.lessons.rows[id]] == c.lessons.rows;
  }

  /** The same for a task. */
  lemma UpdateTaskSameValues(c: Cache, id: int)
    requires id in c.tasks.rows
    ensures UpdateTask(c, id, LeafPatch(None, Some(c.tasks.rows[id].githubPath), None, Some(c.tasks.rows[id].title), None)) == c
  {
    assert c.tasks.rows[id := c.tasks.rows[id]] == c.tasks.rows;
  }

  // ----- Cascading deletion -----

  /** `delete_task`: removes that task. */
  function DeleteTask(c: Cache, id: int): (r: Cache)
    ensures r.tasks.rows == c.tasks.rows - {id}
    ensures r.courses == c.courses && r.modules == c.modules && r.lessons == c.lessons
    ensures r.tasks.next == c.tasks.next
  {
    c.(tasks := c.tasks.Remove(id))
  }

  /** The loop of `delete_lesson`: `delete_task` on each listed task in turn. */
  function DeleteTaskRows(c: Cache, ts: seq<Row<Task>>): (r: Cache)
    ensures r.tasks.rows == c.tasks.rows - IdsOf(ts)
    ensures r.courses == c.courses && r.modules == c.modules && r.lessons == c.lessons
    ensures r.tasks.next == c.tasks.next
    decreases |ts|
  {
    if ts == [] then c
    else
      assert IdsOf(ts) == {ts[0].id} + IdsOf(ts[1..]) by {
        assert ts == [ts[0]] + ts[1..];
      }
      DeleteTaskRows(DeleteTask(c, ts[0].id), ts[1..])
  }

  /** `delete_lesson`: the lesson's tasks, then the lesson. */
  function DeleteLesson(c: Cache, id: int): (r: Cache)
    ensures r.Counters() == c.Counters()
    ensures r.courses == c.courses && r.modules == c.modules
    ensures c.Valid() ==> r.Valid()
    ensures c.Valid() ==> r.lessons.rows == c.lessons.rows - {id}
    ensures c.Valid() ==> r.tasks.rows == c.tasks.rows - TaskIdsOf(c, {id})
  {
    var c1 := DeleteTaskRows(c, TasksOf(c, id));
    c1.(lessons := c1.lessons.Remove(id))
  }

  /** The loop of `delete_module`: `delete_lesson` on each listed lesson in turn. */
  function DeleteLessonRows(c: Cache, ls: seq<Row<Lesson>>): (r: Cache)
    ensures r.Counters() == c.Counters()
    ensures r.courses == c.courses && r.modules == c.modules
    ensures c.Valid() ==> r.Valid()
    ensures c.Valid() ==> r.lessons.rows == c.lessons.rows - IdsOf(ls)
    ensures c.Valid() ==> r.tasks.rows == c.tasks.rows - TaskIdsOf(c, IdsOf(ls))
    decreases |ls|
  {
    if ls == [] then
      assert TaskIdsOf(c, {}) == {};
      c
    else
      var c1 := DeleteLesson(c, ls[0].id);
      var r := DeleteLessonRows(c1, ls[1..]);
      assert c.Valid() ==> (r.lessons.rows == c.lessons.rows - IdsOf(ls)
                            && r.tasks.rows == c.tasks.rows - TaskIdsOf(c, IdsOf(ls))) by {
        if c.Valid() {
          LessonRowsStep(c, c1, r, ls);
        }
      }
      r
  }

  /** One turn of the `delete_module` loop: deleting the first lesson, then the rest,
      deletes all of them with their tasks. */
  lemma LessonRowsStep(c: Cache, c1: Cache, r: Cache, ls: seq<Row<Lesson>>)
    requires ls != []
    requires c1.lessons.rows == c.lessons.rows - {ls[0].id}
    requires c1.tasks.rows == c.tasks.rows - TaskIdsOf(c, {ls[0].id})
    requires r.lessons.rows == c1.lessons.rows - IdsOf(ls[1..])
    requires r.tasks.rows == c1.tasks.rows - TaskIdsOf(c1, IdsOf(ls[1..]))
    ensures r.lessons.rows == c.lessons.rows - IdsOf(ls)
    ensures r.tasks.rows == c.tasks.rows - TaskIdsOf(c, IdsOf(ls))
  {
    assert IdsOf(ls) == {ls[0].id} + IdsOf(ls[1..]) by {
      assert ls == [ls[0]] + ls[1..];
    }
    TaskIdsStep(c, c1, ls[0].id, IdsOf(ls[1..]));
  }

  /** Removing the tasks of lesson `l` and then those of lessons `s` removes the tasks of
      `{l} + s`. */
  lemma TaskIdsStep(c: Cache, c1: Cache, l: int, s: set<int>)
    requires c1.tasks.rows == c.tasks.rows - TaskIdsOf(c, {l})
    ensures c1.tasks.rows - TaskIdsOf(c1, s) == c.tasks.rows - TaskIdsOf(c, {l} + s)
  {
  }

  /** `delete_module`: the module's lessons (each with its tasks), then the module. */
  function DeleteModule(c: Cache, id: int): (r: Cache)
    ensures r.Counters() == c.Counters()
    ensures r.courses == c.courses
    ensures c.Valid() ==> r.Valid()
    ensures c.Valid() ==> r.modules.rows == c.modules.rows - {id}
    ensures c.Valid() ==> r.lessons.rows == c.lessons.rows - LessonIdsOf(c, {id})
    ensures c.Valid() ==> r.tasks.rows == c.tasks.rows - TaskIdsOf(c, LessonIdsOf(c, {id}))
  {
    var c1 := DeleteLessonRows(c, LessonsOf(c, id));
    c1.(modules := c1.modules.Remove(id))
  }

  /** The loop of `delete_course`: `delete_module` on each listed module in turn. */
  function DeleteModuleRows(c: Cache, ms: seq<Row<Module>>): (r: Cache)
    ensures r.Counters() == c.Counters()
    ensures r.courses == c.courses
    ensures c.Valid() ==> r.Valid()
    ensures c.Valid() ==> r.modules.rows == c.modules.rows - IdsOf(ms)
    ensures c.Valid() ==> r.lessons.rows == c.lessons.rows - LessonIdsOf(c, IdsOf(ms))
    ensures c.Valid() ==> r.tasks.rows == c.tasks.rows - TaskIdsOf(c, LessonIdsOf(c, IdsOf(ms)))
    decreases |ms|
  {
    if ms == [] then
      assert LessonIdsOf(c, {}) == {};
      assert TaskIdsOf(c, {}) == {};
      c
    else
      var c1 := DeleteModule(c, ms[0].id);
      var r := DeleteModuleRows(c1, ms[1..]);
      assert IdsOf(ms) == {ms[0].id} + IdsOf(ms[1..]) by {
        assert ms == [ms[0]] + ms[1..];
      }
      assert c.Valid() ==> (r.modules.rows == c.modules.rows - IdsOf(ms)
                            && r.lessons.rows == c.lessons.rows - LessonIdsOf(c, IdsOf(ms))
                            && r.tasks.rows == c.tasks.rows - TaskIdsOf(c, LessonIdsOf(c, IdsOf(ms)))) by {
        if c.Valid() {
          ModuleStep(c, c1, ms[0].id, IdsOf(ms[1..]));
          ModuleRowsStep(c, c1, r, ms[0].id, IdsOf(ms[1..]));
        }
      }
      r
  }

  /** One turn of the `delete_course` loop, stated on the three lower tables. */
  lemma ModuleRowsStep(c: Cache, c1: Cache, r: Cache, m: int, s: set<int>)
    requires c1.modules.rows == c.modules.rows - {m}
    requires c1.lessons.rows - LessonIdsOf(c1, s) == c.lessons.rows - LessonIdsOf(c, {m} + s)
    requires c1.tasks.rows - TaskIdsOf(c1, LessonIdsOf(c1, s)) == c.tasks.rows - TaskIdsOf(c, LessonIdsOf(c, {m} + s))
    requires r.modules.rows == c1.modules.rows - s
    requires r.lessons.rows == c1.lessons.rows - LessonIdsOf(c1, s)
    requires r.tasks.rows == c1.tasks.rows - TaskIdsOf(c1, LessonIdsOf(c1, s))
    ensures r.modules.rows == c.modules.rows - ({m} + s)
    ensures r.lessons.rows == c.lessons.rows - LessonIdsOf(c, {m} + s)
    ensures r.tasks.rows == c.tasks.rows - TaskIdsOf(c, LessonIdsOf(c, {m} + s))
  {
  }

  /** Removing the subtree of module `m` and then the subtrees of modules `s` removes the
      subtrees of `{m} + s`. */
  lemma ModuleStep(c: Cache, c1: Cache, m: int, s: set<int>)
    requires c1.lessons.rows == c.lessons.rows - LessonIdsOf(c, {m})
    requires c1.tasks.rows == c.tasks.rows - TaskIdsOf(c, LessonIdsOf(c, {m}))
    ensures c1.lessons.rows - LessonIdsOf(c1, s) == c.lessons.rows - LessonIdsOf(c, {m} + s)
    ensures c1.tasks.rows - TaskIdsOf(c1, LessonIdsOf(c1, s)) == c.tasks.rows - TaskIdsOf(c, LessonIdsOf(c, {m} + s))
  {
    assert LessonIdsOf(c, {m} + s) == LessonIdsOf(c, {m}) + LessonIdsOf(c1, s);
  }

  /** `delete_course`: the course's modules (each with its lessons and their tasks), then
      the course. Every row outside that subtree keeps its id and contents. */
  function DeleteCourse(c: Cache, id: int): (r: Cache)
    ensures r.Counters() == c.Counters()
    ensures c.Valid() ==> r.Valid()
    ensures c.Valid() ==> r.courses.rows == c.courses.rows - {id}
    ensures c.Valid() ==> r.modules.rows == c.modules.rows - ModuleIdsOf(c, id)
    ensures c.Valid() ==> r.lessons.rows == c.lessons.rows - LessonIdsOf(c, ModuleIdsOf(c, id))
    ensures c.Valid() ==> r.tasks.rows == c.tasks.rows - TaskIdsOf(c, LessonIdsOf(c, ModuleIdsOf(c, id)))
    ensures c.Valid() ==> id !in r.courses.rows && ModuleIdsOf(r, id) == {}
                          && LessonIdsOf(r, ModuleIdsOf(c, id)) == {}
                          && TaskIdsOf(r, LessonIdsOf(c, ModuleIdsOf(c, id))) == {}
  {
    var c1 := DeleteModuleRows(c, ModulesOf(c, id));
    c1.(courses := c1.courses.Remove(id))
  }

  /** Deleting a course keeps every remaining child linked to an existing parent. */
  lemma DeleteCourseKeepsLinks(c: Cache, id: int)
    requires c.Valid() && c.Linked()
    ensures DeleteCourse(c, id).Linked()
  {
  }

  /** Deleting a module keeps every remaining child linked to an existing parent. */
  lemma DeleteModuleKeepsLinks(c: Cache, id: int)
    requires c.Valid() && c.Linked()
    ensures DeleteModule(c, id).Linked()
  {
  }

  /** Deleting a lesson keeps every remaining child linked to an existing parent. */
  lemma DeleteLessonKeepsLinks(c: Cache, id: int)
    requires c.Valid() && c.Linked()
    ensures DeleteLesson(c, id).Linked()
  {
  }

  /** In a linked cache, deleting a course id that does not exist changes nothing. */
  lemma DeleteMissingCourse(c: Cache, id: int)
    requires c.Valid() && c.Linked() && id !in c.courses.rows
    ensures DeleteCourse(c, id) == c
  {
    forall k | k in c.modules.rows
      ensures c.modules.rows[k].courseId != id
    {
      assert c.modules.rows[k].courseId in c.courses.rows;
    }
    assert ModuleIdsOf(c, id) == {};
    assert LessonIdsOf(c, {}) == {};
    assert TaskIdsOf(c, {}) == {};
  }

  /** In a linked cache, deleting a module id that does not exist changes nothing. */
  lemma DeleteMissingModule(c: Cache, id: int)
    requires c.Valid() && c.Linked() && id !in c.modules.rows
    ensures DeleteModule(c, id) == c
  {
    forall k | k in c.lessons.rows
      ensures c.lessons.rows[k].moduleId != id
    {
      assert c.lessons.rows[k].moduleId in c.modules.rows;
    }
    assert LessonIdsOf(c, {id}) == {};
    assert TaskIdsOf(c, {}) == {};
  }

  /** In a linked cache, deleting a lesson id that does not exist changes nothing. */
  lemma DeleteMissingLesson(c: Cache, id: int)
    requires c.Valid() && c.Linked() && id !in c.lessons.rows
    ensures DeleteLesson(c, id) == c
  {
    forall k | k in c.tasks.rows
      ensures c.tasks.rows[k].lessonId != id
    {
      assert c.tasks.rows[k].lessonId in c.lessons.rows;
    }
    assert TaskIdsOf(c, {id}) == {};
  }

  /** A course with one module, lesson and task, deleted from an otherwise empty cache,
      leaves all four tables empty. */
  lemma DeleteWholeTree()
    ensures var (c1, cid) := AddCourse(EmptyCache(), "https://github.com/u/c", "C", None, None).value;
            var (c2, mid) := AddModule(c1, cid, "m", "M", None, None);
            var (c3, lid) := AddLesson(c2, mid, "m/l.md", "L", "m/l.md", None);
            var (c4, tid) := AddTask(c3, lid, "m/t.md", "T", "m/t.md", None);
            var r := DeleteCourse(c4, cid);
            r.courses.rows == map[] && r.modules.rows == map[] && r.lessons.rows == map[] && r.tasks.rows == map[]
  {
    var (c1, cid) := AddCourse(EmptyCache(), "https://github.com/u/c", "C", None, None).value;
    var (c2, mid) := AddModule(c1, cid, "m", "M", None, None);
    var (c3, lid) := AddLesson(c2, mid, "m/l.md", "L", "m/l.md", None);
    var (c4, tid) := AddTask(c3, lid, "m/t.md", "T", "m/t.md", None);
    assert c4.courses.rows.Keys == {cid} && c4.modules.rows.Keys == {mid};
    assert c4.lessons.rows.Keys == {lid} && c4.tasks.rows.Keys == {tid};
    DeleteSingleChain(c4, cid, mid, lid, tid);
  }

  /** A cache holding one course, one module of it, one lesson of that and one task of
      that loses all four rows when the course is deleted. */
  lemma DeleteSingleChain(c: Cache, cid: int, mid: int, lid: int, tid: int)
    requires c.Valid()
    requires c.courses.rows.Keys == {cid} && c.modules.rows.Keys == {mid}
    requires c.lessons.rows.Keys == {lid} && c.tasks.rows.Keys == {tid}
    requires c.modules.rows[mid].courseId == cid && c.lessons.rows[lid].moduleId == mid
    requires c.tasks.rows[tid].lessonId == lid
    ensures var r := DeleteCourse(c, cid);
            r.courses.rows == map[] && r.modules.rows == map[] && r.lessons.rows == map[] && r.tasks.rows == map[]
  {
    assert ModuleIdsOf(c, cid) == {mid};
    assert LessonIdsOf(c, {mid}) == {lid};
    assert TaskIdsOf(c, {lid}) == {tid};
  }
}

=== FILE: naming.dfy ===
/** How both GitHub adapters and the pages name things on GitHub: the repository name
    derived from a course title, the paths of module folders and lesson/task files, the
    README text, and the repository and raw-file URLs. */
module Naming {
  import opened Text

  // ----- Repository names -----

  /** A character `re.sub(r"[^a-zA-Z0-9-_]", "", ...)` keeps: ASCII letters, digits,
      `-` and `_`. */
  predicate ValidRepoChar(c: char)
  {
    ('a' <= c <= 'z') || ('A' <= c <= 'Z') || ('0' <= c <= '9') || c == '-' || c == '_'
  }

  /** `.replace(" ", "-")`. */
  function SpacesToDashes(s: string): (r: string)
    ensures |r| == |s|
    ensures forall k :: 0 <= k < |s| ==> r[k] == (if s[k] == ' ' then '-' else s[k])
  {
    if s == [] then [] else [if s[0] == ' ' then '-' else s[0]] + SpacesToDashes(s[1..])
  }

  /** The regular-expression filter: the characters of `s` that are valid, in order. */
  function KeepValid(s: string): (r: string)
    ensures |r| <= |s|
    ensures forall k :: 0 <= k < |r| ==> ValidRepoChar(r[k])
    ensures (forall k :: 0 <= k < |s| ==> ValidRepoChar(s[k])) ==> r == s
  {
    if s == [] then []
    else if ValidRepoChar(s[0]) then [s[0]] + KeepValid(s[1..])
    else KeepValid(s[1..])
  }

  /** The part of `_make_valid_repo_name` after transliteration: lower-case, spaces to
      dashes, drop invalid characters, keep at most 100. */
  function NormalizeRepoName(t: string): (r: string)
    ensures |r| <= 100
    ensures forall k :: 0 <= k < |r| ==> ValidRepoChar(r[k]) && r[k] != ' '
  {
    var f := KeepValid(SpacesToDashes(Lower(t)));
    if |f| <= 100 then f else f[..100]
  }

  /** `_make_valid_repo_name`: the transliteration from Cyrillic to Latin is the library
      function `translit`, passed in. */
  function RepoName(translit: string -> string, title: string): (r: string)
    ensures |r| <= 100
    ensures forall k :: 0 <= k < |r| ==> ValidRepoChar(r[k])
    ensures ' ' !in r && '/' !in r
  {
    var r := NormalizeRepoName(translit(title));
    assert forall k :: 0 <= k < |r| ==> r[k] != '/';
    r
  }

  /** Characters that survive the filter come from the input. */
  lemma {:induction false} KeepValidFrom(s: string)
    ensures forall k :: 0 <= k < |KeepValid(s)| ==> KeepValid(s)[k] in s
  {
    if s != [] {
      KeepValidFrom(s[1..]);
    }
  }

  /** Normalizing is idempotent: a normalized name passes through unchanged. */
  lemma NormalizeIdempotent(t: string)
    ensures NormalizeRepoName(NormalizeRepoName(t)) == NormalizeRepoName(t)
  {
    var n := NormalizeRepoName(t);
    NormalizedIsLowerChars(t);
    assert Lower(n) == n;
    assert SpacesToDashes(n) == n;
  }

  /** The characters of a normalized name are lower-case ASCII letters, digits, `-`, `_`. */
  lemma NormalizedIsLowerChars(t: string)
    ensures forall k :: 0 <= k < |NormalizeRepoName(t)| ==>
              LowerChar(NormalizeRepoName(t)[k]) == NormalizeRepoName(t)[k]
  {
    var l := Lower(t);
    var d := SpacesToDashes(l);
    var f := KeepValid(d);
    KeepValidFrom(d);
    forall k | 0 <= k < |f|
      ensures !('A' <= f[k] <= 'Z')
    {
      var i :| 0 <= i < |d| && d[i] == f[k];
      assert d[i] == l[i] || d[i] == '-';
    }
  }

  // ----- Paths and contents -----

  /** The README text of a course or module: `# {title}`, a blank line, the description. */
  function ReadmeText(title: string, description: string): string
  {
    "# " + title + "\n\n" + description
  }

  /** The README of a module folder, `{folder}/README.md`. */
  function ModuleReadmePath(folder: string): string
  {
    folder + "/README.md"
  }

  /** A lesson or task file, `{module_path}/{filename}.md`. */
  function MarkdownPath(modulePath: string, filename: string): string
  {
    modulePath + "/" + filename + ".md"
  }

  /** A lesson or task path lies in its module's folder and, when the file name has no
      slash, ends in that name plus `.md`. */
  lemma MarkdownPathParts(modulePath: string, filename: string)
    ensures IsPrefix(modulePath + "/", MarkdownPath(modulePath, filename))
    ensures '/' !in filename ==> LastSegment(MarkdownPath(modulePath, filename), '/') == filename + ".md"
  {
    var p := MarkdownPath(modulePath, filename);
    assert p == (modulePath + "/") + filename + ".md";
    assert p[..|modulePath| + 1] == modulePath + "/";
    if '/' !in filename {
      assert '/' !in filename + ".md";
      assert p == modulePath + ['/'] + (filename + ".md");
      LastSegmentOfJoin(modulePath, '/', filename + ".md");
    }
  }

  /** A module README path lies inside the folder, and the folder is what precedes
      `/README.md`. */
  lemma ModuleReadmePathParts(folder: string)
    ensures IsPrefix(folder + "/", ModuleReadmePath(folder))
    ensures ModuleReadmePath(folder)[..|folder|] == folder
    ensures LastSegment(ModuleReadmePath(folder), '/') == "README.md"
  {
    assert ModuleReadmePath(folder) == folder + ['/'] + "README.md";
    LastSegmentOfJoin(folder, '/', "README.md");
  }

  // ----- URLs -----

  /** `repo.html_url`: `https://github.com/{login}/{name}`. */
  function HtmlUrl(login: string, name: string): string
  {
    "https://github.com/" + login + "/" + name
  }

  /** The raw-file URL the pages build for a lesson: `https://raw.githubusercontent.com/`,
      then login, repository, branch `main` and the path. */
  function RawUrl(login: string, repo: string, path: string): string
  {
    "https://raw.githubusercontent.com/" + login + "/" + repo + "/main/" + path
  }

  /** `github_path.split('/')[-1]` on a stored `html_url` gives back the repository name,
      which is how the course page finds the repository to delete. */
  lemma RepoNameFromHtmlUrl(login: string, name: string)
    requires '/' !in name
    ensures LastSegment(HtmlUrl(login, name), '/') == name
  {
    assert HtmlUrl(login, name) == ("https://github.com/" + login) + ['/'] + name;
    LastSegmentOfJoin("https://github.com/" + login, '/', name);
  }

  /** For a repository named from a title, the round trip through `html_url` recovers
      that name. */
  lemma RepoNameRoundTrip(translit: string -> string, login: string, title: string)
    ensures LastSegment(HtmlUrl(login, RepoName(translit, title)), '/') == RepoName(translit, title)
  {
    RepoNameFromHtmlUrl(login, RepoName(translit, title));
  }
}

=== FILE: pages.dfy ===
/** What the page actions of both variants share: Python's truth test on ids, the
    title checks they run against fetched listings, and predicates over the call log
    that say which kinds of remote effect an action made. */
module Pages {
  import opened Wrappers
  import opened Text
  import opened Tables
  import opened Schema
  import opened Remote

  /** `if value:` on an id: `None` and `0` are false. */
  predicate Truthy(v: Option<int>)
  {
    v.Some? && v.value != 0
  }

  /** `any(row['title'].lower() == title.lower() for row in rows)`. */
  predicate AnyTitleLike<R>(rows: seq<Row<R>>, key: Row<R> -> string, title: string)
  {
    exists i :: 0 <= i < |rows| && SameIgnoringCase(key(rows[i]), title)
  }

  /** `any(row['title'] == title for row in rows)`. */
  predicate AnyTitleIs<R>(rows: seq<Row<R>>, key: Row<R> -> string, title: string)
  {
    exists i :: 0 <= i < |rows| && key(rows[i]) == title
  }

  /** A course title is taken, ignoring case, by some stored course. */
  predicate CourseTitleTaken(c: Cache, title: string)
  {
    exists k :: k in c.courses.rows && SameIgnoringCase(c.courses.rows[k].title, title)
  }

  /** A module title is taken, ignoring case, by some module of course `courseId`. */
  predicate ModuleTitleTaken(c: Cache, courseId: int, title: string)
  {
    exists k :: k in c.modules.rows && c.modules.rows[k].courseId == courseId && SameIgnoringCase(c.modules.rows[k].title, title)
  }

  /** A lesson title is taken, ignoring case, by some lesson of module `moduleId`. */
  predicate LessonTitleTaken(c: Cache, moduleId: int, title: string)
  {
    exists k :: k in c.lessons.rows && c.lessons.rows[k].moduleId == moduleId && SameIgnoringCase(c.lessons.rows[k].title, title)
  }

  /** A task title is taken, ignoring case, by some task of lesson `lessonId`. */
  predicate TaskTitleTaken(c: Cache, lessonId: int, title: string)
  {
    exists k :: k in c.tasks.rows && c.tasks.rows[k].lessonId == lessonId && SameIgnoringCase(c.tasks.rows[k].title, title)
  }

  /** A task title is taken, ignoring case, by some task of a lesson of module `moduleId`. */
  predicate TaskTitleInModule(c: Cache, moduleId: int, title: string)
  {
    exists k :: k in c.tasks.rows && c.tasks.rows[k].lessonId in LessonIdsOf(c, {moduleId})
                && SameIgnoringCase(c.tasks.rows[k].title, title)
  }

  /** A task title is used, exactly, by some task of a lesson of module `moduleId`. */
  predicate TaskTitleIsInModule(c: Cache, moduleId: int, title: string)
  {
    exists k :: k in c.tasks.rows && c.tasks.rows[k].lessonId in LessonIdsOf(c, {moduleId})
                && c.tasks.rows[k].title == title
  }

  /** A title check gives the same answer on any reordering of the rows. */
  lemma TitleLikeReordered<R>(a: seq<Row<R>>, b: seq<Row<R>>, key: Row<R> -> string, title: string)
    requires multiset(a) == multiset(b)
    ensures AnyTitleLike(a, key, title) <==> AnyTitleLike(b, key, title)
  {
    if AnyTitleLike(a, key, title) {
      var i :| 0 <= i < |a| && SameIgnoringCase(key(a[i]), title);
      assert a[i] in multiset(b);
      var j :| 0 <= j < |b| && b[j] == a[i];
    }
    if AnyTitleLike(b, key, title) {
      var j :| 0 <= j < |b| && SameIgnoringCase(key(b[j]), title);
      assert b[j] in multiset(a);
      var i :| 0 <= i < |a| && a[i] == b[j];
    }
  }

  /** On a consistent cache, the id-ordered scan holds every stored course. */
  lemma AllCoursesCheck(c: Cache, title: string)
    requires c.Valid()
    ensures AnyTitleLike(AllCourses(c), CourseTitle, title) <==> CourseTitleTaken(c, title)
  {
    var all := AllCourses(c);
    if CourseTitleTaken(c, title) {
      var k :| k in c.courses.rows && SameIgnoringCase(c.courses.rows[k].title, title);
      TakenCourseListed(c, title, k);
    }
    if AnyTitleLike(all, CourseTitle, title) {
      var i :| 0 <= i < |all| && SameIgnoringCase(CourseTitle(all[i]), title);
      assert all[i].id in c.courses.rows && c.courses.rows[all[i].id] == all[i].val;
    }
  }

  /** A stored course with a matching title makes the scan match. */
  lemma TakenCourseListed(c: Cache, title: string, k: int)
    requires c.Valid() && k in c.courses.rows && SameIgnoringCase(c.courses.rows[k].title, title)
    ensures AnyTitleLike(AllCourses(c), CourseTitle, title)
  {
    var all := AllCourses(c);
    assert Row(k, c.courses.rows[k]) in all;
    var i :| 0 <= i < |all| && all[i] == Row(k, c.courses.rows[k]);
    assert CourseTitle(all[i]) == c.courses.rows[k].title;
  }

  /** On a consistent cache, checking the title-ordered listing is checking every
      course: the listing holds all stored courses and nothing else. */
  lemma CourseListingCheck(c: Cache, title: string)
    requires c.Valid()
    ensures AnyTitleLike(CoursesByTitle(c), CourseTitle, title) <==> CourseTitleTaken(c, title)
  {
    TitleLikeReordered(CoursesByTitle(c), AllCourses(c), CourseTitle, title);
    AllCoursesCheck(c, title);
  }

  /** An exact title match is also a match ignoring case. */
  lemma ExactIsLike(a: string, b: string)
    requires a == b
    ensures SameIgnoringCase(a, b)
  {
  }

  /** On a consistent cache, checking a course's module listing is checking every stored
      module of that course. */
  lemma ModuleListingCheck(c: Cache, courseId: int, title: string)
    requires c.Valid()
    ensures AnyTitleLike(ModulesOf(c, courseId), ModuleTitle, title) <==> ModuleTitleTaken(c, courseId, title)
  {
    var ms := ModulesOf(c, courseId);
    if ModuleTitleTaken(c, courseId, title) {
      var k :| k in c.modules.rows && c.modules.rows[k].courseId == courseId && SameIgnoringCase(c.modules.rows[k].title, title);
      assert k in ModuleIdsOf(c, courseId);
      var i := IdsOfHas(ms, k);
      assert ModuleTitle(ms[i]) == c.modules.rows[k].title;
    }
    if AnyTitleLike(ms, ModuleTitle, title) {
      var i :| 0 <= i < |ms| && SameIgnoringCase(ModuleTitle(ms[i]), title);
      var k := ms[i].id;
      assert k in c.modules.rows && c.modules.rows[k] == ms[i].val;
    }
  }

  /** On a consistent cache, checking a module's lesson listing is checking every stored
      lesson of that module. */
  lemma LessonListingCheck(c: Cache, moduleId: int, title: string)
    requires c.Valid()
    ensures AnyTitleLike(LessonsOf(c, moduleId), LessonTitle, title) <==> LessonTitleTaken(c, moduleId, title)
  {
    var ls := LessonsOf(c, moduleId);
    if LessonTitleTaken(c, moduleId, title) {
      var k :| k in c.lessons.rows && c.lessons.rows[k].moduleId == moduleId && SameIgnoringCase(c.lessons.rows[k].title, title);
      assert k in LessonIdsOf(c, {moduleId});
      var i := IdsOfHas(ls, k);
      assert LessonTitle(ls[i]) == c.lessons.rows[k].title;
    }
    if AnyTitleLike(ls, LessonTitle, title) {
      var i :| 0 <= i < |ls| && SameIgnoringCase(LessonTitle(ls[i]), title);
      var k := ls[i].id;
      assert k in c.lessons.rows && c.lessons.rows[k] == ls[i].val;
    }
  }

  /** On a consistent cache, checking a lesson's task listing is checking every stored
      task of that lesson. */
  lemma TaskListingCheck(c: Cache, lessonId: int, title: string)
    requires c.Valid()
    ensures AnyTitleLike(TasksOf(c, lessonId), TaskTitle, title) <==> TaskTitleTaken(c, lessonId, title)
  {
    var ts := TasksOf(c, lessonId);
    if TaskTitleTaken(c, lessonId, title) {
      var k :| k in c.tasks.rows && c.tasks.rows[k].lessonId == lessonId && SameIgnoringCase(c.tasks.rows[k].title, title);
      assert k in TaskIdsOf(c, {lessonId});
      var i := IdsOfHas(ts, k);
      assert TaskTitle(ts[i]) == c.tasks.rows[k].title;
    }
    if AnyTitleLike(ts, TaskTitle, title) {
      var i :| 0 <= i < |ts| && SameIgnoringCase(TaskTitle(ts[i]), title);
      var k := ts[i].id;
      assert k in c.tasks.rows && c.tasks.rows[k] == ts[i].val;
    }
  }
}

=== FILE: quote.dfy ===
/** `urllib.parse.quote(url, safe=':/?=&')`, which the lesson page applies to a raw URL
    before sending it to the LMS: the text is encoded as UTF-8 and every byte outside the
    safe set becomes `%XX` with upper-case hex digits. */
module UrlQuote {

  newtype byte = x: int | 0 <= x < 256

  /** The UTF-8 encoding of one Unicode scalar value. */
  function Utf8Char(c: char): (r: seq<byte>)
    ensures 1 <= |r| <= 4
  {
    var n := c as int;
    if n < 0x80 then [n as byte]
    else if n < 0x800 then [(0xC0 + n / 64) as byte, (0x80 + n % 64) as byte]
    else if n < 0x10000 then [(0xE0 + n / 4096) as byte, (0x80 + (n / 64) % 64) as byte, (0x80 + n % 64) as byte]
    else
      assert n <= 0x10FFFF;
      [(0xF0 + n / 262144) as byte, (0x80 + (n / 4096) % 64) as byte, (0x80 + (n / 64) % 64) as byte, (0x80 + n % 64) as byte]
  }

  /** `s.encode('utf-8')`. */
  function Utf8(s: string): (r: seq<byte>)
    ensures |r| >= |s|
  {
    if s == [] then [] else Utf8Char(s[0]) + Utf8(s[1..])
  }

  /** A byte `quote` leaves alone: ASCII letters, digits, `_.-~` always, plus the
      caller's safe characters `:/?=&`. */
  predicate SafeCode(n: int)
  {
    (0x41 <= n <= 0x5A) || (0x61 <= n <= 0x7A) || (0x30 <= n <= 0x39)
    || n == 0x5F || n == 0x2E || n == 0x2D || n == 0x7E
    || n == 0x3A || n == 0x2F || n == 0x3F || n == 0x3D || n == 0x26
  }

  /** An upper-case hexadecimal digit. */
  function HexDigit(d: int): (c: char)
    requires 0 <= d < 16
    ensures IsHexDigit(c) && HexValue(c) == d
  {
    if d < 10 then ('0' as int + d) as char else ('A' as int + d - 10) as char
  }

  predicate IsHexDigit(c: char)
  {
    ('0' <= c <= '9') || ('A' <= c <= 'F') || ('a' <= c <= 'f')
  }

  /** The value of a hexadecimal digit (either case). */
  function HexValue(c: char): (v: int)
    requires IsHexDigit(c)
    ensures 0 <= v < 16
  {
    if '0' <= c <= '9' then c as int - '0' as int
    else if 'A' <= c <= 'F' then c as int - 'A' as int + 10
    else c as int - 'a' as int + 10
  }

  /** One byte as it appears in the quoted text. */
  function QuoteByte(b: byte): (r: string)
  {
    if SafeCode(b as int) then [b as int as char]
    else ['%', HexDigit(b as int / 16), HexDigit(b as int % 16)]
  }

  /** Quoting a byte string. */
  function QuoteBytes(bs: seq<byte>): (r: string)
    ensures forall k :: 0 <= k < |r| ==> r[k] == '%' || IsHexDigit(r[k]) || SafeCode(r[k] as int)
  {
    if bs == [] then [] else QuoteByte(bs[0]) + QuoteBytes(bs[1..])
  }

  /** `urllib.parse.quote(s, safe=':/?=&')`: the result is plain URL text that unquotes
      to the UTF-8 bytes of `s`, so quoting loses nothing. */
  function Quote(s: string): (r: string)
    ensures forall k :: 0 <= k < |r| ==> r[k] == '%' || IsHexDigit(r[k]) || SafeCode(r[k] as int)
    ensures Unquote(r) == Utf8(s)
  {
    UnquoteQuoteBytes(Utf8(s));
    QuoteBytes(Utf8(s))
  }

  /** `urllib.parse.unquote_to_bytes`: `%XX` with two hex digits is that byte, anything
      else is the character's own code (the quoted text is ASCII). */
  function Unquote(q: string): seq<byte>
  {
    if q == [] then []
    else if q[0] == '%' && |q| >= 3 && IsHexDigit(q[1]) && IsHexDigit(q[2]) then
      [(HexValue(q[1]) * 16 + HexValue(q[2])) as byte] + Unquote(q[3..])
    else [(q[0] as int % 256) as byte] + Unquote(q[1..])
  }

  /** Unquoting the quoted bytes gives them back. */
  lemma {:induction false} UnquoteQuoteBytes(bs: seq<byte>)
    ensures Unquote(QuoteBytes(bs)) == bs
  {
    if bs != [] {
      var rest := QuoteBytes(bs[1..]);
      assert QuoteBytes(bs) == QuoteByte(bs[0]) + rest;
      UnquoteByte(bs[0], rest);
      UnquoteQuoteBytes(bs[1..]);
      assert bs == [bs[0]] + bs[1..];
    }
  }

  /** Unquoting one quoted byte in front of any text gives the byte back first. */
  lemma UnquoteByte(b: byte, rest: string)
    ensures Unquote(QuoteByte(b) + rest) == [b] + Unquote(rest)
  {
    var q := QuoteByte(b) + rest;
    if SafeCode(b as int) {
      assert q[0] == b as int as char && q[1..] == rest;
    } else {
      assert q[..3] == ['%', HexDigit(b as int / 16), HexDigit(b as int % 16)] && q[3..] == rest;
    }
  }

  /** Text made only of safe ASCII characters is left as it is. */
  lemma {:induction false} QuoteSafeText(s: string)
    requires forall k :: 0 <= k < |s| ==> SafeCode(s[k] as int)
    ensures Quote(s) == s
  {
    if s != [] {
      QuoteSafeText(s[1..]);
      assert Utf8(s) == [s[0] as int as byte] + Utf8(s[1..]);
      assert Quote(s) == QuoteBytes([s[0] as int as byte] + Utf8(s[1..]));
      assert ([s[0] as int as byte] + Utf8(s[1..]))[1..] == Utf8(s[1..]);
    }
  }
}

=== FILE: remote.dfy ===
/** The world a page action runs in: the local cache, GitHub, the LMS, and the log of
    remote calls made so far. Every remote call is appended to the log and may fail for
    reasons outside the model (network, rate limits, permissions): whether the call with
    log position `n` fails is `env.fails(n)`, so every failure pattern is one choice of
    `env`. */
module Remote {
  import opened Wrappers
  import opened Schema
  import Hub
  import Lms

  /** The exceptions the model distinguishes. `GithubError` is PyGithub's
      `GithubException`, `HttpError` is a `requests` failure, `Plain` is a bare
      `Exception(...)` the pages raise themselves. */
  datatype Exc =
    | GithubError | RuntimeError | HttpError | TypeError | AttributeError
    | IndexError | IoError | IntegrityError | ValueError | Plain

  /** One remote call, as it appears in the log. */
  datatype Call =
    | GhCreateRepo(name: string)
    | GhGetRepo(name: string)
    | GhGetRepoByFullName(fullName: string)
    | GhDeleteRepo(name: string)
    | GhCreateFile(repo: string, path: string)
    | GhGetContents(repo: string, path: string)
    | GhUpdateFile(repo: string, path: string, sha: int)
    | GhDeleteFile(repo: string, path: string, sha: int)
    | LmsUpload(path: string)
    | LmsCreate(rec: Lms.Record)
    | LmsDelete(id: int, kind: Lms.Kind)

  /** What the model takes from outside: which calls fail, the `translit` library
      function, the files on local disk (`None`: `open(path)` raises), and the
      `download_url` GitHub reports for a file it has just created, given the login, the
      repository and the path (the server picks the branch and encodes the path). */
  datatype Env = Env(fails: nat -> bool, translit: string -> string, readFile: string -> Option<string>,
                     downloadUrl: (string, string, string) -> string)

  /** The three stores and the call log. */
  datatype World = World(cache: Cache, hub: Hub.Hub, lms: Lms.Lms, log: seq<Call>)

  /** The world after a call, and the call's value or exception. */
  datatype Step<T> = Step(w: World, r: Result<T, Exc>)

  /** A GitHub call `call` whose effect, if it goes through, is `out`: it is logged,
      fails with `GithubException` if the transport fails or GitHub rejects it, and
      touches nothing but GitHub. */
  function Gh<T>(env: Env, w: World, call: Call, out: Result<(Hub.Hub, T), Hub.HubError>): (r: Step<T>)
    ensures r.w.log == w.log + [call] && r.w.cache == w.cache && r.w.lms == w.lms
    ensures r.r.Ok? <==> !env.fails(|w.log|) && out.Ok?
    ensures r.r.Ok? ==> r.w.hub == out.value.0 && r.r.value == out.value.1
    ensures r.r.Err? ==> r.w.hub == w.hub && r.r.error == GithubError
    ensures !IsDelete(call) ==> NoDeletes(w, r.w)
  {
    var w1 := w.(log := w.log + [call]);
    if env.fails(|w.log|) || out.Err? then Step(w1, Err(GithubError))
    else Step(w1.(hub := out.value.0), Ok(out.value.1))
  }

  /** An LMS request: logged, fails with an HTTP error if the transport fails or the
      server rejects it, touches nothing but the LMS. */
  function Http<T>(env: Env, w: World, call: Call, out: Result<(Lms.Lms, T), Lms.LmsError>): (r: Step<T>)
    ensures r.w.log == w.log + [call] && r.w.cache == w.cache && r.w.hub == w.hub
    ensures r.r.Ok? <==> !env.fails(|w.log|) && out.Ok?
    ensures r.r.Ok? ==> r.w.lms == out.value.0 && r.r.value == out.value.1
    ensures r.r.Err? ==> r.w.lms == w.lms && r.r.error == HttpError
    ensures !IsDelete(call) ==> NoDeletes(w, r.w)
  {
    var w1 := w.(log := w.log + [call]);
    if env.fails(|w.log|) || out.Err? then Step(w1, Err(HttpError))
    else Step(w1.(lms := out.value.0), Ok(out.value.1))
  }

  function WithValue<S, T>(out: Result<S, Hub.HubError>, v: T): Result<(S, T), Hub.HubError>
  {
    match out
    case Ok(s) => Ok((s, v))
    case Err(e) => Err(e)
  }

  function Lift<S, E>(out: Result<S, E>): Result<(S, ()), E>
  {
    match out
    case Ok(s) => Ok((s, ()))
    case Err(e) => Err(e)
  }

  // ----- GitHub -----

  /** `user.create_repo(name)`; the value is the repository's name. */
  function CreateRepo(env: Env, w: World, name: string): (r: Step<string>)
    ensures r.w.log == w.log + [GhCreateRepo(name)] && r.w.cache == w.cache && r.w.lms == w.lms
    ensures r.r.Ok? <==> !env.fails(|w.log|) && name != "" && name !in w.hub.repos
    ensures r.r.Ok? ==> r.r.value == name && r.w.hub.repos == w.hub.repos[name := Hub.Repo(map[])]
                        && r.w.hub.login == w.hub.login
    ensures r.r.Err? ==> r.w.hub == w.hub
    ensures r.r.Err? ==> r.r.error == GithubError
    ensures NoDeletes(w, r.w)
  {
    Gh(env, w, GhCreateRepo(name), WithValue(Hub.CreateRepo(w.hub, name), name))
  }

  /** `user.get_repo(name)`: reads only. */
  function GetRepo(env: Env, w: World, name: string): (r: Step<string>)
    ensures r.w == w.(log := w.log + [GhGetRepo(name)])
    ensures r.r.Ok? <==> !env.fails(|w.log|) && name in w.hub.repos
    ensures r.r.Ok? ==> r.r.value == name
    ensures r.r.Err? ==> r.r.error == GithubError
    ensures OnlyReads(w, r.w)
  {
    var out := Hub.GetRepo(w.hub, name);
    Gh(env, w, GhGetRepo(name), if out.Ok? then Ok((w.hub, out.value)) else Err(out.error))
  }

  /** `github.get_repo("{login}/{name}")`: reads only; the value is the bare name. */
  function GetRepoByFullName(env: Env, w: World, fullName: string): (r: Step<string>)
    ensures r.w == w.(log := w.log + [GhGetRepoByFullName(fullName)])
    ensures r.r.Ok? <==> !env.fails(|w.log|) && exists n :: n in w.hub.repos && fullName == w.hub.login + "/" + n
    ensures r.r.Ok? ==> r.r.value in w.hub.repos && fullName == w.hub.login + "/" + r.r.value
    ensures r.r.Err? ==> r.r.error == GithubError
    ensures OnlyReads(w, r.w)
  {
    var out := Hub.GetRepoByFullName(w.hub, fullName);
    Gh(env, w, GhGetRepoByFullName(fullName), if out.Ok? then Ok((w.hub, out.value)) else Err(out.error))
  }

  /** `repo.delete()`. */
  function DeleteRepo(env: Env, w: World, name: string): (r: Step<()>)
    ensures r.w.log == w.log + [GhDeleteRepo(name)] && r.w.cache == w.cache && r.w.lms == w.lms
    ensures r.r.Ok? <==> !env.fails(|w.log|) && name in w.hub.repos
    ensures r.r.Ok? ==> r.w.hub == w.hub.(repos := w.hub.repos - {name})
    ensures r.r.Err? ==> r.w.hub == w.hub
    ensures r.r.Err? ==> r.r.error == GithubError
  {
    Gh(env, w, GhDeleteRepo(name), Lift(Hub.DeleteRepo(w.hub, name)))
  }

  /** `repo.create_file(path, message, content)`. */
  function CreateFile(env: Env, w: World, repo: string, path: string, content: string): (r: Step<()>)
    ensures r.w.log == w.log + [GhCreateFile(repo, path)] && r.w.cache == w.cache && r.w.lms == w.lms
    ensures r.r.Ok? <==> !env.fails(|w.log|) && repo in w.hub.repos && Hub.Creatable(w.hub.repos[repo].files, path)
    ensures r.r.Ok? ==> r.w.hub.repos.Keys == w.hub.repos.Keys
                        && r.w.hub.repos[repo].files == w.hub.repos[repo].files[path := Hub.File(content, w.hub.nextSha)]
    ensures r.r.Err? ==> r.w.hub == w.hub
    ensures r.r.Err? ==> r.r.error == GithubError
    ensures NoDeletes(w, r.w)
  {
    Gh(env, w, GhCreateFile(repo, path), Lift(Hub.CreateFile(w.hub, repo, path, content)))
  }

  /** `repo.get_contents(path)`: reads only. */
  function GetContents(env: Env, w: World, repo: string, path: string): (r: Step<Hub.Contents>)
    ensures r.w == w.(log := w.log + [GhGetContents(repo, path)])
    ensures r.r.Ok? <==> !env.fails(|w.log|) && Hub.GetContents(w.hub, repo, path).Ok?
    ensures r.r.Ok? ==> r.r.value == Hub.GetContents(w.hub, repo, path).value
    ensures r.r.Err? ==> r.r.error == GithubError
  {
    var out := Hub.GetContents(w.hub, repo, path);
    Gh(env, w, GhGetContents(repo, path), if out.Ok? then Ok((w.hub, out.value)) else Err(out.error))
  }

  /** `repo.update_file(path, message, content, sha)`. */
  function UpdateFile(env: Env, w: World, repo: string, path: string, content: string, sha: int): (r: Step<()>)
    ensures r.w.log == w.log + [GhUpdateFile(repo, path, sha)] && r.w.cache == w.cache && r.w.lms == w.lms
    ensures r.r.Ok? <==> !env.fails(|w.log|) && Hub.UpdateFile(w.hub, repo, path, content, sha).Ok?
    ensures r.r.Ok? ==> r.w.hub == Hub.UpdateFile(w.hub, repo, path, content, sha).value
    ensures r.r.Err? ==> r.w.hub == w.hub
    ensures r.r.Err? ==> r.r.error == GithubError
    ensures NoDeletes(w, r.w)
  {
    Gh(env, w, GhUpdateFile(repo, path, sha), Lift(Hub.UpdateFile(w.hub, repo, path, content, sha)))
  }

  /** `repo.delete_file(path, message, sha)`. */
  function DeleteFile(env: Env, w: World, repo: string, path: string, sha: int): (r: Step<()>)
    ensures r.w.log == w.log + [GhDeleteFile(repo, path, sha)] && r.w.cache == w.cache && r.w.lms == w.lms
    ensures r.r.Ok? <==> !env.fails(|w.log|) && Hub.DeleteFile(w.hub, repo, path, sha).Ok?
    ensures r.r.Ok? ==> r.w.hub == Hub.DeleteFile(w.hub, repo, path, sha).value
    ensures r.r.Err? ==> r.w.hub == w.hub
    ensures r.r.Err? ==> r.r.error == GithubError
  {
    Gh(env, w, GhDeleteFile(repo, path, sha), Lift(Hub.DeleteFile(w.hub, repo, path, sha)))
  }

  // ----- LMS -----

  /** `upload_photo(path)`: the file is opened first (a missing file raises before any
      request); the value is the new photo's id. */
  function UploadPhoto(env: Env, w: World, path: string): (r: Step<int>)
    ensures env.readFile(path).None? ==> r == Step(w, Err(IoError))
    ensures env.readFile(path).Some? ==> r.w.log == w.log + [LmsUpload(path)] && r.w.cache == w.cache && r.w.hub == w.hub
    ensures r.r.Ok? <==> env.readFile(path).Some? && !env.fails(|w.log|)
    ensures r.r.Ok? ==> r.w.lms == Lms.UploadPhoto(w.lms, path).0 && r.r.value == Lms.UploadPhoto(w.lms, path).1
    ensures r.r.Ok? ==> r.r.value == w.lms.next && r.w.lms.next == w.lms.next + 1
    ensures r.r.Err? ==> r.w.lms == w.lms
    ensures r.r.Err? ==> r.r.error == (if env.readFile(path).None? then IoError else HttpError)
    ensures NoDeletes(w, r.w)
  {
    if env.readFile(path).None? then Step(w, Err(IoError))
    else Http(env, w, LmsUpload(path), Ok(Lms.UploadPhoto(w.lms, path)))
  }

  /** `upload_photo(path)` as written: the file is opened while the arguments are built,
      and the open file is then placed in the `json=` body, which cannot be encoded as
      JSON, so `requests` raises `TypeError` before any request is sent. No call
      reaches the LMS and nothing changes. `UploadPhoto` is the intended upload. */
  function UploadPhotoAsWritten(env: Env, w: World, path: string): (r: Step<int>)
    ensures r.w == w && r.r.Err?
    ensures r.r.error == IoError <==> env.readFile(path).None?
    ensures r.r.error == TypeError <==> env.readFile(path).Some?
  {
    if env.readFile(path).None? then Step(w, Err(IoError)) else Step(w, Err(TypeError))
  }

  /** `POST` of a new record whose parent must exist (for a course: none). */
  function LmsCreateRecord(env: Env, w: World, rec: Lms.Record): (r: Step<int>)
    ensures r.w.log == w.log + [LmsCreate(rec)] && r.w.cache == w.cache && r.w.hub == w.hub
    ensures r.r.Ok? <==> !env.fails(|w.log|) && ParentExists(w.lms, rec)
    ensures r.r.Ok? ==> r.w.lms.records == w.lms.records[r.r.value := rec]
    ensures r.r.Ok? ==> r.r.value == w.lms.next && r.w.lms.next == w.lms.next + 1
    ensures r.r.Ok? && w.lms.Valid() ==> r.r.value !in w.lms.records && r.w.lms.Valid()
    ensures r.r.Err? ==> r.w.lms == w.lms
    ensures r.r.Err? ==> r.r.error == HttpError
    ensures NoDeletes(w, r.w)
  {
    var out := match rec
      case CourseRec(t, d, img) => Ok(Lms.CreateCourse(w.lms, t, d, img))
      case ModuleRec(p, t, d) => Lms.CreateModule(w.lms, p, t, d)
      case LessonRec(p, t, u) => Lms.CreateLesson(w.lms, p, t, u)
      case StepRec(p, t, u, k) => Lms.CreateStep(w.lms, p, t, u, k)
      case PhotoRec(path) => Ok(Lms.UploadPhoto(w.lms, path));
    Http(env, w, LmsCreate(rec), out)
  }

  /** The parent a new LMS record needs. */
  predicate ParentExists(l: Lms.Lms, rec: Lms.Record)
  {
    match rec
    case CourseRec(_, _, _) => true
    case PhotoRec(_) => true
    case ModuleRec(p, _, _) => p in l.records && l.records[p].CourseRec?
    case LessonRec(p, _, _) => p in l.records && l.records[p].ModuleRec?
    case StepRec(p, _, _, _) => p in l.records && l.records[p].LessonRec?
  }

  /** `DELETE` of one record of kind `k`. */
  function LmsDeleteRecord(env: Env, w: World, id: int, k: Lms.Kind): (r: Step<()>)
    ensures r.w.log == w.log + [LmsDelete(id, k)] && r.w.cache == w.cache && r.w.hub == w.hub
    ensures r.r.Ok? <==> !env.fails(|w.log|) && id in w.lms.records && Lms.OfKind(w.lms.records[id], k)
    ensures r.r.Ok? ==> r.w.lms.records == w.lms.records - {id} && r.w.lms.next == w.lms.next
    ensures r.r.Err? ==> r.w.lms == w.lms
    ensures r.r.Err? ==> r.r.error == HttpError
  {
    Http(env, w, LmsDelete(id, k), Lift(Lms.Delete(w.lms, id, k)))
  }

  /** `open(path).read()`, local and not logged. */
  function ReadFile(env: Env, path: string): (r: Result<string, Exc>)
    ensures r.Ok? <==> env.readFile(path).Some?
    ensures r.Ok? ==> r.value == env.readFile(path).value
    ensures r.Err? ==> r.error == IoError
  {
    match env.readFile(path)
    case Some(s) => Ok(s)
    case None => Err(IoError)
  }

  // ----- Outcomes of page actions -----

  /** Why a page declined an action with a warning dialog. */
  datatype Reason =
    | NothingSelected | BlankTitle | DuplicateTitle | Incomplete | NoFile | SameFile | TitleChanged | ShortDescription | NoImage

  /** How a page action ended: it returned without doing anything, warned, finished,
      showed an error dialog for a caught exception, or let an exception escape the
      handler (Qt then reports it and the action stops). */
  datatype Outcome = Ignored | Warned(reason: Reason) | Done | Failed(exc: Exc) | Escaped(exc: Exc)

  /** The world after a page action and how it ended. */
  datatype Run = Run(w: World, out: Outcome)

  /** The calls made by the step from `a` to `b`, when `b` extends `a`'s log. */
  predicate Extends(a: World, b: World)
  {
    |a.log| <= |b.log| && b.log[..|a.log|] == a.log
  }

  /** Extending is transitive: the calls of two steps in a row. */
  lemma ExtendsTrans(a: World, b: World, c: World)
    requires Extends(a, b) && Extends(b, c)
    ensures Extends(a, c)
  {
    assert c.log[..|a.log|] == c.log[..|b.log|][..|a.log|];
  }

  /** A remote call that removes something. */
  predicate IsDelete(c: Call)
  {
    c.GhDeleteRepo? || c.GhDeleteFile? || c.LmsDelete?
  }

  /** A remote call that creates or changes something. */
  predicate IsWrite(c: Call)
  {
    c.GhCreateRepo? || c.GhCreateFile? || c.GhUpdateFile? || c.LmsUpload? || c.LmsCreate? || IsDelete(c)
  }

  /** From `a` to `b` no remote delete was issued: nothing created earlier, by this
      action or before it, was rolled back. */
  predicate NoDeletes(a: World, b: World)
  {
    Extends(a, b) && forall i :: |a.log| <= i < |b.log| ==> !IsDelete(b.log[i])
  }

  /** From `a` to `b` only reads were issued and no store changed. */
  predicate OnlyReads(a: World, b: World)
  {
    Extends(a, b) && b.cache == a.cache && b.hub == a.hub && b.lms == a.lms
    && forall i :: |a.log| <= i < |b.log| ==> !IsWrite(b.log[i])
  }

  /** None of the `count` calls from log position `from` on fails. */
  predicate NoFailures(env: Env, from: nat, count: nat)
  {
    forall n: nat :: from <= n < from + count ==> !env.fails(n)
  }

  /** The `count` calls from `from` on, spelled out for short runs. */
  lemma NoFailuresUpTo4(env: Env, from: nat)
    ensures NoFailures(env, from, 1) <==> !env.fails(from)
    ensures NoFailures(env, from, 2) <==> !env.fails(from) && !env.fails(from + 1)
    ensures NoFailures(env, from, 3) <==> !env.fails(from) && !env.fails(from + 1) && !env.fails(from + 2)
    ensures NoFailures(env, from, 4) <==> !env.fails(from) && !env.fails(from + 1) && !env.fails(from + 2) && !env.fails(from + 3)
  {
  }

  /** A step that only reads deletes nothing. */
  lemma ReadsDeleteNothing(a: World, b: World)
    requires OnlyReads(a, b)
    ensures NoDeletes(a, b)
  {
  }

  /** Two steps in a row that only read only read. */
  lemma OnlyReadsTrans(a: World, b: World, c: World)
    requires OnlyReads(a, b) && OnlyReads(b, c)
    ensures OnlyReads(a, c)
  {
    ExtendsTrans(a, b, c);
    forall i | |a.log| <= i < |c.log|
      ensures !IsWrite(c.log[i])
    {
      if i < |b.log| {
        assert c.log[i] == c.log[..|b.log|][i];
      }
    }
  }

  /** Two steps in a row that delete nothing delete nothing. */
  lemma NoDeletesTrans(a: World, b: World, c: World)
    requires NoDeletes(a, b) && NoDeletes(b, c)
    ensures NoDeletes(a, c)
  {
    ExtendsTrans(a, b, c);
    forall i | |a.log| <= i < |c.log|
      ensures !IsDelete(c.log[i])
    {
      if i < |b.log| {
        assert c.log[i] == c.log[..|b.log|][i];
      }
    }
  }
}

=== FILE: schema.dfy ===
/** The local cache both application variants keep in SQLite: four tables (courses,
    modules, lessons, tasks) linked child-to-parent by id columns, and the queries the
    two variants share. */
module Schema {
  import opened Wrappers
  import opened Text
  import opened Tables
  import opened Sorting

  /** A course row: where its repository lives on GitHub, its LMS id, title, description. */
  datatype Course = Course(githubPath: string, siteId: Option<int>, title: string, description: Option<string>)

  /** A module row: its course, its folder on GitHub, its LMS id, title, description. */
  datatype Module = Module(courseId: int, githubPath: string, siteId: Option<int>, title: string, description: Option<string>)

  /** A lesson row: its module, its file on GitHub, its LMS id, title and raw URL. */
  datatype Lesson = Lesson(moduleId: int, githubPath: string, siteId: Option<int>, title: string, rawUrl: string)

  /** A task row: its lesson, its file on GitHub, its LMS id, title and raw URL. */
  datatype Task = Task(lessonId: int, githubPath: string, siteId: Option<int>, title: string, rawUrl: string)

  /** The failure SQLite reports when an INSERT or UPDATE breaks a UNIQUE column:
      `sqlite3.IntegrityError`, naming the column. */
  datatype DbError = IntegrityError(column: string)

  /** The four tables. */
  datatype Cache = Cache(courses: Table<Course>, modules: Table<Module>, lessons: Table<Lesson>, tasks: Table<Task>)
  {
    /** Each table's ids were issued by its own AUTOINCREMENT counter. */
    ghost predicate Valid()
    {
      courses.Valid() && modules.Valid() && lessons.Valid() && tasks.Valid()
    }

    /** The four AUTOINCREMENT counters. */
    function Counters(): (int, int, int, int)
    {
      (courses.next, modules.next, lessons.next, tasks.next)
    }

    /** Every child row's parent exists: what the declared foreign keys would guarantee
        if SQLite enforced them. */
    ghost predicate Linked()
    {
      (forall k :: k in modules.rows ==> modules.rows[k].courseId in courses.rows)
      && (forall k :: k in lessons.rows ==> lessons.rows[k].moduleId in modules.rows)
      && (forall k :: k in tasks.rows ==> tasks.rows[k].lessonId in lessons.rows)
    }
  }

  /** The cache of a freshly created database file. */
  function EmptyCache(): (c: Cache)
    ensures c.Valid() && c.Linked()
    ensures c.courses.rows == map[] && c.modules.rows == map[]
    ensures c.lessons.rows == map[] && c.tasks.rows == map[]
  {
    Cache(Empty(), Empty(), Empty(), Empty())
  }

  /** Title accessors, the sort key of `ORDER BY title`. */
  function CourseTitle(r: Row<Course>): string { r.val.title }
  function ModuleTitle(r: Row<Module>): string { r.val.title }
  function LessonTitle(r: Row<Lesson>): string { r.val.title }
  function TaskTitle(r: Row<Task>): string { r.val.title }

  function AnyCourse(v: Course): bool { true }
  function AnyModule(v: Module): bool { true }
  function AnyLesson(v: Lesson): bool { true }
  function AnyTask(v: Task): bool { true }

  /** `SELECT * FROM courses`: every course in id order. */
  function AllCourses(c: Cache): (r: seq<Row<Course>>)
    ensures forall i :: 0 <= i < |r| ==> r[i].id in c.courses.rows && c.courses.rows[r[i].id] == r[i].val
    ensures forall i, j :: 0 <= i < j < |r| ==> r[i].id < r[j].id
    ensures c.Valid() ==> IdsOf(r) == c.courses.rows.Keys
    ensures c.Valid() ==> forall k :: k in c.courses.rows ==> Row(k, c.courses.rows[k]) in r
  {
    Scan(c.courses, AnyCourse)
  }

  /** `SELECT * FROM courses ORDER BY title`: every course once, ordered by title;
      courses with equal titles stay in id order. */
  function CoursesByTitle(c: Cache): (r: seq<Row<Course>>)
    ensures multiset(r) == multiset(AllCourses(c))
    ensures SortedBy(r, CourseTitle)
  {
    SortBy(AllCourses(c), CourseTitle)
  }

  /** `SELECT * FROM modules WHERE course_id = ?`: the modules of one course, in id order. */
  function ModulesOf(c: Cache, courseId: int): (r: seq<Row<Module>>)
    ensures forall i :: 0 <= i < |r| ==>
              r[i].id in c.modules.rows && c.modules.rows[r[i].id] == r[i].val && r[i].val.courseId == courseId
    ensures forall i, j :: 0 <= i < j < |r| ==> r[i].id < r[j].id
    ensures c.Valid() ==> IdsOf(r) == ModuleIdsOf(c, courseId)
  {
    Scan(c.modules, (m: Module) => m.courseId == courseId)
  }

  /** `SELECT * FROM lessons WHERE module_id = ?`: the lessons of one module, in id order. */
  function LessonsOf(c: Cache, moduleId: int): (r: seq<Row<Lesson>>)
    ensures forall i :: 0 <= i < |r| ==>
              r[i].id in c.lessons.rows && c.lessons.rows[r[i].id] == r[i].val && r[i].val.moduleId == moduleId
    ensures forall i, j :: 0 <= i < j < |r| ==> r[i].id < r[j].id
    ensures c.Valid() ==> IdsOf(r) == LessonIdsOf(c, {moduleId})
  {
    Scan(c.lessons, (l: Lesson) => l.moduleId == moduleId)
  }

  /** `SELECT * FROM tasks WHERE lesson_id = ?`: the tasks of one lesson, in id order. */
  function TasksOf(c: Cache, lessonId: int): (r: seq<Row<Task>>)
    ensures forall i :: 0 <= i < |r| ==>
              r[i].id in c.tasks.rows && c.tasks.rows[r[i].id] == r[i].val && r[i].val.lessonId == lessonId
    ensures forall i, j :: 0 <= i < j < |r| ==> r[i].id < r[j].id
    ensures c.Valid() ==> IdsOf(r) == TaskIdsOf(c, {lessonId})
  {
    Scan(c.tasks, (t: Task) => t.lessonId == lessonId)
  }

  /** Ids of the modules of course `courseId`. */
  function ModuleIdsOf(c: Cache, courseId: int): set<int>
  {
    set k | k in c.modules.rows && c.modules.rows[k].courseId == courseId
  }

  /** Ids of the lessons of any module in `moduleIds`. */
  function LessonIdsOf(c: Cache, moduleIds: set<int>): set<int>
  {
    set k | k in c.lessons.rows && c.lessons.rows[k].moduleId in moduleIds
  }

  /** Ids of the tasks of any lesson in `lessonIds`. */
  function TaskIdsOf(c: Cache, lessonIds: set<int>): set<int>
  {
    set k | k in c.tasks.rows && c.tasks.rows[k].lessonId in lessonIds
  }

  /** The course of module `moduleId`: the `JOIN modules m ON m.course_id = c.id` lookup. */
  function CourseOfModule(c: Cache, moduleId: int): (r: Option<Row<Course>>)
    ensures r.Some? <==> moduleId in c.modules.rows && c.modules.rows[moduleId].courseId in c.courses.rows
    ensures r.Some? ==> r.value.id == c.modules.rows[moduleId].courseId
                        && r.value.val == c.courses.rows[r.value.id]
  {
    if moduleId in c.modules.rows && c.modules.rows[moduleId].courseId in c.courses.rows then
      var cid := c.modules.rows[moduleId].courseId;
      Some(Row(cid, c.courses.rows[cid]))
    else None
  }

  /** A sorted permutation holds exactly the rows of its input. */
  lemma SortByMembersAll<T>(s: seq<T>, key: T -> string)
    ensures forall x :: x in SortBy(s, key) <==> x in s
  {
    forall x
      ensures x in SortBy(s, key) <==> x in s
    {
      SortByMembers(s, key, x);
    }
  }
}

=== FILE: settings.dfy ===
/** The stored settings of both application variants: a `QSettings` store, modelled
    as a map from keys to string values, and the two "fully configured" gates that
    decide whether the main window opens. */
module Settings {
  import opened Wrappers

  /** The stored key-value pairs; a key that was never set, or was removed, is absent. */
  type Store = map<string, string>

  const GithubToken := "github/token"
  const GushubLogin := "gushub/login"
  const GushubPassword := "gushub/password"
  const GushubToken := "gushub/token"

  /** `settings.value(key, None)`. */
  function Get(s: Store, key: string): (r: Option<string>)
    ensures r.Some? <==> key in s
    ensures r.Some? ==> r.value == s[key]
  {
    if key in s then Some(s[key]) else None
  }

  /** `settings.setValue(key, value)`: only that key changes. */
  function Set(s: Store, key: string, value: string): (r: Store)
    ensures r.Keys == s.Keys + {key}
    ensures forall k :: k in s && k != key ==> r[k] == s[k]
  {
    s[key := value]
  }

  /** `settings.remove(key)`: only that key goes. */
  function Remove(s: Store, key: string): (r: Store)
    ensures r.Keys == s.Keys - {key}
    ensures forall k :: k in r ==> r[k] == s[k]
  {
    s - {key}
  }

  /** `settings.clear()`. */
  function Clear(s: Store): (r: Store)
    ensures r.Keys == {}
  {
    map[]
  }

  /** Setting a key and reading it back gives the value set; reading any other key is
      not affected. */
  lemma SetThenGet(s: Store, key: string, value: string, other: string)
    ensures Get(Set(s, key, value), key) == Some(value)
    ensures other != key ==> Get(Set(s, key, value), other) == Get(s, other)
  {
  }

  // ----- The main application -----

  /** `is_fully_configured`: the GitHub token, the LMS login and the LMS password are
      each stored and non-empty, so the gate never passes with one of them missing. */
  predicate FullyConfigured(s: Store)
    ensures FullyConfigured(s) ==> GithubToken in s && GushubLogin in s && GushubPassword in s
  {
    var token := Get(s, GithubToken);
    var login := Get(s, GushubLogin);
    var password := Get(s, GushubPassword);
    token.Some? && token.value != "" && login.Some? && login.value != "" && password.Some? && password.value != ""
  }

  /** The gate holds exactly when all three keys carry a non-empty value; the LMS token
      plays no part. */
  lemma FullyConfiguredKeys(s: Store, lmsToken: string)
    ensures FullyConfigured(s) <==>
              forall k :: k in {GithubToken, GushubLogin, GushubPassword} ==> k in s && s[k] != ""
    ensures FullyConfigured(Set(s, GushubToken, lmsToken)) == FullyConfigured(s)
  {
    assert GithubToken in {GithubToken, GushubLogin, GushubPassword};
    assert GushubLogin in {GithubToken, GushubLogin, GushubPassword};
    assert GushubPassword in {GithubToken, GushubLogin, GushubPassword};
  }

  /** `set_gushub_credentials`: the login, then the password. */
  function SetGushubCredentials(s: Store, login: string, password: string): (r: Store)
    ensures Get(r, GushubLogin) == Some(login) && Get(r, GushubPassword) == Some(password)
    ensures r.Keys == s.Keys + {GushubLogin, GushubPassword}
    ensures forall k :: k in s && k != GushubLogin && k != GushubPassword ==> r[k] == s[k]
  {
    Set(Set(s, GushubLogin, login), GushubPassword, password)
  }

  /** `get_gushub_credentials`: always a pair, either half possibly missing. */
  function GetGushubCredentials(s: Store): (r: (Option<string>, Option<string>))
    ensures r.0 == Get(s, GushubLogin) && r.1 == Get(s, GushubPassword)
  {
    (Get(s, GushubLogin), Get(s, GushubPassword))
  }

  /** `delete_gushub_credentials`: the login and the password go, nothing else. */
  function DeleteGushubCredentials(s: Store): (r: Store)
    ensures r.Keys == s.Keys - {GushubLogin, GushubPassword}
    ensures forall k :: k in r ==> r[k] == s[k]
  {
    Remove(Remove(s, GushubLogin), GushubPassword)
  }

  /** `delete_github_token`: only the GitHub token goes. */
  function DeleteGithubToken(s: Store): (r: Store)
    ensures r.Keys == s.Keys - {GithubToken}
    ensures forall k :: k in r ==> r[k] == s[k]
  {
    Remove(s, GithubToken)
  }

  /** Stored credentials read back as stored; deleting them leaves a pair of `None`s
      and a store that is no longer fully configured. */
  lemma CredentialsRoundTrip(s: Store, login: string, password: string)
    ensures GetGushubCredentials(SetGushubCredentials(s, login, password)) == (Some(login), Some(password))
    ensures GetGushubCredentials(DeleteGushubCredentials(s)) == (None, None)
    ensures !FullyConfigured(DeleteGushubCredentials(s))
  {
  }

  /** Once a token, a login and a password are stored, every one non-empty, the main
      application is fully configured; removing the token undoes that. */
  lemma ConfigureThenUnconfigure(s: Store, token: string, login: string, password: string)
    requires token != "" && login != "" && password != ""
    ensures FullyConfigured(SetGushubCredentials(Set(s, GithubToken, token), login, password))
    ensures !FullyConfigured(DeleteGithubToken(SetGushubCredentials(Set(s, GithubToken, token), login, password)))
  {
    var t := Set(s, GithubToken, token);
    var u := SetGushubCredentials(t, login, password);
    assert Get(u, GithubToken) == Get(t, GithubToken);
  }

  /** After `clear` the main application is not configured. */
  lemma ClearUnconfigures(s: Store)
    ensures !FullyConfigured(Clear(s))
  {
  }

  // ----- The second variant -----

  /** The second variant's `is_fully_configured`: `get_github_token() != ""`. A missing
      token reads as `None`, which differs from `""`, so it passes too. */
  predicate TestFullyConfigured(s: Store)
    ensures TestFullyConfigured(s) <==> GithubToken !in s || s[GithubToken] != ""
  {
    Get(s, GithubToken) != Some("")
  }

  /** The second variant's gate fails only for a stored empty token: a cleared store
      passes, and the login and password are never looked at. */
  lemma TestGateIgnoresCredentials(s: Store, login: string, password: string)
    ensures !TestFullyConfigured(s) <==> GithubToken in s && s[GithubToken] == ""
    ensures TestFullyConfigured(Clear(s))
    ensures TestFullyConfigured(SetGushubCredentials(s, login, password)) == TestFullyConfigured(s)
    ensures TestFullyConfigured(Remove(Remove(s, GushubLogin), GushubPassword)) == TestFullyConfigured(s)
  {
    assert Get(SetGushubCredentials(s, login, password), GithubToken) == Get(s, GithubToken);
  }

  /** Where the two gates part: whatever passes the main gate passes the second one,
      but a store with no LMS login, whose token is absent or non-empty, passes only
      the second. */
  lemma GatesDiffer(s: Store)
    ensures FullyConfigured(s) ==> TestFullyConfigured(s)
    ensures GushubLogin !in s && (GithubToken in s ==> s[GithubToken] != "") ==>
              TestFullyConfigured(s) && !FullyConfigured(s)
  {
  }
}

=== FILE: sidebar.dfy ===
/** The course tree of the sidebar in both variants: one node per course, with its
    modules, their lessons and those lessons' tasks below it. Every node carries a
    label and a tag `(kind, id)`; a click on a node emits its tag, and the main
    application's settings button emits `("settings", None)`. */
module Sidebar {
  import opened Wrappers
  import opened Tables
  import opened Sorting
  import opened Schema
  import opened Text

  /** The data a node stores with `setData`: its kind and its row id. */
  datatype Tag = Tag(kind: string, id: Option<int>)

  /** A tree node: the text shown, the tag, and the nodes appended below it. */
  datatype Node = Node(text: string, tag: Tag, children: seq<Node>)

  /** How lesson and task labels are written: the main application shows bare titles,
      the second variant prefixes them with their kind. */
  datatype Style = Bare | Prefixed

  function LessonLabel(style: Style, title: string): string
  {
    if style == Prefixed then "[Урок] " + title else title
  }

  function TaskLabel(style: Style, title: string): string
  {
    if style == Prefixed then "[Задание] " + title else title
  }

  /** A task's node: its label, its tag, and nothing below it. */
  function TaskNode(t: Row<Task>, style: Style): Node
  {
    Node(TaskLabel(style, t.val.title), Tag("task", Some(t.id)), [])
  }

  /** A lesson's node, holding the nodes of the lesson's tasks. */
  function LessonNode(c: Cache, l: Row<Lesson>, style: Style): Node
  {
    Node(LessonLabel(style, l.val.title), Tag("lesson", Some(l.id)), TaskNodes(TasksOf(c, l.id), style))
  }

  /** A module's node, labelled with its bare title, holding its lessons' nodes. */
  function ModuleNode(c: Cache, m: Row<Module>, style: Style): Node
  {
    Node(m.val.title, Tag("module", Some(m.id)), LessonNodes(c, LessonsOf(c, m.id), style))
  }

  /** A course's node, labelled with its bare title, holding its modules' nodes. */
  function CourseNode(c: Cache, r: Row<Course>, style: Style): Node
  {
    Node(r.val.title, Tag("course", Some(r.id)), ModuleNodes(c, ModulesOf(c, r.id), style))
  }

  /** The rows appended below one parent: one node per listed row, in listing order. */
  function TaskNodes(ts: seq<Row<Task>>, style: Style): (r: seq<Node>)
    ensures |r| == |ts|
  {
    seq(|ts|, i requires 0 <= i < |ts| => TaskNode(ts[i], style))
  }

  function LessonNodes(c: Cache, ls: seq<Row<Lesson>>, style: Style): (r: seq<Node>)
    ensures |r| == |ls|
  {
    seq(|ls|, i requires 0 <= i < |ls| => LessonNode(c, ls[i], style))
  }

  function ModuleNodes(c: Cache, ms: seq<Row<Module>>, style: Style): (r: seq<Node>)
    ensures |r| == |ms|
  {
    seq(|ms|, i requires 0 <= i < |ms| => ModuleNode(c, ms[i], style))
  }

  function CourseNodes(c: Cache, cs: seq<Row<Course>>, style: Style): (r: seq<Node>)
    ensures |r| == |cs|
  {
    seq(|cs|, i requires 0 <= i < |cs| => CourseNode(c, cs[i], style))
  }

  /** `_create_courses_model` of the main application: the courses of `get_courses`
      (ordered by title), and below each the rows of the by-parent queries. The top
      level is every course once, ordered by title. */
  function AppTree(c: Cache): (r: seq<Node>)
    ensures forall i :: 0 <= i < |r| ==> r[i].tag.kind == "course"
    ensures forall i, j :: 0 <= i < j < |r| ==> LexLe(r[i].text, r[j].text) && r[i].tag.id != r[j].tag.id
    ensures c.Valid() ==> forall k :: Some(k) in TopIds(r) <==> k in c.courses.rows
  {
    var cs := CoursesByTitle(c);
    SortedCourseNodes(c, cs, Bare);
    CoursesByTitleOnce(c);
    DistinctCourseNodes(c, cs, Bare);
    SameIds(cs, AllCourses(c));
    TopIdsOfCourses(c, cs, Bare);
    CourseNodes(c, cs, Bare)
  }

  /** `populate_tree` of the second variant: the old rows are dropped and the tree is
      rebuilt from `get_all_courses` (id order), with prefixed lesson and task labels.
      The top level is every course once, in id order. */
  function TestTree(c: Cache): (r: seq<Node>)
    ensures forall i :: 0 <= i < |r| ==> r[i].tag.kind == "course"
    ensures forall i, j :: 0 <= i < j < |r| ==>
              r[i].tag.id.Some? && r[j].tag.id.Some? && r[i].tag.id.value < r[j].tag.id.value
    ensures c.Valid() ==> forall k :: Some(k) in TopIds(r) <==> k in c.courses.rows
  {
    var cs := AllCourses(c);
    IncreasingCourseNodes(c, cs, Prefixed);
    TopIdsOfCourses(c, cs, Prefixed);
    CourseNodes(c, cs, Prefixed)
  }

  /** A click on a node emits its tag; a click that hits no node emits nothing. */
  function Click(hit: Option<Node>): (r: Option<Tag>)
    ensures r.Some? <==> hit.Some?
    ensures r.Some? ==> r.value == hit.value.tag
  {
    match hit
    case None => None
    case Some(n) => Some(n.tag)
  }

  /** `handle_settings_click`. */
  function SettingsClick(): (r: Tag)
    ensures r.kind == "settings" && r.id.None?
  {
    Tag("settings", None)
  }

  /** Every tag in a forest, parents before their children, in display order. */
  function Tags(ns: seq<Node>): seq<Tag>
    decreases ns
  {
    if ns == [] then []
    else [ns[0].tag] + Tags(ns[0].children) + Tags(ns[1..])
  }

  /** A node's tag and every tag below it appear among the tags of a forest holding
      the node. */
  lemma {:induction false} TagsOfMember(ns: seq<Node>, i: int)
    requires 0 <= i < |ns|
    ensures ns[i].tag in Tags(ns)
    ensures forall t :: t in Tags(ns[i].children) ==> t in Tags(ns)
    decreases ns
  {
    if i > 0 {
      TagsOfMember(ns[1..], i - 1);
      assert ns[1..][i - 1] == ns[i];
    }
  }

  /** A tag of the forest is a top-level tag or a tag under some top-level node. */
  lemma {:induction false} TagsOfForest(ns: seq<Node>, t: Tag)
    requires t in Tags(ns)
    ensures exists i :: 0 <= i < |ns| && (t == ns[i].tag || t in Tags(ns[i].children))
    decreases ns
  {
    if t != ns[0].tag && t !in Tags(ns[0].children) {
      TagsOfForest(ns[1..], t);
      var i :| 0 <= i < |ns[1..]| && (t == ns[1..][i].tag || t in Tags(ns[1..][i].children));
      assert ns[1..][i] == ns[i + 1];
    }
  }

  // ----- Top level -----

  /** The ids of the top-level nodes, in order. */
  function TopIds(ns: seq<Node>): (r: seq<Option<int>>)
    ensures |r| == |ns|
    ensures forall i :: 0 <= i < |ns| ==> r[i] == ns[i].tag.id
    decreases |ns|
  {
    if ns == [] then [] else [ns[0].tag.id] + TopIds(ns[1..])
  }

  /** The top-level ids of a course forest are the ids of its rows. */
  lemma TopIdsOfCourses(c: Cache, cs: seq<Row<Course>>, style: Style)
    ensures forall k :: Some(k) in TopIds(CourseNodes(c, cs, style)) <==> k in IdsOf(cs)
  {
    var t := CourseNodes(c, cs, style);
    forall k
      ensures Some(k) in TopIds(t) <==> k in IdsOf(cs)
    {
      if k in IdsOf(cs) {
        var x :| x in cs && x.id == k;
        var i :| 0 <= i < |cs| && cs[i] == x;
        assert TopIds(t)[i] == Some(k);
      }
      if Some(k) in TopIds(t) {
        var i :| 0 <= i < |t| && TopIds(t)[i] == Some(k);
        assert cs[i] in cs;
      }
    }
  }

  /** Nodes made from a title-ordered listing are ordered by label. */
  lemma SortedCourseNodes(c: Cache, cs: seq<Row<Course>>, style: Style)
    requires SortedBy(cs, CourseTitle)
    ensures var t := CourseNodes(c, cs, style);
            forall i, j :: 0 <= i < j < |t| ==> LexLe(t[i].text, t[j].text)
  {
    var t := CourseNodes(c, cs, style);
    forall i, j | 0 <= i < j < |t|
      ensures LexLe(t[i].text, t[j].text)
    {
      assert t[i].text == CourseTitle(cs[i]) && t[j].text == CourseTitle(cs[j]);
    }
  }

  /** Nodes made from a listing of distinct ids carry distinct ids. */
  lemma DistinctCourseNodes(c: Cache, cs: seq<Row<Course>>, style: Style)
    requires forall i, j :: 0 <= i < j < |cs| ==> cs[i].id != cs[j].id
    ensures var t := CourseNodes(c, cs, style);
            forall i, j :: 0 <= i < j < |t| ==> t[i].tag.id != t[j].tag.id
  {
    var t := CourseNodes(c, cs, style);
    forall i, j | 0 <= i < j < |t|
      ensures t[i].tag.id != t[j].tag.id
    {
      assert t[i].tag.id == Some(cs[i].id) && t[j].tag.id == Some(cs[j].id);
    }
  }

  /** Nodes made from an id-ordered listing are in increasing id order. */
  lemma IncreasingCourseNodes(c: Cache, cs: seq<Row<Course>>, style: Style)
    requires forall i, j :: 0 <= i < j < |cs| ==> cs[i].id < cs[j].id
    ensures var t := CourseNodes(c, cs, style);
            forall i, j :: 0 <= i < j < |t| ==>
              t[i].tag.id.Some? && t[j].tag.id.Some? && t[i].tag.id.value < t[j].tag.id.value
  {
    var t := CourseNodes(c, cs, style);
    forall i, j | 0 <= i < j < |t|
      ensures t[i].tag.id.Some? && t[j].tag.id.Some? && t[i].tag.id.value < t[j].tag.id.value
    {
      assert t[i].tag.id == Some(cs[i].id) && t[j].tag.id == Some(cs[j].id);
    }
  }

  /** A sorted copy of a listing holds the same ids. */
  lemma SameIds(cs: seq<Row<Course>>, all: seq<Row<Course>>)
    requires cs == SortBy(all, CourseTitle)
    ensures IdsOf(cs) == IdsOf(all)
  {
    SortByMembersAll(all, CourseTitle);
  }

  /** An element found at two positions is counted at least twice. */
  lemma CountedTwice<T>(s: seq<T>, i: int, j: int)
    requires 0 <= i < j < |s| && s[i] == s[j]
    ensures multiset(s)[s[i]] >= 2
  {
    var x := s[i];
    assert s == s[..j] + s[j..];
    assert s[..j][i] == x && s[j..][0] == x;
    assert x in multiset(s[..j]) && x in multiset(s[j..]);
  }

  /** In a listing with strictly increasing ids no row is counted twice. */
  lemma {:induction false} CountedOnce<R>(s: seq<Row<R>>, x: Row<R>)
    requires forall i, j :: 0 <= i < j < |s| ==> s[i].id < s[j].id
    ensures multiset(s)[x] <= 1
    decreases |s|
  {
    if s != [] {
      assert s == [s[0]] + s[1..];
      CountedOnce(s[1..], x);
      if s[0] == x {
        assert forall k :: 0 <= k < |s[1..]| ==> s[1..][k].id > x.id;
      }
    }
  }

  /** The title-ordered listing holds each course once: it reorders a listing whose ids
      are strictly increasing. */
  lemma CoursesByTitleOnce(c: Cache)
    ensures var cs := CoursesByTitle(c);
            forall i, j :: 0 <= i < j < |cs| ==> cs[i].id != cs[j].id
  {
    var cs := CoursesByTitle(c);
    var all := AllCourses(c);
    forall i, j | 0 <= i < j < |cs|
      ensures cs[i].id != cs[j].id
    {
      if cs[i].id == cs[j].id {
        assert cs[i] in multiset(all) && cs[j] in multiset(all);
        assert cs[i] in all && cs[j] in all;
        assert cs[i] == cs[j];
        CountedTwice(cs, i, j);
        CountedOnce(all, cs[i]);
        assert false;
      }
    }
  }

  // ----- Soundness: every tag names a row -----

  /** The row a tag names exists in the cache. */
  predicate Names(c: Cache, t: Tag)
  {
    t.id.Some? &&
    match t.kind
    case "course" => t.id.value in c.courses.rows
    case "module" => t.id.value in c.modules.rows
    case "lesson" => t.id.value in c.lessons.rows
    case "task" => t.id.value in c.tasks.rows
    case _ => false
  }

  lemma TaskTagsName(c: Cache, ts: seq<Row<Task>>, lessonId: int, style: Style)
    requires forall i :: 0 <= i < |ts| ==> ts[i].id in c.tasks.rows
    ensures forall t :: t in Tags(TaskNodes(ts, style)) ==> Names(c, t)
  {
    var ns := TaskNodes(ts, style);
    forall t | t in Tags(ns)
      ensures Names(c, t)
    {
      TagsOfForest(ns, t);
      var i :| 0 <= i < |ns| && (t == ns[i].tag || t in Tags(ns[i].children));
      assert Tags(ns[i].children) == [];
    }
  }

  lemma LessonTagsName(c: Cache, ls: seq<Row<Lesson>>, style: Style)
    requires forall i :: 0 <= i < |ls| ==> ls[i].id in c.lessons.rows
    ensures forall t :: t in Tags(LessonNodes(c, ls, style)) ==> Names(c, t)
  {
    var ns := LessonNodes(c, ls, style);
    forall t | t in Tags(ns)
      ensures Names(c, t)
    {
      TagsOfForest(ns, t);
      var i :| 0 <= i < |ns| && (t == ns[i].tag || t in Tags(ns[i].children));
      if t != ns[i].tag {
        TaskTagsName(c, TasksOf(c, ls[i].id), ls[i].id, style);
      }
    }
  }

  lemma ModuleTagsName(c: Cache, ms: seq<Row<Module>>, style: Style)
    requires forall i :: 0 <= i < |ms| ==> ms[i].id in c.modules.rows
    ensures forall t :: t in Tags(ModuleNodes(c, ms, style)) ==> Names(c, t)
  {
    var ns := ModuleNodes(c, ms, style);
    forall t | t in Tags(ns)
      ensures Names(c, t)
    {
      TagsOfForest(ns, t);
      var i :| 0 <= i < |ns| && (t == ns[i].tag || t in Tags(ns[i].children));
      if t != ns[i].tag {
        LessonTagsName(c, LessonsOf(c, ms[i].id), style);
      }
    }
  }

  /** Every tag of a course forest names an existing row, so every click on the tree
      emits a tag the pages can load. */
  lemma CourseTagsName(c: Cache, cs: seq<Row<Course>>, style: Style)
    requires forall i :: 0 <= i < |cs| ==> cs[i].id in c.courses.rows
    ensures forall t :: t in Tags(CourseNodes(c, cs, style)) ==> Names(c, t)
  {
    var ns := CourseNodes(c, cs, style);
    forall t | t in Tags(ns)
      ensures Names(c, t)
    {
      TagsOfForest(ns, t);
      var i :| 0 <= i < |ns| && (t == ns[i].tag || t in Tags(ns[i].children));
      if t != ns[i].tag {
        ModuleTagsName(c, ModulesOf(c, cs[i].id), style);
      }
    }
  }

  /** Both trees only name rows that exist. */
  lemma TreesAreSound(c: Cache)
    ensures forall t :: t in Tags(AppTree(c)) ==> Names(c, t)
    ensures forall t :: t in Tags(TestTree(c)) ==> Names(c, t)
  {
    var cs := CoursesByTitle(c);
    forall i | 0 <= i < |cs|
      ensures cs[i].id in c.courses.rows
    {
      SortByMembers(AllCourses(c), CourseTitle, cs[i]);
    }
    CourseTagsName(c, cs, Bare);
    CourseTagsName(c, AllCourses(c), Prefixed);
  }

  // ----- Clicks -----

  /** A node appears somewhere in a forest: at the top level or below a top-level node. */
  predicate InForest(ns: seq<Node>, n: Node)
    decreases ns
  {
    exists i :: 0 <= i < |ns| && (ns[i] == n || InForest(ns[i].children, n))
  }

  /** The tag of a node in a forest is among the forest's tags. */
  lemma {:induction false} InForestTag(ns: seq<Node>, n: Node)
    requires InForest(ns, n)
    ensures n.tag in Tags(ns)
    decreases ns
  {
    var i :| 0 <= i < |ns| && (ns[i] == n || InForest(ns[i].children, n));
    TagsOfMember(ns, i);
    if ns[i] != n {
      InForestTag(ns[i].children, n);
    }
  }

  /** A click on any node of either tree emits a tag naming a stored row, so the main
      window can always load the page the click asks for. */
  lemma ClickNamesRow(c: Cache, n: Node)
    requires InForest(AppTree(c), n) || InForest(TestTree(c), n)
    ensures Click(Some(n)).Some? && Names(c, Click(Some(n)).value)
  {
    TreesAreSound(c);
    if InForest(AppTree(c), n) {
      InForestTag(AppTree(c), n);
    } else {
      InForestTag(TestTree(c), n);
    }
  }

  /** The settings tag names no row and is the tag of no node of either tree, so a
      settings click is never mistaken for a click on the course tree. */
  lemma SettingsClickNamesNothing(c: Cache)
    ensures !Names(c, SettingsClick())
    ensures SettingsClick() !in Tags(AppTree(c)) && SettingsClick() !in Tags(TestTree(c))
  {
    TreesAreSound(c);
  }

  // ----- Parents: each node lists exactly the rows that belong to it -----

  /** The tag of the node a row's node is appended to: a module hangs below its course,
      a lesson below its module, a task below its lesson; anything else below nothing. */
  function ParentOf(c: Cache, t: Tag): Option<Tag>
  {
    if t.id.None? then None
    else
      var k := t.id.value;
      match t.kind
      case "module" => if k in c.modules.rows then Some(Tag("course", Some(c.modules.rows[k].courseId))) else None
      case "lesson" => if k in c.lessons.rows then Some(Tag("module", Some(c.lessons.rows[k].moduleId))) else None
      case "task" => if k in c.tasks.rows then Some(Tag("lesson", Some(c.tasks.rows[k].lessonId))) else None
      case _ => None
  }

  /** The nodes `kids` directly below a node tagged `parent` are, each once, the rows
      whose parent is that node's row. */
  ghost predicate KidsExact(c: Cache, parent: Tag, kids: seq<Node>)
  {
    (forall i :: 0 <= i < |kids| ==> ParentOf(c, kids[i].tag) == Some(parent))
    && (forall i, j :: 0 <= i < j < |kids| ==> kids[i].tag != kids[j].tag)
    && (forall t :: ParentOf(c, t) == Some(parent) ==> exists i :: 0 <= i < |kids| && kids[i].tag == t)
  }

  ghost predicate ChildrenExact(c: Cache, n: Node)
  {
    KidsExact(c, n.tag, n.children)
  }

  lemma TaskNodeExact(c: Cache, r: Row<Task>, style: Style)
    ensures ChildrenExact(c, TaskNode(r, style))
  {
    forall t | ParentOf(c, t) == Some(TaskNode(r, style).tag)
      ensures false
    {
    }
  }

  /** The task nodes of a complete, id-ordered listing of a lesson's tasks. */
  lemma TaskKidsExact(c: Cache, ts: seq<Row<Task>>, style: Style, lid: int)
    requires forall i :: 0 <= i < |ts| ==> ts[i].id in c.tasks.rows && c.tasks.rows[ts[i].id].lessonId == lid
    requires forall i, j :: 0 <= i < j < |ts| ==> ts[i].id < ts[j].id
    requires forall k :: k in c.tasks.rows && c.tasks.rows[k].lessonId == lid ==> k in IdsOf(ts)
    ensures KidsExact(c, Tag("lesson", Some(lid)), TaskNodes(ts, style))
  {
    var ns := TaskNodes(ts, style);
    forall i | 0 <= i < |ns|
      ensures ParentOf(c, ns[i].tag) == Some(Tag("lesson", Some(lid)))
    {
      assert ns[i].tag == Tag("task", Some(ts[i].id));
    }
    forall i, j | 0 <= i < j < |ns|
      ensures ns[i].tag != ns[j].tag
    {
      assert ns[i].tag.id == Some(ts[i].id) && ns[j].tag.id == Some(ts[j].id);
    }
    forall t | ParentOf(c, t) == Some(Tag("lesson", Some(lid)))
      ensures exists i :: 0 <= i < |ns| && ns[i].tag == t
    {
      var k := t.id.value;
      assert t.kind == "task" && k in c.tasks.rows && c.tasks.rows[k].lessonId == lid;
      var i := IdsOfHas(ts, k);
      assert ns[i].tag == t;
    }
  }

  /** The lesson nodes of a complete, id-ordered listing of a module's lessons. */
  lemma LessonKidsExact(c: Cache, ls: seq<Row<Lesson>>, style: Style, mid: int)
    requires forall i :: 0 <= i < |ls| ==> ls[i].id in c.lessons.rows && c.lessons.rows[ls[i].id].moduleId == mid
    requires forall i, j :: 0 <= i < j < |ls| ==> ls[i].id < ls[j].id
    requires forall k :: k in c.lessons.rows && c.lessons.rows[k].moduleId == mid ==> k in IdsOf(ls)
    ensures KidsExact(c, Tag("module", Some(mid)), LessonNodes(c, ls, style))
  {
    var ns := LessonNodes(c, ls, style);
    forall i | 0 <= i < |ns|
      ensures ParentOf(c, ns[i].tag) == Some(Tag("module", Some(mid)))
    {
      assert ns[i].tag == Tag("lesson", Some(ls[i].id));
    }
    forall i, j | 0 <= i < j < |ns|
      ensures ns[i].tag != ns[j].tag
    {
      assert ns[i].tag.id == Some(ls[i].id) && ns[j].tag.id == Some(ls[j].id);
    }
    forall t | ParentOf(c, t) == Some(Tag("module", Some(mid)))
      ensures exists i :: 0 <= i < |ns| && ns[i].tag == t
    {
      var k := t.id.value;
      assert t.kind == "lesson" && k in c.lessons.rows && c.lessons.rows[k].moduleId == mid;
      var i := IdsOfHas(ls, k);
      assert ns[i].tag == t;
    }
  }

  /** The module nodes of a complete, id-ordered listing of a course's modules. */
  lemma ModuleKidsExact(c: Cache, ms: seq<Row<Module>>, style: Style, cid: int)
    requires forall i :: 0 <= i < |ms| ==> ms[i].id in c.modules.rows && c.modules.rows[ms[i].id].courseId == cid
    requires forall i, j :: 0 <= i < j < |ms| ==> ms[i].id < ms[j].id
    requires forall k :: k in c.modules.rows && c.modules.rows[k].courseId == cid ==> k in IdsOf(ms)
    ensures KidsExact(c, Tag("course", Some(cid)), ModuleNodes(c, ms, style))
  {
    var ns := ModuleNodes(c, ms, style);
    forall i | 0 <= i < |ns|
      ensures ParentOf(c, ns[i].tag) == Some(Tag("course", Some(cid)))
    {
      assert ns[i].tag == Tag("module", Some(ms[i].id));
    }
    forall i, j | 0 <= i < j < |ns|
      ensures ns[i].tag != ns[j].tag
    {
      assert ns[i].tag.id == Some(ms[i].id) && ns[j].tag.id == Some(ms[j].id);
    }
    forall t | ParentOf(c, t) == Some(Tag("course", Some(cid)))
      ensures exists i :: 0 <= i < |ns| && ns[i].tag == t
    {
      var k := t.id.value;
      assert t.kind == "module" && k in c.modules.rows && c.modules.rows[k].courseId == cid;
      var i := IdsOfHas(ms, k);
      assert ns[i].tag == t;
    }
  }

  lemma LessonNodeExact(c: Cache, l: Row<Lesson>, style: Style)
    requires c.Valid()
    ensures ChildrenExact(c, LessonNode(c, l, style))
  {
    var ts := TasksOf(c, l.id);
    forall k | k in c.tasks.rows && c.tasks.rows[k].lessonId == l.id
      ensures k in IdsOf(ts)
    {
      TaskListed(c, l.id, k);
    }
    TaskKidsExact(c, ts, style, l.id);
  }

  lemma ModuleNodeExact(c: Cache, m: Row<Module>, style: Style)
    requires c.Valid()
    ensures ChildrenExact(c, ModuleNode(c, m, style))
  {
    var ls := LessonsOf(c, m.id);
    forall k | k in c.lessons.rows && c.lessons.rows[k].moduleId == m.id
      ensures k in IdsOf(ls)
    {
      LessonListed(c, m.id, k);
    }
    LessonKidsExact(c, ls, style, m.id);
  }

  lemma CourseNodeExact(c: Cache, r: Row<Course>, style: Style)
    requires c.Valid()
    ensures ChildrenExact(c, CourseNode(c, r, style))
  {
    var ms := ModulesOf(c, r.id);
    forall k | k in c.modules.rows && c.modules.rows[k].courseId == r.id
      ensures k in IdsOf(ms)
    {
      ModuleListed(c, r.id, k);
    }
    ModuleKidsExact(c, ms, style, r.id);
  }

  lemma TaskForestExact(c: Cache, ts: seq<Row<Task>>, style: Style, n: Node)
    requires InForest(TaskNodes(ts, style), n)
    ensures ChildrenExact(c, n)
  {
    var ns := TaskNodes(ts, style);
    var i :| 0 <= i < |ns| && (ns[i] == n || InForest(ns[i].children, n));
    assert ns[i] == TaskNode(ts[i], style);
    TaskNodeExact(c, ts[i], style);
  }

  lemma LessonForestExact(c: Cache, ls: seq<Row<Lesson>>, style: Style, n: Node)
    requires c.Valid() && InForest(LessonNodes(c, ls, style), n)
    ensures ChildrenExact(c, n)
  {
    var ns := LessonNodes(c, ls, style);
    var i :| 0 <= i < |ns| && (ns[i] == n || InForest(ns[i].children, n));
    assert ns[i] == LessonNode(c, ls[i], style);
    if ns[i] == n {
      LessonNodeExact(c, ls[i], style);
    } else {
      TaskForestExact(c, TasksOf(c, ls[i].id), style, n);
    }
  }

  lemma ModuleForestExact(c: Cache, ms: seq<Row<Module>>, style: Style, n: Node)
    requires c.Valid() && InForest(ModuleNodes(c, ms, style), n)
    ensures ChildrenExact(c, n)
  {
    var ns := ModuleNodes(c, ms, style);
    var i :| 0 <= i < |ns| && (ns[i] == n || InForest(ns[i].children, n));
    assert ns[i] == ModuleNode(c, ms[i], style);
    if ns[i] == n {
      ModuleNodeExact(c, ms[i], style);
    } else {
      LessonForestExact(c, LessonsOf(c, ms[i].id), style, n);
    }
  }

  lemma CourseForestExact(c: Cache, cs: seq<Row<Course>>, style: Style, n: Node)
    requires c.Valid() && InForest(CourseNodes(c, cs, style), n)
    ensures ChildrenExact(c, n)
  {
    var ns := CourseNodes(c, cs, style);
    var i :| 0 <= i < |ns| && (ns[i] == n || InForest(ns[i].children, n));
    assert ns[i] == CourseNode(c, cs[i], style);
    if ns[i] == n {
      CourseNodeExact(c, cs[i], style);
    } else {
      ModuleForestExact(c, ModulesOf(c, cs[i].id), style, n);
    }
  }

  /** In both trees every node lists below it, each once, exactly the rows whose parent
      it is: a course its modules, a module its lessons, a lesson its tasks, a task
      nothing. */
  lemma TreesFollowParents(c: Cache)
    requires c.Valid()
    ensures forall n :: InForest(AppTree(c), n) ==> ChildrenExact(c, n)
    ensures forall n :: InForest(TestTree(c), n) ==> ChildrenExact(c, n)
  {
    forall n | InForest(AppTree(c), n)
      ensures ChildrenExact(c, n)
    {
      CourseForestExact(c, CoursesByTitle(c), Bare, n);
    }
    forall n | InForest(TestTree(c), n)
      ensures ChildrenExact(c, n)
    {
      CourseForestExact(c, AllCourses(c), Prefixed, n);
    }
  }

  // ----- Completeness: every linked row is shown -----

  /** A scan of a valid table finds every row that satisfies the filter. */
  lemma ScanHas<R>(t: Table<R>, keep: R -> bool, id: int)
    requires t.Valid() && id in t.rows && keep(t.rows[id])
    ensures Row(id, t.rows[id]) in Scan(t, keep)
  {
  }

  /** A task of a lesson that has a node in the forest is shown below it. */
  lemma TaskUnderLesson(c: Cache, ls: seq<Row<Lesson>>, style: Style, p: int, k: int)
    requires c.Valid() && 0 <= p < |ls| && k in c.tasks.rows && c.tasks.rows[k].lessonId == ls[p].id
    ensures Tag("task", Some(k)) in Tags(LessonNodes(c, ls, style))
  {
    var lid := ls[p].id;
    var ts := TasksOf(c, lid);
    TaskListed(c, lid, k);
    var q :| 0 <= q < |ts| && ts[q] == Row(k, c.tasks.rows[k]);
    TagsOfMember(TaskNodes(ts, style), q);
    assert TaskNodes(ts, style)[q].tag == Tag("task", Some(k));
    assert LessonNodes(c, ls, style)[p].children == TaskNodes(ts, style);
    TagsOfMember(LessonNodes(c, ls, style), p);
  }

  /** A task of a lesson is among the lesson's listed tasks. */
  lemma TaskListed(c: Cache, lid: int, k: int)
    requires c.Valid() && k in c.tasks.rows && c.tasks.rows[k].lessonId == lid
    ensures Row(k, c.tasks.rows[k]) in TasksOf(c, lid)
  {
    ScanHas(c.tasks, (x: Task) => x.lessonId == lid, k);
  }

  /** A lesson of a module is among the module's listed lessons. */
  lemma LessonListed(c: Cache, mid: int, lid: int)
    requires c.Valid() && lid in c.lessons.rows && c.lessons.rows[lid].moduleId == mid
    ensures Row(lid, c.lessons.rows[lid]) in LessonsOf(c, mid)
  {
    ScanHas(c.lessons, (x: Lesson) => x.moduleId == mid, lid);
  }

  /** A module of a course is among the course's listed modules. */
  lemma ModuleListed(c: Cache, cid: int, mid: int)
    requires c.Valid() && mid in c.modules.rows && c.modules.rows[mid].courseId == cid
    ensures Row(mid, c.modules.rows[mid]) in ModulesOf(c, cid)
  {
    ScanHas(c.modules, (x: Module) => x.courseId == cid, mid);
  }

  /** A task whose lesson belongs to a module that has a node is shown below it. */
  lemma TaskUnderModule(c: Cache, ms: seq<Row<Module>>, style: Style, j: int, lid: int, k: int)
    requires c.Valid() && 0 <= j < |ms| && k in c.tasks.rows && c.tasks.rows[k].lessonId == lid
    requires lid in c.lessons.rows && c.lessons.rows[lid].moduleId == ms[j].id
    ensures Tag("task", Some(k)) in Tags(ModuleNodes(c, ms, style))
  {
    var ls := LessonsOf(c, ms[j].id);
    LessonListed(c, ms[j].id, lid);
    var p :| 0 <= p < |ls| && ls[p] == Row(lid, c.lessons.rows[lid]);
    TaskUnderLesson(c, ls, style, p, k);
    assert ModuleNodes(c, ms, style)[j].children == LessonNodes(c, ls, style);
    TagsOfMember(ModuleNodes(c, ms, style), j);
  }

  /** On a linked cache, a task is shown in any course forest that lists its course. */
  lemma TaskUnderCourse(c: Cache, cs: seq<Row<Course>>, style: Style, k: int)
    requires c.Valid() && c.Linked() && k in c.tasks.rows
    requires forall id :: id in c.courses.rows ==> Row(id, c.courses.rows[id]) in cs
    ensures Tag("task", Some(k)) in Tags(CourseNodes(c, cs, style))
  {
    var lid := c.tasks.rows[k].lessonId;
    var mid := c.lessons.rows[lid].moduleId;
    var cid := c.modules.rows[mid].courseId;
    var i :| 0 <= i < |cs| && cs[i] == Row(cid, c.courses.rows[cid]);
    TaskUnderCourseNode(c, cs[i], style, mid, lid, k);
    assert CourseNodes(c, cs, style)[i] == CourseNode(c, cs[i], style);
    TagsOfMember(CourseNodes(c, cs, style), i);
  }

  /** A task whose module belongs to a course is shown below that course's node. */
  lemma TaskUnderCourseNode(c: Cache, r: Row<Course>, style: Style, mid: int, lid: int, k: int)
    requires c.Valid() && k in c.tasks.rows && c.tasks.rows[k].lessonId == lid
    requires lid in c.lessons.rows && c.lessons.rows[lid].moduleId == mid
    requires mid in c.modules.rows && c.modules.rows[mid].courseId == r.id
    ensures Tag("task", Some(k)) in Tags(CourseNode(c, r, style).children)
  {
    var ms := ModulesOf(c, r.id);
    ModuleListed(c, r.id, mid);
    var j :| 0 <= j < |ms| && ms[j] == Row(mid, c.modules.rows[mid]);
    TaskUnderModule(c, ms, style, j, lid, k);
  }

  /** The title-ordered listing holds every course row. */
  lemma CoursesByTitleHasAll(c: Cache)
    requires c.Valid()
    ensures forall id :: id in c.courses.rows ==> Row(id, c.courses.rows[id]) in CoursesByTitle(c)
  {
    forall id | id in c.courses.rows
      ensures Row(id, c.courses.rows[id]) in CoursesByTitle(c)
    {
      SortByMembers(AllCourses(c), CourseTitle, Row(id, c.courses.rows[id]));
    }
  }

  /** Both trees show every task of a linked cache. */
  lemma TreesShowEveryTask(c: Cache, k: int)
    requires c.Valid() && c.Linked() && k in c.tasks.rows
    ensures Tag("task", Some(k)) in Tags(AppTree(c))
    ensures Tag("task", Some(k)) in Tags(TestTree(c))
  {
    CoursesByTitleHasAll(c);
    TaskUnderCourse(c, CoursesByTitle(c), Bare, k);
    TaskUnderCourse(c, AllCourses(c), Prefixed, k);
  }
}

=== FILE: sorting.dfy ===
/** Ordering of query results and directory listings: `ORDER BY title` in SQLite and
    the name order of a GitHub directory listing, both by code-point order on strings. */
module Sorting {
  import opened Text

  /** `s` is ordered by `key`: every earlier element's key is at most every later one's. */
  ghost predicate SortedBy<T>(s: seq<T>, key: T -> string)
  {
    forall i, j :: 0 <= i < j < |s| ==> LexLe(key(s[i]), key(s[j]))
  }

  /** Inserts `x` into the ordered sequence `s` before the first element whose key is not smaller. */
  function InsertBy<T>(x: T, s: seq<T>, key: T -> string): (r: seq<T>)
    ensures multiset(r) == multiset(s) + multiset{x}
    ensures |r| == |s| + 1
    ensures SortedBy(s, key) ==> SortedBy(r, key)
  {
    if s == [] then [x]
    else if LexLe(key(x), key(s[0])) then
      assert SortedBy(s, key) ==> SortedBy([x] + s, key) by {
        if SortedBy(s, key) {
          InsertFrontSorted(x, s, key);
        }
      }
      [x] + s
    else
      var rest := InsertBy(x, s[1..], key);
      assert s == [s[0]] + s[1..];
      assert SortedBy(s, key) ==> SortedBy([s[0]] + rest, key) by {
        if SortedBy(s, key) {
          InsertLaterSorted(x, s, rest, key);
        }
      }
      [s[0]] + rest
  }

  /** A key no larger than the first keeps an ordered sequence ordered at its front. */
  lemma InsertFrontSorted<T>(x: T, s: seq<T>, key: T -> string)
    requires s != [] && SortedBy(s, key) && LexLe(key(x), key(s[0]))
    ensures SortedBy([x] + s, key)
  {
    forall j | 0 < j < |s| + 1
      ensures LexLe(key(x), key(([x] + s)[j]))
    {
      if j > 1 {
        LexLeTransitive(key(x), key(s[0]), key(s[j - 1]));
      }
    }
  }

  /** A key larger than the first goes into the rest, which stays above the first. */
  lemma InsertLaterSorted<T>(x: T, s: seq<T>, rest: seq<T>, key: T -> string)
    requires s != [] && SortedBy(s, key) && !LexLe(key(x), key(s[0]))
    requires multiset(rest) == multiset(s[1..]) + multiset{x}
    requires SortedBy(rest, key)
    ensures SortedBy([s[0]] + rest, key)
  {
    LexLeTotal(key(x), key(s[0]));
    forall k | 0 <= k < |rest|
      ensures LexLe(key(s[0]), key(rest[k]))
    {
      assert rest[k] in multiset(rest);
      if rest[k] != x {
        assert rest[k] in multiset(s[1..]);
        var m :| 0 <= m < |s[1..]| && s[1..][m] == rest[k];
        assert s[m + 1] == rest[k];
      }
    }
    forall i, j | 0 <= i < j < |rest| + 1
      ensures LexLe(key(([s[0]] + rest)[i]), key(([s[0]] + rest)[j]))
    {
      if i > 0 {
        assert ([s[0]] + rest)[i] == rest[i - 1] && ([s[0]] + rest)[j] == rest[j - 1];
      }
    }
  }

  /** Insertion sort by `key`: an ordered permutation of `s`. Elements with equal keys
      keep their relative order. */
  function SortBy<T>(s: seq<T>, key: T -> string): (r: seq<T>)
    ensures multiset(r) == multiset(s)
    ensures |r| == |s|
    ensures SortedBy(r, key)
  {
    if s == [] then []
    else
      assert s == [s[0]] + s[1..];
      InsertBy(s[0], SortBy(s[1..], key), key)
  }

  /** Every element of a sorted permutation comes from the input and vice versa. */
  lemma SortByMembers<T>(s: seq<T>, key: T -> string, x: T)
    ensures x in SortBy(s, key) <==> x in s
  {
    var r := SortBy(s, key);
    assert x in r <==> x in multiset(r);
    assert x in s <==> x in multiset(s);
  }

  /** A non-empty finite set of strings has a least element. */
  lemma {:induction false} LeastExists(s: set<string>)
    requires s != {}
    ensures exists m :: m in s && forall y :: y in s ==> LexLe(m, y)
  {
    var x :| x in s;
    if s == {x} {
      LexLeReflexive(x);
      assert forall y :: y in s ==> LexLe(x, y);
    } else {
      LeastExists(s - {x});
      var m :| m in s - {x} && forall y :: y in s - {x} ==> LexLe(m, y);
      LexLeTotal(m, x);
      if LexLe(m, x) {
        assert forall y :: y in s ==> LexLe(m, y);
      } else {
        forall y | y in s
          ensures LexLe(x, y)
        {
          if y == x {
            LexLeReflexive(x);
          } else {
            LexLeTransitive(x, m, y);
          }
        }
      }
    }
  }

  /** The least element of a non-empty set of strings. */
  function Least(s: set<string>): (m: string)
    requires s != {}
    ensures m in s
    ensures forall y :: y in s ==> LexLe(m, y)
  {
    LeastExists(s);
    assert forall a, b :: a in s && b in s && LexLe(a, b) && LexLe(b, a) ==> a == b by {
      forall a, b | a in s && b in s && LexLe(a, b) && LexLe(b, a)
        ensures a == b
      {
        LexLeAntisymmetric(a, b);
      }
    }
    var m :| m in s && forall y :: y in s ==> LexLe(m, y);
    m
  }

  /** The elements of `s` listed once each in increasing order. */
  function SortedList(s: set<string>): (r: seq<string>)
    ensures |r| == |s|
    ensures forall x :: x in r <==> x in s
    ensures forall i, j :: 0 <= i < j < |r| ==> LexLe(r[i], r[j]) && r[i] != r[j]
    decreases |s|
  {
    if s == {} then []
    else
      var m := Least(s);
      var rest := SortedList(s - {m});
      [m] + rest
  }
}

=== FILE: tables.dfy ===
/** One SQLite table with an `INTEGER PRIMARY KEY AUTOINCREMENT` id column: a map from
    id to row contents plus the next id the table will issue. */
module Tables {
  import opened Wrappers

  /** A fetched row: its id and the other columns. */
  datatype Row<R> = Row(id: int, val: R)

  /** The rows by id and the id AUTOINCREMENT hands out next (one more than the largest
      id ever issued, which deletions never lower). */
  datatype Table<R> = Table(rows: map<int, R>, next: int)
  {
    /** Every stored id was issued earlier: ids are positive and below `next`. */
    ghost predicate Valid()
    {
      next >= 1 && forall id :: id in rows ==> 1 <= id < next
    }

    /** `SELECT * ... WHERE id = ?` followed by `fetchone()`. */
    function Get(id: int): (r: Option<R>)
      ensures r.Some? <==> id in rows
      ensures r.Some? ==> r.value == rows[id]
    {
      if id in rows then Some(rows[id]) else None
    }

    /** `id` is larger than every stored id. */
    predicate Above(id: int)
    {
      forall k :: k in rows ==> k < id
    }

    /** `INSERT` of one row: it gets the next id, which `lastrowid` reports. */
    function Insert(v: R): (r: (Table<R>, int))
      ensures r.0.rows == rows[r.1 := v]
      ensures r.1 == next && r.0.next == next + 1
      ensures Valid() ==> Above(r.1) && r.1 !in rows
      ensures Valid() ==> r.0.Valid() && r.0.next > next
    {
      (Table(rows[next := v], next + 1), next)
    }

    /** `DELETE ... WHERE id = ?`: removes that row if present; ids are not reused. */
    function Remove(id: int): (r: Table<R>)
      ensures r.rows.Keys == rows.Keys - {id}
      ensures forall k :: k in r.rows ==> r.rows[k] == rows[k]
      ensures Valid() ==> r.Valid()
      ensures id !in rows ==> r == this
    {
      Table(rows - {id}, next)
    }

    /** Replaces the contents of an existing row; a missing id changes nothing. */
    function Put(id: int, v: R): (r: Table<R>)
      ensures id in rows ==> r.rows == rows[id := v]
      ensures id !in rows ==> r == this
      ensures Valid() ==> r.Valid()
      ensures r.next == next
    {
      if id in rows then Table(rows[id := v], next) else this
    }
  }

  /** The empty table of a freshly created database. */
  function Empty<R>(): (t: Table<R>)
    ensures t.Valid() && t.rows == map[]
  {
    Table(map[], 1)
  }

  /** The ids of a list of fetched rows. */
  function IdsOf<R(==)>(s: seq<Row<R>>): set<int>
  {
    set x | x in s :: x.id
  }

  /** A listing holds no ids exactly when it is empty. */
  lemma IdsOfEmpty<R>(s: seq<Row<R>>)
    ensures IdsOf(s) == {} <==> s == []
  {
    if s != [] {
      assert s[0] in s && s[0].id in IdsOf(s);
    }
  }

  /** An id of a listing is the id of one of its positions. */
  lemma IdsOfHas<R>(s: seq<Row<R>>, k: int) returns (i: int)
    requires k in IdsOf(s)
    ensures 0 <= i < |s| && s[i].id == k
  {
    var x :| x in s && x.id == k;
    i :| 0 <= i < |s| && s[i] == x;
  }

  /** The rows of `m` whose contents satisfy `keep`. */
  function Filter<R>(m: map<int, R>, keep: R -> bool): (r: map<int, R>)
    ensures forall k :: k in r <==> k in m && keep(m[k])
    ensures forall k :: k in r ==> r[k] == m[k]
  {
    map k | k in m && keep(m[k]) :: m[k]
  }

  /** A table scan in id order from id `lo` on, keeping the rows that satisfy `keep`:
      what `SELECT * ... WHERE <condition>` without `ORDER BY` returns, since SQLite
      walks the rowid B-tree in ascending order. */
  function ScanFrom<R(==)>(t: Table<R>, lo: int, keep: R -> bool): (r: seq<Row<R>>)
    ensures forall i :: 0 <= i < |r| ==>
              r[i].id in t.rows && t.rows[r[i].id] == r[i].val && keep(r[i].val) && lo <= r[i].id
    ensures forall i, j :: 0 <= i < j < |r| ==> r[i].id < r[j].id
    ensures forall id :: id in t.rows && lo <= id < t.next && keep(t.rows[id]) ==>
              Row(id, t.rows[id]) in r
    decreases t.next - lo
  {
    if lo >= t.next then []
    else
      var rest := ScanFrom(t, lo + 1, keep);
      if lo in t.rows && keep(t.rows[lo]) then [Row(lo, t.rows[lo])] + rest else rest
  }

  /** The whole scan: every row satisfying `keep`, each once, in ascending id order. */
  function Scan<R(==)>(t: Table<R>, keep: R -> bool): (r: seq<Row<R>>)
    ensures forall i :: 0 <= i < |r| ==>
              r[i].id in t.rows && t.rows[r[i].id] == r[i].val && keep(r[i].val)
    ensures forall i, j :: 0 <= i < j < |r| ==> r[i].id < r[j].id
    ensures t.Valid() ==> forall id :: id in t.rows && keep(t.rows[id]) ==> Row(id, t.rows[id]) in r
    ensures t.Valid() ==> IdsOf(r) == Filter(t.rows, keep).Keys
  {
    ScanFrom(t, 1, keep)
  }
}

=== FILE: test_courses_page.dfy ===
/** The course page of the second variant. Creating a course cannot succeed: the page
    hands the adapter's two-parameter `create_course` four arguments. Deleting a course
    removes its repository first, with nothing caught in between, and then the course's
    whole subtree from the cache. */
module TestCoursesPage {
  import opened Wrappers
  import opened Text
  import opened Tables
  import opened Schema
  import opened Remote
  import opened Pages
  import TestPageSteps
  import LocalDb

  /** `create_course` on the typed title: blank and duplicate titles (ignoring case,
      against the title-sorted listing) are refused; otherwise the page opens
      `{login}/{title}`, and then the call with the wrong number of arguments raises
      `TypeError`. Nothing is ever created or stored. */
  function CreateCourse(env: Env, w: World, titleInput: string): (r: Run)
    ensures Strip(titleInput) == "" ==> r == Run(w, Warned(BlankTitle))
    ensures Strip(titleInput) != "" && AnyTitleLike(CoursesByTitle(w.cache), CourseTitle, Strip(titleInput)) ==>
              r == Run(w, Warned(DuplicateTitle))
    ensures OnlyReads(w, r.w)
    ensures r.out.Warned? || r.out.Failed?
    ensures r.out == Failed(TypeError) <==>
              Strip(titleInput) != "" && !AnyTitleLike(CoursesByTitle(w.cache), CourseTitle, Strip(titleInput))
              && !env.fails(|w.log|) && Strip(titleInput) in w.hub.repos
    ensures r.out.Failed? ==> r.out.exc in {GithubError, TypeError}
  {
    var title := Strip(titleInput);
    if title == "" then Run(w, Warned(BlankTitle))
    else
      if AnyTitleLike(CoursesByTitle(w.cache), CourseTitle, title) then Run(w, Warned(DuplicateTitle))
      else
        var s := TestPageSteps.OpenRepo(env, w, title);
        if s.r.Err? then Run(s.w, Failed(GithubError))
        else Run(s.w, Failed(TypeError))
  }

  /** `delete_course` on the selected id, once confirmed. A course with a `github_path`
      has its repository `{login}/{github_path}` opened and deleted; a failure of either
      call ends the action before the cache is touched. Otherwise the course and every
      module, lesson and task under it are deleted from the cache. */
  function DeleteCourse(env: Env, w: World, current: Option<int>): (r: Run)
    ensures !Truthy(current) ==> r == Run(w, Warned(NothingSelected))
    ensures Truthy(current) ==> r.out.Done? || r.out == Failed(GithubError)
    ensures r.w.lms == w.lms && Extends(w, r.w)
    ensures r.out.Done? <==>
              Truthy(current)
              && (current.value in w.cache.courses.rows && w.cache.courses.rows[current.value].githubPath != "" ==>
                    !env.fails(|w.log|) && !env.fails(|w.log| + 1) && w.cache.courses.rows[current.value].githubPath in w.hub.repos)
    ensures r.out.Done? ==> r.w.cache == LocalDb.DeleteCourse(w.cache, current.value)
    ensures r.out.Done? && current.value in w.cache.courses.rows && w.cache.courses.rows[current.value].githubPath != "" ==>
              r.w.hub == w.hub.(repos := w.hub.repos - {w.cache.courses.rows[current.value].githubPath})
    ensures r.out.Done? && (current.value !in w.cache.courses.rows || w.cache.courses.rows[current.value].githubPath == "") ==>
              r.w == w.(cache := LocalDb.DeleteCourse(w.cache, current.value))
    ensures r.out.Failed? ==> r.w.cache == w.cache && r.w.hub == w.hub
  {
    if !Truthy(current) then Run(w, Warned(NothingSelected))
    else
      var id := current.value;
      match w.cache.courses.Get(id)
      case Some(course) =>
        if course.githubPath != "" then
          var s1 := TestPageSteps.OpenRepo(env, w, course.githubPath);
          if s1.r.Err? then Run(s1.w, Failed(GithubError))
          else
            var s2 := DeleteRepo(env, s1.w, s1.r.value);
            if s2.r.Err? then Run(s2.w, Failed(GithubError))
            else Run(s2.w.(cache := LocalDb.DeleteCourse(w.cache, id)), Done)
        else Run(w.(cache := LocalDb.DeleteCourse(w.cache, id)), Done)
      case None => Run(w.(cache := LocalDb.DeleteCourse(w.cache, id)), Done)
  }

  /** After the cascade, listing the deleted course's modules, or the lessons of any of
      its former modules, finds nothing. */
  lemma CascadeLeavesNoChildren(c: Cache, id: int)
    requires c.Valid()
    ensures var d := LocalDb.DeleteCourse(c, id);
            d.Valid() && id !in d.courses.rows && ModulesOf(d, id) == []
            && (forall m :: m in ModuleIdsOf(c, id) ==> LessonsOf(d, m) == [])
  {
    var d := LocalDb.DeleteCourse(c, id);
    IdsOfEmpty(ModulesOf(d, id));
    forall m | m in ModuleIdsOf(c, id)
      ensures LessonsOf(d, m) == []
    {
      IdsOfEmpty(LessonsOf(d, m));
      assert LessonIdsOf(d, {m}) == {} by {
        forall k | k in d.lessons.rows
          ensures d.lessons.rows[k].moduleId != m
        {
          assert k in c.lessons.rows && d.lessons.rows[k] == c.lessons.rows[k];
        }
      }
    }
  }

  /** A finished `delete_course` leaves nothing of the course behind: not its row, not a
      module or lesson under it, and not its repository. */
  lemma DeleteCourseLeavesNothing(env: Env, w: World, id: int)
    requires w.cache.Valid() && id != 0
    requires DeleteCourse(env, w, Some(id)).out.Done?
    ensures var c := DeleteCourse(env, w, Some(id)).w.cache;
            c.Valid() && id !in c.courses.rows && ModulesOf(c, id) == []
            && (forall m :: m in ModuleIdsOf(w.cache, id) ==> LessonsOf(c, m) == [])
    ensures id in w.cache.courses.rows && w.cache.courses.rows[id].githubPath != "" ==>
              w.cache.courses.rows[id].githubPath !in DeleteCourse(env, w, Some(id)).w.hub.repos
  {
    CascadeLeavesNoChildren(w.cache, id);
  }

  /** The duplicate check refuses exactly the titles some stored course already has,
      ignoring case, whatever the order of the listing. */
  lemma CreateCourseRefusesTaken(env: Env, w: World, titleInput: string)
    requires w.cache.Valid() && Strip(titleInput) != ""
    ensures CreateCourse(env, w, titleInput).out == Warned(DuplicateTitle) <==> CourseTitleTaken(w.cache, Strip(titleInput))
  {
    CourseListingCheck(w.cache, Strip(titleInput));
  }
}

=== FILE: test_github_api.dfy ===
/** `GitHubCourseManager`, the test variant's GitHub adapter. It creates courses, modules,
    lessons and tasks exactly as `GitHubAPI` does. It differs in three ways. It finds a
    repository to delete by its full name `{login}/{name}`. It updates a file with the SHA
    it has just read. It deletes a folder entry by entry. */
module TestGithubApi {
  import opened Wrappers
  import opened Text
  import opened Naming
  import opened Remote
  import opened GithubApi
  import Hub

  /** Equal strings with a common prefix have equal rests. */
  lemma JoinCancel(a: string, b: string, c: string)
    requires a + b == a + c
    ensures b == c
  {
    assert b == (a + b)[|a|..];
    assert c == (a + c)[|a|..];
  }

  /** `delete_course(repo_name)`: `github.get_repo("{login}/{repo_name}")`, then
      `repo.delete()`. */
  function DeleteCourse(env: Env, w: World, repoName: string): (r: Step<()>)
    ensures r.w.cache == w.cache && r.w.lms == w.lms
    ensures r.r.Ok? <==> !env.fails(|w.log|) && !env.fails(|w.log| + 1) && repoName in w.hub.repos
    ensures r.r.Ok? ==> r.w.hub == w.hub.(repos := w.hub.repos - {repoName})
                        && r.w.log == w.log + [GhGetRepoByFullName(w.hub.login + "/" + repoName), GhDeleteRepo(repoName)]
    ensures r.r.Err? ==> r.w.hub == w.hub && r.r.error == RuntimeError
  {
    var s1 := GetRepoByFullName(env, w, w.hub.login + "/" + repoName);
    if s1.r.Err? then Step(s1.w, Err(RuntimeError))
    else
      JoinCancel(w.hub.login + "/", s1.r.value, repoName);
      Rethrow(DeleteRepo(env, s1.w, s1.r.value))
  }

  /** `update_lesson` and `update_task` (the same code): read the file, then update it
      with the SHA just read. A folder path makes `file.path` fail on the list of
      entries, an `AttributeError` the adapter does not catch. */
  function UpdateFileFresh(env: Env, w: World, repo: string, path: string, content: string): (r: Step<()>)
    ensures r.w.cache == w.cache && r.w.lms == w.lms
    ensures r.r.Ok? <==> !env.fails(|w.log|) && !env.fails(|w.log| + 1)
                         && repo in w.hub.repos && path in w.hub.repos[repo].files
    ensures r.r.Ok? ==> r.w.log == w.log + [GhGetContents(repo, path), GhUpdateFile(repo, path, w.hub.repos[repo].files[path].sha)]
                        && r.w.hub == Hub.UpdateFile(w.hub, repo, path, content, w.hub.repos[repo].files[path].sha).value
    ensures r.r.Err? ==> r.w.hub == w.hub
    ensures r.r.Err? ==> r.r.error == (if !env.fails(|w.log|) && repo in w.hub.repos && path !in w.hub.repos[repo].files
                                         && Hub.IsDir(w.hub.repos[repo].files, path) then AttributeError else RuntimeError)
  {
    var s1 := GetContents(env, w, repo, path);
    if s1.r.Err? then Step(s1.w, Err(RuntimeError))
    else match s1.r.value
      case Listing(_) => Step(s1.w, Err(AttributeError))
      case FileAt(p, sha) => Rethrow(UpdateFile(env, s1.w, repo, p, content, sha))
  }

  /** The paths of listed entries. */
  function PathsOf(es: seq<Hub.Entry>): set<string>
  {
    set e | e in es :: e.path
  }

  /** The delete calls for a listing, one per entry with that entry's SHA. */
  function DeleteCalls(repo: string, es: seq<Hub.Entry>): (r: seq<Call>)
    ensures |r| == |es|
    ensures forall i :: 0 <= i < |es| ==> r[i] == GhDeleteFile(repo, es[i].path, es[i].sha)
  {
    if es == [] then [] else [GhDeleteFile(repo, es[0].path, es[0].sha)] + DeleteCalls(repo, es[1..])
  }

  /** The loop over a folder listing: `delete_file` on each entry with that entry's SHA,
      stopping at the first failure. */
  function DeleteEntries(env: Env, w: World, repo: string, es: seq<Hub.Entry>): (r: Step<()>)
    ensures r.w.cache == w.cache && r.w.lms == w.lms && r.w.hub.login == w.hub.login
    ensures Extends(w, r.w)
    ensures r.r.Err? ==> r.r.error == GithubError
    ensures r.w.hub.repos.Keys == w.hub.repos.Keys
    ensures forall n :: n in w.hub.repos && n != repo ==> r.w.hub.repos[n] == w.hub.repos[n]
    ensures r.r.Ok? ==> r.w.log == w.log + DeleteCalls(repo, es)
    ensures r.r.Ok? && repo in w.hub.repos ==> r.w.hub.repos[repo].files == w.hub.repos[repo].files - PathsOf(es)
    decreases |es|
  {
    if es == [] then Step(w, Ok(()))
    else
      var s := DeleteFile(env, w, repo, es[0].path, es[0].sha);
      if s.r.Err? then s
      else
        var r := DeleteEntries(env, s.w, repo, es[1..]);
        EntriesStep(env, w, s, r, repo, es);
        r
  }

  /** One turn of the loop: deleting the first entry, then the rest, deletes them all. */
  lemma EntriesStep(env: Env, w: World, s: Step<()>, r: Step<()>, repo: string, es: seq<Hub.Entry>)
    requires es != []
    requires s == DeleteFile(env, w, repo, es[0].path, es[0].sha) && s.r.Ok?
    requires Extends(s.w, r.w)
    requires r.w.hub.repos.Keys == s.w.hub.repos.Keys
    requires forall n :: n in s.w.hub.repos && n != repo ==> r.w.hub.repos[n] == s.w.hub.repos[n]
    requires r.r.Ok? ==> r.w.log == s.w.log + DeleteCalls(repo, es[1..])
    requires r.r.Ok? && repo in s.w.hub.repos ==> r.w.hub.repos[repo].files == s.w.hub.repos[repo].files - PathsOf(es[1..])
    ensures Extends(w, r.w)
    ensures r.w.hub.repos.Keys == w.hub.repos.Keys
    ensures forall n :: n in w.hub.repos && n != repo ==> r.w.hub.repos[n] == w.hub.repos[n]
    ensures r.r.Ok? ==> r.w.log == w.log + DeleteCalls(repo, es)
    ensures r.r.Ok? && repo in w.hub.repos ==> r.w.hub.repos[repo].files == w.hub.repos[repo].files - PathsOf(es)
  {
    var call := GhDeleteFile(repo, es[0].path, es[0].sha);
    EntriesLog(w, s.w, call, DeleteCalls(repo, es[1..]));
    ExtendsTrans(w, s.w, r.w);
    PathsOfSplit(es);
    assert DeleteCalls(repo, es) == [call] + DeleteCalls(repo, es[1..]);
    if repo in w.hub.repos {
      EntriesFiles(w.hub.repos, s.w.hub.repos, r.w.hub.repos, repo, es[0].path, PathsOf(es[1..]));
    }
  }

  /** The first entry and the rest of a listing. */
  lemma PathsOfSplit(es: seq<Hub.Entry>)
    requires es != []
    ensures PathsOf(es) == {es[0].path} + PathsOf(es[1..])
  {
    assert forall e :: e in es <==> e == es[0] || e in es[1..];
  }

  /** The log of one call followed by the calls of the rest. */
  lemma EntriesLog(w: World, v: World, call: Call, rest: seq<Call>)
    requires v.log == w.log + [call]
    ensures Extends(w, v)
    ensures w.log + ([call] + rest) == v.log + rest
  {
    assert v.log[..|w.log|] == w.log;
  }

  /** The files of the repository after the first delete and then the rest. */
  lemma EntriesFiles(a: map<string, Hub.Repo>, b: map<string, Hub.Repo>, c: map<string, Hub.Repo>,
                     repo: string, p: string, rest: set<string>)
    requires repo in a && b.Keys == a.Keys && b[repo].files == a[repo].files - {p}
    requires forall n :: n in a && n != repo ==> b[n] == a[n]
    requires c.Keys == b.Keys
    requires forall n :: n in b && n != repo ==> c[n] == b[n]
    ensures c.Keys == a.Keys
    ensures forall n :: n in a && n != repo ==> c[n] == a[n]
    ensures b[repo].files - rest == a[repo].files - ({p} + rest)
  {
  }

  /** With no transport failure, a listing of distinct, current files is deleted in full. */
  lemma {:induction false} DeleteEntriesSucceeds(env: Env, w: World, repo: string, es: seq<Hub.Entry>)
    requires forall n :: |w.log| <= n < |w.log| + |es| ==> !env.fails(n)
    requires repo in w.hub.repos
    requires forall i :: 0 <= i < |es| ==>
               es[i].path in w.hub.repos[repo].files && es[i].sha == w.hub.repos[repo].files[es[i].path].sha
    requires forall i, j :: 0 <= i < j < |es| ==> es[i].path != es[j].path
    ensures DeleteEntries(env, w, repo, es).r.Ok?
    decreases |es|
  {
    if es != [] {
      var s := DeleteFile(env, w, repo, es[0].path, es[0].sha);
      assert forall i :: 1 <= i < |es| ==> es[i].path != es[0].path;
      DeleteEntriesSucceeds(env, s.w, repo, es[1..]);
    }
  }

  /** The last step on a folder: fetch `{path}/README.md` again and delete it with the
      SHA just read. */
  function DeleteReadme(env: Env, w: World, repo: string, path: string): (r: Step<()>)
    ensures r.w.cache == w.cache && r.w.lms == w.lms
    ensures r.r.Ok? <==> !env.fails(|w.log|) && !env.fails(|w.log| + 1)
                         && repo in w.hub.repos && ModuleReadmePath(path) in w.hub.repos[repo].files
    ensures r.r.Ok? ==> repo in r.w.hub.repos
                        && r.w.hub.repos[repo].files == w.hub.repos[repo].files - {ModuleReadmePath(path)}
    ensures r.r.Err? ==> r.r.error == RuntimeError || r.r.error == AttributeError
  {
    var s := GetContents(env, w, repo, ModuleReadmePath(path));
    if s.r.Err? then Step(s.w, Err(RuntimeError))
    else match s.r.value
      case Listing(_) => Step(s.w, Err(AttributeError))
      case FileAt(p, sha) => Rethrow(DeleteFile(env, s.w, repo, p, sha))
  }

  /** `delete_file_or_folder(repo, path)` as written: a file is deleted with its own SHA;
      for a folder every listed entry is deleted and then `{path}/README.md` is fetched
      and deleted once more. */
  function DeleteFileOrFolder(env: Env, w: World, repo: string, path: string): (r: Step<()>)
    ensures r.w.cache == w.cache && r.w.lms == w.lms
    ensures r.r.Err? ==> r.r.error == RuntimeError || r.r.error == AttributeError
    ensures repo in w.hub.repos && path in w.hub.repos[repo].files ==>
              (r.r.Ok? <==> !env.fails(|w.log|) && !env.fails(|w.log| + 1))
              && (r.r.Ok? ==> r.w.log == w.log + [GhGetContents(repo, path), GhDeleteFile(repo, path, w.hub.repos[repo].files[path].sha)]
                              && repo in r.w.hub.repos && r.w.hub.repos[repo].files == w.hub.repos[repo].files - {path})
  {
    var s1 := GetContents(env, w, repo, path);
    if s1.r.Err? then Step(s1.w, Err(RuntimeError))
    else match s1.r.value
      case FileAt(p, sha) => Rethrow(DeleteFile(env, s1.w, repo, p, sha))
      case Listing(es) =>
        var s2 := DeleteEntries(env, s1.w, repo, es);
        if s2.r.Err? then Step(s2.w, Err(RuntimeError))
        else DeleteReadme(env, s2.w, repo, path)
  }

  /** A folder's `README.md` is one of its listed entries. */
  lemma ReadmeListed(files: map<string, Hub.File>, path: string)
    requires ModuleReadmePath(path) in files
    ensures Hub.IsDir(files, path)
    ensures ModuleReadmePath(path) in PathsOf(Hub.ListDir(files, path))
  {
    var f := ModuleReadmePath(path);
    assert f == (path + "/") + "README.md";
    assert IsPrefix(path + "/", f);
    assert f[|path| + 1..] == "README.md";
    assert f in Hub.Children(files, path);
  }

  /** Deleting a folder that holds a `README.md`, as every module folder does, never
      succeeds: if every listed entry is deleted, the README is among them, so fetching
      it again fails. */
  lemma ReadmeDeletedTwice(env: Env, w: World, repo: string, path: string)
    requires repo in w.hub.repos
    requires path !in w.hub.repos[repo].files && ModuleReadmePath(path) in w.hub.repos[repo].files
    ensures DeleteFileOrFolder(env, w, repo, path).r.Err?
  {
    var files := w.hub.repos[repo].files;
    ReadmeListed(files, path);
    var s1 := GetContents(env, w, repo, path);
    if s1.r.Ok? {
      var es := Hub.ListDir(files, path);
      assert s1.r.value == Hub.Listing(es);
      var s2 := DeleteEntries(env, s1.w, repo, es);
      if s2.r.Ok? {
        assert ModuleReadmePath(path) !in s2.w.hub.repos[repo].files;
        assert DeleteFileOrFolder(env, w, repo, path) == DeleteReadme(env, s2.w, repo, path);
      } else {
        assert DeleteFileOrFolder(env, w, repo, path) == Step(s2.w, Err(RuntimeError));
      }
    } else {
      assert DeleteFileOrFolder(env, w, repo, path) == Step(s1.w, Err(RuntimeError));
    }
  }

  /** The folder branch with the second README deletion skipped when the README was
      already among the listed entries. */
  function DeleteFileOrFolderOnce(env: Env, w: World, repo: string, path: string): (r: Step<()>)
    ensures r.w.cache == w.cache && r.w.lms == w.lms
    ensures r.r.Err? ==> r.r.error == RuntimeError || r.r.error == AttributeError
    ensures repo in w.hub.repos && path in w.hub.repos[repo].files ==>
              r == DeleteFileOrFolder(env, w, repo, path)
  {
    var s1 := GetContents(env, w, repo, path);
    if s1.r.Err? then Step(s1.w, Err(RuntimeError))
    else match s1.r.value
      case FileAt(p, sha) => Rethrow(DeleteFile(env, s1.w, repo, p, sha))
      case Listing(es) =>
        var s2 := DeleteEntries(env, s1.w, repo, es);
        if s2.r.Err? then Step(s2.w, Err(RuntimeError))
        else if ModuleReadmePath(path) in PathsOf(es) then s2
        else DeleteReadme(env, s2.w, repo, path)
  }

  /** A listing names each child of the folder, and nothing else. */
  lemma ListingPaths(files: map<string, Hub.File>, path: string)
    ensures PathsOf(Hub.ListDir(files, path)) == Hub.Children(files, path)
  {
    var es := Hub.ListDir(files, path);
    forall p | p in Hub.Children(files, path)
      ensures p in PathsOf(es)
    {
      var i :| 0 <= i < |es| && es[i].path == p;
      assert es[i] in es;
    }
  }

  /** Without sub-folders, the children of a folder are the files under it. */
  lemma PlainFolderChildren(files: map<string, Hub.File>, path: string)
    requires forall f :: f in files && IsPrefix(path + "/", f) ==> '/' !in f[|path| + 1..]
    ensures Hub.Children(files, path) == set f | f in files && IsPrefix(path + "/", f)
  {
    forall f | f in files && IsPrefix(path + "/", f)
      ensures path + "/" + Hub.FirstSegment(f[|path| + 1..]) == f
    {
      assert f == (path + "/") + f[|path| + 1..];
    }
  }

  /** Without sub-folders, a folder's listing is exactly the files under it, each with
      its current SHA. */
  lemma PlainFolderListing(files: map<string, Hub.File>, path: string)
    requires forall f :: f in files && IsPrefix(path + "/", f) ==> '/' !in f[|path| + 1..]
    ensures var es := Hub.ListDir(files, path);
            (forall i :: 0 <= i < |es| ==> es[i].path in files && es[i].sha == files[es[i].path].sha)
            && PathsOf(es) == set f | f in files && IsPrefix(path + "/", f)
  {
    PlainFolderChildren(files, path);
    ListingPaths(files, path);
  }

  /** A folder's contents are its listing. */
  lemma FolderContents(h: Hub.Hub, repo: string, path: string)
    requires repo in h.repos
    requires path !in h.repos[repo].files && ModuleReadmePath(path) in h.repos[repo].files
    ensures Hub.GetContents(h, repo, path) == Ok(Hub.Listing(Hub.ListDir(h.repos[repo].files, path)))
    ensures ModuleReadmePath(path) in PathsOf(Hub.ListDir(h.repos[repo].files, path))
  {
    ReadmeListed(h.repos[repo].files, path);
  }

  /** Once a listing holding the folder's `README.md` is read and every listed entry
      deleted, the corrected version stops there. */
  lemma FolderOnceIsEntries(env: Env, w: World, repo: string, path: string, es: seq<Hub.Entry>)
    requires GetContents(env, w, repo, path).r == Ok(Hub.Listing(es))
    requires ModuleReadmePath(path) in PathsOf(es)
    ensures var s2 := DeleteEntries(env, GetContents(env, w, repo, path).w, repo, es);
            s2.r.Ok? ==> DeleteFileOrFolderOnce(env, w, repo, path) == s2
  {
  }

  /** A folder of plain files (no sub-folders) holding a `README.md` is deleted in full
      by the corrected version when no call fails: exactly the files under it go. */
  lemma DeleteFolderOnceSucceeds(env: Env, w: World, repo: string, path: string)
    requires forall n :: n >= |w.log| ==> !env.fails(n)
    requires repo in w.hub.repos
    requires path !in w.hub.repos[repo].files && ModuleReadmePath(path) in w.hub.repos[repo].files
    requires forall f :: f in w.hub.repos[repo].files && IsPrefix(path + "/", f) ==> '/' !in f[|path| + 1..]
    ensures var r := DeleteFileOrFolderOnce(env, w, repo, path);
            r.r.Ok? && repo in r.w.hub.repos
            && forall f :: f in r.w.hub.repos[repo].files <==> f in w.hub.repos[repo].files && !IsPrefix(path + "/", f)
  {
    var files := w.hub.repos[repo].files;
    var es := Hub.ListDir(files, path);
    var s1 := GetContents(env, w, repo, path);
    FolderContents(w.hub, repo, path);
    FolderOnceIsEntries(env, w, repo, path, es);
    PlainFolderListing(files, path);
    DeleteEntriesSucceeds(env, s1.w, repo, es);
  }
}

=== FILE: test_lessons_page.dfy ===
/** The lesson page of the second variant: replacing a lesson's file (its title may not
    change), creating a lesson in the selected module, and deleting a lesson with a
    best-effort removal of its file and its tasks' files. */
module TestLessonsPage {
  import opened Wrappers
  import opened Text
  import opened Naming
  import opened Tables
  import opened Schema
  import opened Remote
  import opened Pages
  import TestPageSteps
  import GithubApi
  import LocalDb
  import Hub

  /** `update_lesson` on the selected lesson and course with the typed title and file
      path. The title must be the stored one and the file a new one. Past the checks
      the file is read, the course looked up, the repository opened and the lesson's
      file replaced; the cache update that follows writes back the values the row
      already has. */
  function UpdateLesson(env: Env, w: World, current: Option<int>, courseId: Option<int>, titleInput: string, fileInput: string): (r: Run)
    ensures !Truthy(current) ==> r == Run(w, Warned(NothingSelected))
    ensures Truthy(current) && Strip(titleInput) == "" ==> r == Run(w, Warned(BlankTitle))
    ensures (Truthy(current) && Strip(titleInput) != "" && current.value in w.cache.lessons.rows
             && w.cache.lessons.rows[current.value].title != Strip(titleInput)) ==> r == Run(w, Warned(TitleChanged))
    ensures Truthy(current) && Strip(titleInput) != "" && current.value !in w.cache.lessons.rows && Strip(fileInput) != "" ==>
              r == Run(w, Escaped(TypeError))
    ensures r.w.cache == w.cache && r.w.lms == w.lms && NoDeletes(w, r.w)
    ensures !r.out.Done? ==> r.w.hub == w.hub
    ensures r.out.Failed? ==> r.out.exc in {IoError, ValueError, GithubError, Plain}
    ensures r.out.Done? <==>
              Truthy(current) && current.value in w.cache.lessons.rows
              && var l := w.cache.lessons.rows[current.value];
                 var file := Strip(fileInput);
                 Strip(titleInput) != "" && Strip(titleInput) == l.title && file != "" && file != l.githubPath && env.readFile(file).Some?
                 && TestPageSteps.SelectedCourse(w.cache, courseId).Some?
                 && var repo := TestPageSteps.SelectedCourse(w.cache, courseId).value.githubPath;
                    NoFailures(env, |w.log|, 3) && repo in w.hub.repos && l.githubPath in w.hub.repos[repo].files
    ensures r.out.Done? ==>
              var l := w.cache.lessons.rows[current.value];
              var repo := TestPageSteps.SelectedCourse(w.cache, courseId).value.githubPath;
              r.w.hub.repos.Keys == w.hub.repos.Keys
              && r.w.hub.repos[repo].files == w.hub.repos[repo].files[l.githubPath := Hub.File(env.readFile(Strip(fileInput)).value, w.hub.nextSha)]
  {
    if !Truthy(current) then Run(w, Warned(NothingSelected))
    else
      var title := Strip(titleInput);
      var file := Strip(fileInput);
      var id := current.value;
      if title == "" then Run(w, Warned(BlankTitle))
      else if id in w.cache.lessons.rows && w.cache.lessons.rows[id].title != title then Run(w, Warned(TitleChanged))
      else if file == "" then Run(w, Warned(SameFile))
      else if id !in w.cache.lessons.rows then Run(w, Escaped(TypeError))
      else
        var l := w.cache.lessons.rows[id];
        if file == l.githubPath then Run(w, Warned(SameFile))
        else match ReadFile(env, file)
          case Err(e) => Run(w, Failed(e))
          case Ok(content) =>
            match TestPageSteps.SelectedCourse(w.cache, courseId)
            case None => Run(w, Failed(ValueError))
            case Some(course) =>
              var s := TestPageSteps.PushUpdate(env, w, course, l.githubPath, content);
              if s.r.Err? then Run(s.w, Failed(s.r.error))
              else
                LocalDb.UpdateLessonSameValues(w.cache, id);
                Run(s.w.(cache := LocalDb.UpdateLesson(w.cache, id, LocalDb.LeafPatch(None, Some(l.githubPath), None, Some(title), None))), Done)
  }

  /** The GitHub and cache part of `create_lesson`: open the repository, write the
      lesson with the adapter's `create_lesson` under `{module path}/{title}.md`, and
      store the row with that path as both `github_path` and `raw_url`. */
  function PublishLesson(env: Env, w: World, moduleId: int, modulePath: string, course: Course, title: string, content: string): (r: Run)
    ensures r.w.lms == w.lms && NoDeletes(w, r.w)
    ensures r.out.Done? || r.out.Failed?
    ensures r.out.Failed? ==> r.w.cache == w.cache && r.w.hub == w.hub && r.out.exc in {GithubError, RuntimeError}
    ensures r.out.Done? <==> NoFailures(env, |w.log|, 2) && course.githubPath in w.hub.repos
                             && Hub.Creatable(w.hub.repos[course.githubPath].files, MarkdownPath(modulePath, title))
    ensures r.out.Done? ==>
              var path := MarkdownPath(modulePath, title);
              r.w.cache == LocalDb.AddLesson(w.cache, moduleId, path, title, path, None).0
              && r.w.hub.repos.Keys == w.hub.repos.Keys
              && r.w.hub.repos[course.githubPath].files == w.hub.repos[course.githubPath].files[path := Hub.File(content, w.hub.nextSha)]
  {
    NoFailuresUpTo4(env, |w.log|);
    var s1 := TestPageSteps.OpenRepo(env, w, course.githubPath);
    ReadsDeleteNothing(w, s1.w);
    if s1.r.Err? then Run(s1.w, Failed(GithubError))
    else
      var s2 := GithubApi.CreateMarkdown(env, s1.w, s1.r.value, modulePath, title, content);
      NoDeletesTrans(w, s1.w, s2.w);
      if s2.r.Err? then Run(s2.w, Failed(s2.r.error))
      else
        var (c, _) := LocalDb.AddLesson(w.cache, moduleId, s2.r.value, title, s2.r.value, None);
        Run(s2.w.(cache := c), Done)
  }

  /** The `try` block of `create_lesson`: read the file, look up module and course,
      then publish. */
  function StoreLesson(env: Env, w: World, moduleId: int, courseId: Option<int>, title: string, file: string): (r: Run)
    ensures r.w.lms == w.lms && NoDeletes(w, r.w)
    ensures r.out.Done? || r.out.Failed?
    ensures r.out.Failed? ==> r.w.cache == w.cache && r.w.hub == w.hub && r.out.exc in {IoError, ValueError, GithubError, RuntimeError}
    ensures r.out.Done? <==>
              env.readFile(file).Some? && moduleId in w.cache.modules.rows && TestPageSteps.SelectedCourse(w.cache, courseId).Some?
              && var repo := TestPageSteps.SelectedCourse(w.cache, courseId).value.githubPath;
                 NoFailures(env, |w.log|, 2) && repo in w.hub.repos
                 && Hub.Creatable(w.hub.repos[repo].files, MarkdownPath(w.cache.modules.rows[moduleId].githubPath, title))
    ensures r.out.Done? ==>
              var path := MarkdownPath(w.cache.modules.rows[moduleId].githubPath, title);
              var repo := TestPageSteps.SelectedCourse(w.cache, courseId).value.githubPath;
              r.w.cache == LocalDb.AddLesson(w.cache, moduleId, path, title, path, None).0
              && r.w.hub.repos.Keys == w.hub.repos.Keys
              && r.w.hub.repos[repo].files == w.hub.repos[repo].files[path := Hub.File(env.readFile(file).value, w.hub.nextSha)]
  {
    match ReadFile(env, file)
    case Err(e) => Run(w, Failed(e))
    case Ok(content) =>
      match w.cache.modules.Get(moduleId)
      case None => Run(w, Failed(ValueError))
      case Some(m) =>
        match TestPageSteps.SelectedCourse(w.cache, courseId)
        case None => Run(w, Failed(ValueError))
        case Some(course) => PublishLesson(env, w, moduleId, m.githubPath, course, title, content)
  }

  /** `create_lesson` on the selected module and course with the typed title and file
      path. Blank fields and a title a lesson of the module already has (ignoring case)
      are refused; task titles are not looked at. Then the file is read, module and
      course are looked up, and the lesson is published. Only a finished action writes
      the cache, and nothing is created in the LMS. */
  function CreateLesson(env: Env, w: World, moduleId: Option<int>, courseId: Option<int>, titleInput: string, fileInput: string): (r: Run)
    ensures !Truthy(moduleId) ==> r == Run(w, Warned(NothingSelected))
    ensures Truthy(moduleId) && Strip(titleInput) == "" ==> r == Run(w, Warned(BlankTitle))
    ensures Truthy(moduleId) && Strip(titleInput) != "" && Strip(fileInput) == "" ==> r == Run(w, Warned(NoFile))
    ensures (Truthy(moduleId) && Strip(titleInput) != "" && Strip(fileInput) != ""
             && AnyTitleLike(LessonsOf(w.cache, moduleId.value), LessonTitle, Strip(titleInput))) ==> r == Run(w, Warned(DuplicateTitle))
    ensures r.w.lms == w.lms && NoDeletes(w, r.w)
    ensures !r.out.Done? ==> r.w.cache == w.cache && r.w.hub == w.hub
    ensures r.out.Failed? ==> r.out.exc in {IoError, ValueError, GithubError, RuntimeError}
    ensures r.out.Done? <==>
              Truthy(moduleId) && Strip(titleInput) != "" && Strip(fileInput) != ""
              && !AnyTitleLike(LessonsOf(w.cache, moduleId.value), LessonTitle, Strip(titleInput))
              && StoreLesson(env, w, moduleId.value, courseId, Strip(titleInput), Strip(fileInput)).out.Done?
    ensures r.out.Done? ==> r == StoreLesson(env, w, moduleId.value, courseId, Strip(titleInput), Strip(fileInput))
  {
    if !Truthy(moduleId) then Run(w, Warned(NothingSelected))
    else
      var title := Strip(titleInput);
      var file := Strip(fileInput);
      var mid := moduleId.value;
      if title == "" then Run(w, Warned(BlankTitle))
      else if file == "" then Run(w, Warned(NoFile))
      else if AnyTitleLike(LessonsOf(w.cache, mid), LessonTitle, title) then Run(w, Warned(DuplicateTitle))
      else StoreLesson(env, w, mid, courseId, title, file)
  }

  /** Once a lesson is created, asking for a lesson whose title differs from it only in
      case (or surrounding blanks) in the same module is refused as a duplicate. */
  lemma CreateLessonTwiceWarns(env: Env, w: World, moduleId: int, courseId: Option<int>, title1: string, file1: string,
                               title2: string, file2: string)
    requires w.cache.Valid() && moduleId != 0
    requires CreateLesson(env, w, Some(moduleId), courseId, title1, file1).out.Done?
    requires SameIgnoringCase(Strip(title1), Strip(title2)) && Strip(title2) != "" && Strip(file2) != ""
    ensures var v := CreateLesson(env, w, Some(moduleId), courseId, title1, file1).w;
            CreateLesson(env, v, Some(moduleId), courseId, title2, file2) == Run(v, Warned(DuplicateTitle))
  {
    var v := CreateLesson(env, w, Some(moduleId), courseId, title1, file1).w;
    assert v == StoreLesson(env, w, moduleId, courseId, Strip(title1), Strip(file1)).w;
    var path := MarkdownPath(w.cache.modules.rows[moduleId].githubPath, Strip(title1));
    var added := LocalDb.AddLesson(w.cache, moduleId, path, Strip(title1), path, None);
    assert v.cache == added.0;
    assert added.1 in v.cache.lessons.rows && v.cache.lessons.rows[added.1].moduleId == moduleId;
    LessonListingCheck(v.cache, moduleId, Strip(title2));
  }

  /** The GitHub part of `delete_lesson` once the repository is open: a swallowed delete
      of the lesson's file, then of each of its tasks' files. */
  function RemoveLessonFiles(env: Env, w: World, repo: string, path: string, ts: seq<Row<Task>>): (r: World)
    ensures r.cache == w.cache && r.lms == w.lms && Extends(w, r)
    ensures r.hub.repos.Keys == w.hub.repos.Keys
    ensures repo in w.hub.repos ==>
              TestPageSteps.OnlyRemoved(w.hub.repos[repo].files, r.hub.repos[repo].files, {path} + TestPageSteps.TaskPaths(ts))
  {
    var v := TestPageSteps.DeleteFetched(env, w, repo, path);
    var r := TestPageSteps.DeleteTaskFiles(env, v, repo, ts);
    ExtendsTrans(w, v, r);
    assert repo in w.hub.repos ==>
             TestPageSteps.OnlyRemoved(w.hub.repos[repo].files, r.hub.repos[repo].files, {path} + TestPageSteps.TaskPaths(ts)) by {
      if repo in w.hub.repos {
        assert TestPageSteps.OnlyRemoved(w.hub.repos[repo].files, v.hub.repos[repo].files, {path});
        TestPageSteps.OnlyRemovedTrans(w.hub.repos[repo].files, v.hub.repos[repo].files, r.hub.repos[repo].files,
                                       {path}, TestPageSteps.TaskPaths(ts));
      }
    }
    r
  }

  /** With no call failing, the lesson's file and every task file are gone, and
      nothing else. */
  lemma RemoveLessonFilesComplete(env: Env, w: World, repo: string, path: string, ts: seq<Row<Task>>)
    requires forall n :: n >= |w.log| ==> !env.fails(n)
    requires repo in w.hub.repos
    ensures RemoveLessonFiles(env, w, repo, path, ts).hub.repos[repo].files
            == w.hub.repos[repo].files - ({path} + TestPageSteps.TaskPaths(ts))
  {
    var v := TestPageSteps.DeleteFetched(env, w, repo, path);
    assert v.hub.repos[repo].files == w.hub.repos[repo].files - {path};
    TestPageSteps.DeleteTaskFilesComplete(env, v, repo, ts);
  }

  /** `delete_lesson` on the selected lesson and course, once confirmed. With the
      lesson, the course and the lesson's `github_path` all there, the repository is
      opened (only that call can stop the action), the lesson's file is deleted and
      then each task's file, each failure ignored. The lesson and its tasks are then
      deleted from the cache. */
  function DeleteLesson(env: Env, w: World, current: Option<int>, courseId: Option<int>): (r: Run)
    ensures !Truthy(current) ==> r == Run(w, Warned(NothingSelected))
    ensures Truthy(current) ==> r.out.Done? || r.out == Failed(GithubError)
    ensures r.w.lms == w.lms && Extends(w, r.w)
    ensures r.out.Failed? <==>
              Truthy(current) && current.value in w.cache.lessons.rows
              && TestPageSteps.SelectedCourse(w.cache, courseId).Some? && w.cache.lessons.rows[current.value].githubPath != ""
              && (env.fails(|w.log|) || TestPageSteps.SelectedCourse(w.cache, courseId).value.githubPath !in w.hub.repos)
    ensures r.out.Failed? ==> OnlyReads(w, r.w)
    ensures r.out.Done? ==> r.w.cache == LocalDb.DeleteLesson(w.cache, current.value)
                            && r.w.hub.repos.Keys == w.hub.repos.Keys
    ensures r.out.Done? && current.value in w.cache.lessons.rows && TestPageSteps.SelectedCourse(w.cache, courseId).Some? ==>
              var repo := TestPageSteps.SelectedCourse(w.cache, courseId).value.githubPath;
              var l := w.cache.lessons.rows[current.value];
              repo in w.hub.repos ==>
                TestPageSteps.OnlyRemoved(w.hub.repos[repo].files, r.w.hub.repos[repo].files,
                                          {l.githubPath} + TestPageSteps.TaskPaths(TasksOf(w.cache, current.value)))
  {
    if !Truthy(current) then Run(w, Warned(NothingSelected))
    else
      var id := current.value;
      match w.cache.lessons.Get(id)
      case None => Run(w.(cache := LocalDb.DeleteLesson(w.cache, id)), Done)
      case Some(l) =>
        match TestPageSteps.SelectedCourse(w.cache, courseId)
        case None => Run(w.(cache := LocalDb.DeleteLesson(w.cache, id)), Done)
        case Some(course) =>
          if l.githubPath == "" then Run(w.(cache := LocalDb.DeleteLesson(w.cache, id)), Done)
          else
            var s1 := TestPageSteps.OpenRepo(env, w, course.githubPath);
            if s1.r.Err? then Run(s1.w, Failed(GithubError))
            else
              var v := RemoveLessonFiles(env, s1.w, s1.r.value, l.githubPath, TasksOf(w.cache, id));
              ExtendsTrans(w, s1.w, v);
              Run(v.(cache := LocalDb.DeleteLesson(w.cache, id)), Done)
  }

  /** With no call failing, deleting a lesson of a course whose repository exists
      removes exactly the lesson's file and its tasks' files from GitHub, and the lesson
      and its tasks from the cache. */
  lemma DeleteLessonClearsFiles(env: Env, w: World, id: int, courseId: int)
    requires forall n :: n >= |w.log| ==> !env.fails(n)
    requires w.cache.Valid() && id != 0 && id in w.cache.lessons.rows && courseId in w.cache.courses.rows
    requires w.cache.lessons.rows[id].githubPath != "" && w.cache.courses.rows[courseId].githubPath in w.hub.repos
    ensures var r := DeleteLesson(env, w, Some(id), Some(courseId));
            var repo := w.cache.courses.rows[courseId].githubPath;
            r.out.Done? && repo in r.w.hub.repos
            && r.w.hub.repos[repo].files
               == w.hub.repos[repo].files - ({w.cache.lessons.rows[id].githubPath} + TestPageSteps.TaskPaths(TasksOf(w.cache, id)))
            && id !in r.w.cache.lessons.rows && TaskIdsOf(r.w.cache, {id}) == {}
  {
    var repo := w.cache.courses.rows[courseId].githubPath;
    var s1 := TestPageSteps.OpenRepo(env, w, repo);
    RemoveLessonFilesComplete(env, s1.w, repo, w.cache.lessons.rows[id].githubPath, TasksOf(w.cache, id));
  }
}

=== FILE: test_modules_page.dfy ===
/** The module page of the second variant. Creating a module cannot succeed: the page
    hands the adapter's three-parameter `create_module` four arguments. Deleting a module
    removes what it can of the module's folder, ignoring every failure after the
    repository is opened, and then deletes the module's subtree from the cache. */
module TestModulesPage {
  import opened Wrappers
  import opened Text
  import opened Naming
  import opened Schema
  import opened Remote
  import opened Pages
  import TestPageSteps
  import TestGithubApi
  import LocalDb
  import Hub

  /** `create_module` on the selected course and the typed title. A blank title, or one
      a module of the course already has (ignoring case), is refused; a missing course
      raises `ValueError`; otherwise the repository is opened and the adapter call with
      the wrong number of arguments raises `TypeError`. Nothing is ever created or
      stored. */
  function CreateModule(env: Env, w: World, current: Option<int>, titleInput: string): (r: Run)
    ensures !Truthy(current) ==> r == Run(w, Warned(NothingSelected))
    ensures Truthy(current) && Strip(titleInput) == "" ==> r == Run(w, Warned(BlankTitle))
    ensures Truthy(current) && Strip(titleInput) != "" && AnyTitleLike(ModulesOf(w.cache, current.value), ModuleTitle, Strip(titleInput)) ==>
              r == Run(w, Warned(DuplicateTitle))
    ensures OnlyReads(w, r.w)
    ensures r.out.Warned? || r.out.Failed?
    ensures r.out.Failed? ==> r.out.exc in {ValueError, GithubError, TypeError}
    ensures r.out == Failed(TypeError) <==>
              Truthy(current) && Strip(titleInput) != "" && !AnyTitleLike(ModulesOf(w.cache, current.value), ModuleTitle, Strip(titleInput))
              && current.value in w.cache.courses.rows
              && !env.fails(|w.log|) && w.cache.courses.rows[current.value].githubPath in w.hub.repos
  {
    if !Truthy(current) then Run(w, Warned(NothingSelected))
    else
      var title := Strip(titleInput);
      if title == "" then Run(w, Warned(BlankTitle))
      else if AnyTitleLike(ModulesOf(w.cache, current.value), ModuleTitle, title) then Run(w, Warned(DuplicateTitle))
      else match w.cache.courses.Get(current.value)
        case None => Run(w, Failed(ValueError))
        case Some(course) =>
          var s := TestPageSteps.OpenRepo(env, w, course.githubPath);
          if s.r.Err? then Run(s.w, Failed(GithubError))
          else Run(s.w, Failed(TypeError))
  }

  /** The duplicate check refuses exactly the titles a module of the course already
      has, ignoring case. */
  lemma CreateModuleRefusesTaken(env: Env, w: World, courseId: int, titleInput: string)
    requires w.cache.Valid() && courseId != 0 && Strip(titleInput) != ""
    ensures CreateModule(env, w, Some(courseId), titleInput).out == Warned(DuplicateTitle) <==>
              ModuleTitleTaken(w.cache, courseId, Strip(titleInput))
  {
    ModuleListingCheck(w.cache, courseId, Strip(titleInput));
  }

  /** The inner, swallowed `try` of `delete_module`: read the module's path; delete a
      file with its SHA, or delete each listed entry with that entry's SHA, stopping at
      the first failure. Only the course's repository can change, and no repository
      appears or disappears. */
  function RemoveModuleFiles(env: Env, w: World, repo: string, path: string): (r: World)
    ensures r.cache == w.cache && r.lms == w.lms && Extends(w, r)
    ensures r.hub.login == w.hub.login && r.hub.repos.Keys == w.hub.repos.Keys
    ensures forall n :: n in w.hub.repos && n != repo ==> r.hub.repos[n] == w.hub.repos[n]
  {
    var s1 := GetContents(env, w, repo, path);
    if s1.r.Err? then s1.w
    else match s1.r.value
      case FileAt(_, sha) => Remote.DeleteFile(env, s1.w, repo, path, sha).w
      case Listing(es) =>
        var s2 := TestGithubApi.DeleteEntries(env, s1.w, repo, es);
        ExtendsTrans(w, s1.w, s2.w);
        s2.w
  }

  /** `delete_module` on the selected module and course, once confirmed. When the
      module, the course and the module's `github_path` are all there, the repository is
      opened outside the inner `try`, so only that call can stop the action; the folder
      removal that follows never does. The module, its lessons and their tasks are then
      deleted from the cache. */
  function DeleteModule(env: Env, w: World, current: Option<int>, courseId: Option<int>): (r: Run)
    ensures !Truthy(current) ==> r == Run(w, Warned(NothingSelected))
    ensures Truthy(current) ==> r.out.Done? || r.out == Failed(GithubError)
    ensures r.w.lms == w.lms && Extends(w, r.w)
    ensures r.out.Failed? <==>
              Truthy(current) && current.value in w.cache.modules.rows
              && TestPageSteps.SelectedCourse(w.cache, courseId).Some? && w.cache.modules.rows[current.value].githubPath != ""
              && (env.fails(|w.log|) || TestPageSteps.SelectedCourse(w.cache, courseId).value.githubPath !in w.hub.repos)
    ensures r.out.Failed? ==> OnlyReads(w, r.w)
    ensures r.out.Done? ==> r.w.cache == LocalDb.DeleteModule(w.cache, current.value)
                            && r.w.hub.repos.Keys == w.hub.repos.Keys
    ensures r.out.Done? && (current.value !in w.cache.modules.rows || TestPageSteps.SelectedCourse(w.cache, courseId).None?
                            || w.cache.modules.rows[current.value].githubPath == "") ==>
              r.w == w.(cache := LocalDb.DeleteModule(w.cache, current.value))
  {
    if !Truthy(current) then Run(w, Warned(NothingSelected))
    else
      var id := current.value;
      match w.cache.modules.Get(id)
      case None => Run(w.(cache := LocalDb.DeleteModule(w.cache, id)), Done)
      case Some(m) =>
        match TestPageSteps.SelectedCourse(w.cache, courseId)
        case None => Run(w.(cache := LocalDb.DeleteModule(w.cache, id)), Done)
        case Some(course) =>
          if m.githubPath == "" then Run(w.(cache := LocalDb.DeleteModule(w.cache, id)), Done)
          else
            var s1 := TestPageSteps.OpenRepo(env, w, course.githubPath);
            if s1.r.Err? then Run(s1.w, Failed(GithubError))
            else
              var v := RemoveModuleFiles(env, s1.w, s1.r.value, m.githubPath);
              ExtendsTrans(w, s1.w, v);
              Run(v.(cache := LocalDb.DeleteModule(w.cache, id)), Done)
  }

  /** With no call failing, the folder removal takes away exactly the files under a
      folder that holds plain files and its `README.md`. */
  lemma RemoveFolderComplete(env: Env, w: World, repo: string, path: string)
    requires forall n :: n >= |w.log| ==> !env.fails(n)
    requires repo in w.hub.repos
    requires path !in w.hub.repos[repo].files && ModuleReadmePath(path) in w.hub.repos[repo].files
    requires forall f :: f in w.hub.repos[repo].files && IsPrefix(path + "/", f) ==> '/' !in f[|path| + 1..]
    ensures var r := RemoveModuleFiles(env, w, repo, path);
            repo in r.hub.repos
            && forall f :: f in r.hub.repos[repo].files <==> f in w.hub.repos[repo].files && !IsPrefix(path + "/", f)
  {
    var files := w.hub.repos[repo].files;
    var es := Hub.ListDir(files, path);
    TestGithubApi.FolderContents(w.hub, repo, path);
    TestGithubApi.PlainFolderListing(files, path);
    var s1 := GetContents(env, w, repo, path);
    assert s1.r == Ok(Hub.Listing(es));
    TestGithubApi.DeleteEntriesSucceeds(env, s1.w, repo, es);
    var s2 := TestGithubApi.DeleteEntries(env, s1.w, repo, es);
    assert RemoveModuleFiles(env, w, repo, path) == s2.w;
    assert s2.w.hub.repos[repo].files == files - TestGithubApi.PathsOf(es);
  }

  /** With no call failing, deleting a module whose folder holds plain files and its
      `README.md` removes exactly the files under the folder from the course's
      repository, and the module's subtree from the cache. */
  lemma DeleteModuleFolder(env: Env, w: World, id: int, courseId: int)
    requires forall n :: n >= |w.log| ==> !env.fails(n)
    requires id != 0 && id in w.cache.modules.rows && courseId in w.cache.courses.rows
    requires var path := w.cache.modules.rows[id].githubPath;
             var repo := w.cache.courses.rows[courseId].githubPath;
             path != "" && repo in w.hub.repos
             && path !in w.hub.repos[repo].files && ModuleReadmePath(path) in w.hub.repos[repo].files
             && forall f :: f in w.hub.repos[repo].files && IsPrefix(path + "/", f) ==> '/' !in f[|path| + 1..]
    ensures var r := DeleteModule(env, w, Some(id), Some(courseId));
            var path := w.cache.modules.rows[id].githubPath;
            var repo := w.cache.courses.rows[courseId].githubPath;
            r.out.Done? && r.w.cache == LocalDb.DeleteModule(w.cache, id) && repo in r.w.hub.repos
            && forall f :: f in r.w.hub.repos[repo].files <==> f in w.hub.repos[repo].files && !IsPrefix(path + "/", f)
  {
    var repo := w.cache.courses.rows[courseId].githubPath;
    var s1 := TestPageSteps.OpenRepo(env, w, repo);
    RemoveFolderComplete(env, s1.w, repo, w.cache.modules.rows[id].githubPath);
  }
}

=== FILE: test_page_steps.dfy ===
/** The steps the second variant's pages share. They find the course through the id the
    page was opened with, open its repository by full name `{login}/{github_path}`, and
    touch single files with a SHA read just before. Both the update and the delete step
    take `contents[0]` when `get_contents` returns a folder listing. */
module TestPageSteps {
  import opened Wrappers
  import opened Tables
  import opened Schema
  import opened Remote
  import TestGithubApi
  import Hub

  /** `db.get_course(current_course_id)`: no course when nothing is selected or the row
      is gone. */
  function SelectedCourse(c: Cache, courseId: Option<int>): (r: Option<Course>)
    ensures r.Some? <==> courseId.Some? && courseId.value in c.courses.rows
    ensures r.Some? ==> r.value == c.courses.rows[courseId.value]
  {
    if courseId.Some? then c.courses.Get(courseId.value) else None
  }

  /** `github.get_repo(f"{login}/{github_path}")`: opens the user's repository named by
      the stored path. */
  function OpenRepo(env: Env, w: World, githubPath: string): (r: Step<string>)
    ensures r.w == w.(log := w.log + [GhGetRepoByFullName(w.hub.login + "/" + githubPath)])
    ensures OnlyReads(w, r.w)
    ensures r.r.Ok? <==> !env.fails(|w.log|) && githubPath in w.hub.repos
    ensures r.r.Ok? ==> r.r.value == githubPath
    ensures r.r.Err? ==> r.r.error == GithubError
  {
    var s := GetRepoByFullName(env, w, w.hub.login + "/" + githubPath);
    assert githubPath in w.hub.repos ==>
             exists n :: n in w.hub.repos && w.hub.login + "/" + githubPath == w.hub.login + "/" + n;
    if s.r.Ok? then
      TestGithubApi.JoinCancel(w.hub.login + "/", s.r.value, githubPath);
      s
    else s
  }

  /** `contents.sha` after `contents = contents[0]` on a listing. */
  function FetchedSha(c: Hub.Contents): (r: Result<int, Exc>)
  {
    match c
    case FileAt(_, sha) => Ok(sha)
    case Listing(es) => if es == [] then Err(IndexError) else Ok(es[0].sha)
  }

  /** The inner `try` of `update_lesson` and `update_task`: read the path, then
      `repo.update_file(path, message, content, sha)` with the SHA read; any failure is
      re-raised as a plain `Exception`. A folder path is never updated: its first entry's
      SHA is passed for a path that is not a file. */
  function ReplaceFetched(env: Env, w: World, repo: string, path: string, content: string): (r: Step<()>)
    ensures r.w.cache == w.cache && r.w.lms == w.lms && NoDeletes(w, r.w)
    ensures r.r.Ok? <==> !env.fails(|w.log|) && !env.fails(|w.log| + 1)
                         && repo in w.hub.repos && path in w.hub.repos[repo].files
    ensures r.r.Ok? ==> r.w.hub == w.hub.(repos := w.hub.repos[repo := Hub.Repo(w.hub.repos[repo].files[path := Hub.File(content, w.hub.nextSha)])],
                                          nextSha := w.hub.nextSha + 1)
    ensures r.r.Err? ==> r.w.hub == w.hub && r.r.error == Plain
  {
    var s1 := GetContents(env, w, repo, path);
    ReadsDeleteNothing(w, s1.w);
    if s1.r.Err? then Step(s1.w, Err(Plain))
    else match FetchedSha(s1.r.value)
      case Err(_) => Step(s1.w, Err(Plain))
      case Ok(sha) =>
        var s2 := UpdateFile(env, s1.w, repo, path, content, sha);
        NoDeletesTrans(w, s1.w, s2.w);
        if s2.r.Err? then Step(s2.w, Err(Plain)) else s2
  }

  /** The GitHub part of `update_lesson` and `update_task`: open the course's
      repository (outside the inner `try`, so its failure stays a `GithubException`),
      then replace the file at `path` with `content` using the SHA just read. */
  function PushUpdate(env: Env, w: World, course: Course, path: string, content: string): (r: Step<()>)
    ensures r.w.cache == w.cache && r.w.lms == w.lms && NoDeletes(w, r.w)
    ensures r.r.Ok? <==> NoFailures(env, |w.log|, 3) && course.githubPath in w.hub.repos
                         && path in w.hub.repos[course.githubPath].files
    ensures r.r.Ok? ==> r.w.hub.repos.Keys == w.hub.repos.Keys
                        && r.w.hub.repos[course.githubPath].files == w.hub.repos[course.githubPath].files[path := Hub.File(content, w.hub.nextSha)]
    ensures r.r.Err? ==> r.w.hub == w.hub && r.r.error in {GithubError, Plain}
  {
    NoFailuresUpTo4(env, |w.log|);
    var s1 := OpenRepo(env, w, course.githubPath);
    ReadsDeleteNothing(w, s1.w);
    if s1.r.Err? then Step(s1.w, Err(GithubError))
    else
      var s2 := ReplaceFetched(env, s1.w, s1.r.value, path, content);
      NoDeletesTrans(w, s1.w, s2.w);
      s2
  }

  /** The hub with one file of one repository removed. */
  function WithoutFile(h: Hub.Hub, repo: string, path: string): Hub.Hub
    requires repo in h.repos
  {
    h.(repos := h.repos[repo := Hub.Repo(h.repos[repo].files - {path})])
  }

  /** A swallowed delete of one path: read it, then `repo.delete_file(path, message,
      sha)` with the SHA read. Only the world is kept; whatever fails is printed and
      dropped. */
  function DeleteFetched(env: Env, w: World, repo: string, path: string): (r: World)
    ensures r.cache == w.cache && r.lms == w.lms && Extends(w, r)
    ensures r.hub == (if !env.fails(|w.log|) && !env.fails(|w.log| + 1) && repo in w.hub.repos && path in w.hub.repos[repo].files
                      then WithoutFile(w.hub, repo, path) else w.hub)
  {
    var s1 := GetContents(env, w, repo, path);
    if s1.r.Err? then s1.w
    else
      var sha := FetchedSha(s1.r.value);
      if sha.Err? then s1.w
      else
        var s2 := Remote.DeleteFile(env, s1.w, repo, path, sha.value);
        FetchedShaDeletes(w.hub, repo, path, s1.r.value);
        TwoCallsExtend(w, s1.w, s2.w);
        s2.w
  }

  /** Two calls in a row extend the log. */
  lemma TwoCallsExtend(w: World, v: World, u: World)
    requires |v.log| == |w.log| + 1 && v.log[..|w.log|] == w.log
    requires |u.log| == |v.log| + 1 && u.log[..|v.log|] == v.log
    ensures Extends(w, v) && Extends(w, u)
  {
    assert u.log[..|w.log|] == u.log[..|v.log|][..|w.log|];
  }

  /** The SHA fetched for a path deletes it exactly when the path is a file: a folder's
      first entry has another path. */
  lemma FetchedShaDeletes(h: Hub.Hub, repo: string, path: string, c: Hub.Contents)
    requires Hub.GetContents(h, repo, path) == Ok(c) && FetchedSha(c).Ok?
    ensures Hub.DeleteFile(h, repo, path, FetchedSha(c).value).Ok? <==> path in h.repos[repo].files
    ensures path in h.repos[repo].files ==> Hub.DeleteFile(h, repo, path, FetchedSha(c).value).value == WithoutFile(h, repo, path)
  {
  }

  /** With no call failing, a swallowed delete removes exactly that path, and calls
      made later still do not fail. */
  lemma FetchedGone(env: Env, w: World, repo: string, path: string)
    requires forall n :: n >= |w.log| ==> !env.fails(n)
    requires repo in w.hub.repos
    ensures var v := DeleteFetched(env, w, repo, path);
            repo in v.hub.repos && v.hub.repos[repo].files == w.hub.repos[repo].files - {path}
            && forall n :: n >= |v.log| ==> !env.fails(n)
  {
    var v := DeleteFetched(env, w, repo, path);
    assert !env.fails(|w.log|) && !env.fails(|w.log| + 1);
    assert |v.log| >= |w.log|;
  }

  /** Removing `g1` and then `g2` removes `g1 + g2`. */
  lemma RemoveInTurn(a: map<string, Hub.File>, b: map<string, Hub.File>, c: map<string, Hub.File>,
                     g1: set<string>, g2: set<string>)
    requires b == a - g1 && c == b - g2
    ensures c == a - (g1 + g2)
  {
  }

  /** `after` is `before` with some of the paths in `gone` removed and nothing else
      changed. */
  predicate OnlyRemoved(before: map<string, Hub.File>, after: map<string, Hub.File>, gone: set<string>)
  {
    (forall f :: f in after ==> f in before && after[f] == before[f])
    && (forall f :: f in before && f !in gone ==> f in after)
  }

  /** Removing some of `g1` and then some of `g2` removes some of `g1 + g2`. */
  lemma OnlyRemovedTrans(a: map<string, Hub.File>, b: map<string, Hub.File>, c: map<string, Hub.File>,
                         g1: set<string>, g2: set<string>)
    requires OnlyRemoved(a, b, g1) && OnlyRemoved(b, c, g2)
    ensures OnlyRemoved(a, c, g1 + g2)
  {
  }

  /** The non-empty `github_path`s of some tasks. */
  function TaskPaths(ts: seq<Row<Task>>): set<string>
  {
    set t | t in ts && t.val.githubPath != "" :: t.val.githubPath
  }

  /** The first task's path, if any, and the paths of the rest. */
  lemma TaskPathsSplit(ts: seq<Row<Task>>)
    requires ts != []
    ensures TaskPaths(ts) == (if ts[0].val.githubPath != "" then {ts[0].val.githubPath} else {}) + TaskPaths(ts[1..])
  {
    assert forall t :: t in ts <==> t == ts[0] || t in ts[1..];
  }

  /** The task loop of `delete_lesson`: a swallowed delete of every task that has a
      `github_path`, in listing order. Only those paths can disappear, and only from the
      course's repository. */
  function DeleteTaskFiles(env: Env, w: World, repo: string, ts: seq<Row<Task>>): (r: World)
    ensures r.cache == w.cache && r.lms == w.lms && Extends(w, r)
    ensures r.hub.login == w.hub.login && r.hub.repos.Keys == w.hub.repos.Keys
    ensures forall n :: n in w.hub.repos && n != repo ==> r.hub.repos[n] == w.hub.repos[n]
    ensures repo in w.hub.repos ==> OnlyRemoved(w.hub.repos[repo].files, r.hub.repos[repo].files, TaskPaths(ts))
    decreases |ts|
  {
    if ts == [] then w
    else
      var v := if ts[0].val.githubPath != "" then DeleteFetched(env, w, repo, ts[0].val.githubPath) else w;
      var r := DeleteTaskFiles(env, v, repo, ts[1..]);
      TaskPathsSplit(ts);
      ExtendsTrans(w, v, r);
      r
  }

  /** With no call failing from here on, the task loop removes every task file of the
      course's repository: exactly those paths go. */
  lemma {:induction false} DeleteTaskFilesComplete(env: Env, w: World, repo: string, ts: seq<Row<Task>>)
    requires forall n :: n >= |w.log| ==> !env.fails(n)
    requires repo in w.hub.repos
    ensures DeleteTaskFiles(env, w, repo, ts).hub.repos[repo].files == w.hub.repos[repo].files - TaskPaths(ts)
    decreases |ts|
  {
    if ts == [] {
      assert TaskPaths(ts) == {};
    } else {
      var p := ts[0].val.githubPath;
      var v := if p != "" then DeleteFetched(env, w, repo, p) else w;
      if p != "" {
        FetchedGone(env, w, repo, p);
      }
      var first := if p != "" then {p} else {};
      assert v.hub.repos[repo].files == w.hub.repos[repo].files - first;
      assert DeleteTaskFiles(env, w, repo, ts) == DeleteTaskFiles(env, v, repo, ts[1..]);
      DeleteTaskFilesComplete(env, v, repo, ts[1..]);
      TaskPathsSplit(ts);
      RemoveInTurn(w.hub.repos[repo].files, v.hub.repos[repo].files, DeleteTaskFiles(env, v, repo, ts[1..]).hub.repos[repo].files,
                   first, TaskPaths(ts[1..]));
    }
  }
}

=== FILE: test_tasks_page.dfy ===
/** The task page of the second variant: resolving the module a task page works in,
    creating a task in the selected lesson, replacing a task's file (its title may not
    change), and deleting a task with a best-effort removal of its file. */
module TestTasksPage {
  import opened Wrappers
  import opened Text
  import opened Naming
  import opened Schema
  import opened Remote
  import opened Pages
  import TestPageSteps
  import LocalDb
  import Hub

  /** The module id `load_task` keeps: the one passed in, unless none was passed and a
      lesson was, in which case the lesson's module as `get_module_by_lesson` finds it. */
  function LoadTask(c: Cache, lessonId: Option<int>, moduleId: Option<int>): (r: Option<int>)
    ensures moduleId.Some? || lessonId.None? ==> r == moduleId
    ensures moduleId.None? && lessonId.Some? ==>
              (r.Some? <==> lessonId.value in c.lessons.rows && c.lessons.rows[lessonId.value].moduleId in c.modules.rows)
    ensures moduleId.None? && lessonId.Some? && r.Some? ==> r.value == c.lessons.rows[lessonId.value].moduleId
  {
    if moduleId.None? && lessonId.Some? then
      if lessonId.value !in c.lessons.rows then None
      else match LocalDb.ModuleByLesson(c, lessonId.value)
        case None => None
        case Some(d) => Some(d.id)
    else moduleId
  }

  /** The GitHub and cache part of `create_task`: open the repository, look up the
      module the page resolved, write `{module path}/{title}.md` with a raw
      `repo.create_file`, and store the row with the `download_url` GitHub reports for
      the new file. */
  function PublishTask(env: Env, w: World, lessonId: int, moduleId: Option<int>, course: Course, title: string, content: string): (r: Run)
    ensures r.w.lms == w.lms && NoDeletes(w, r.w)
    ensures r.out.Done? || r.out.Failed?
    ensures r.out.Failed? ==> r.w.cache == w.cache && r.w.hub == w.hub && r.out.exc in {GithubError, ValueError}
    ensures r.out.Done? <==>
              NoFailures(env, |w.log|, 2) && course.githubPath in w.hub.repos
              && moduleId.Some? && moduleId.value in w.cache.modules.rows
              && Hub.Creatable(w.hub.repos[course.githubPath].files, MarkdownPath(w.cache.modules.rows[moduleId.value].githubPath, title))
    ensures r.out.Done? ==>
              var path := MarkdownPath(w.cache.modules.rows[moduleId.value].githubPath, title);
              r.w.cache == LocalDb.AddTask(w.cache, lessonId, path, title, env.downloadUrl(w.hub.login, course.githubPath, path), None).0
              && r.w.hub.repos.Keys == w.hub.repos.Keys
              && r.w.hub.repos[course.githubPath].files == w.hub.repos[course.githubPath].files[path := Hub.File(content, w.hub.nextSha)]
  {
    NoFailuresUpTo4(env, |w.log|);
    var s1 := TestPageSteps.OpenRepo(env, w, course.githubPath);
    ReadsDeleteNothing(w, s1.w);
    if s1.r.Err? then Run(s1.w, Failed(GithubError))
    else if moduleId.None? || moduleId.value !in w.cache.modules.rows then Run(s1.w, Failed(ValueError))
    else
      var path := MarkdownPath(w.cache.modules.rows[moduleId.value].githubPath, title);
      var s2 := CreateFile(env, s1.w, s1.r.value, path, content);
      NoDeletesTrans(w, s1.w, s2.w);
      if s2.r.Err? then Run(s2.w, Failed(GithubError))
      else
        var (c, _) := LocalDb.AddTask(w.cache, lessonId, path, title, env.downloadUrl(w.hub.login, course.githubPath, path), None);
        Run(s2.w.(cache := c), Done)
  }

  /** The `try` block of `create_task`: read the file, look up lesson and course, then
      publish. */
  function StoreTask(env: Env, w: World, lessonId: int, moduleId: Option<int>, courseId: Option<int>, title: string, file: string): (r: Run)
    ensures r.w.lms == w.lms && NoDeletes(w, r.w)
    ensures r.out.Done? || r.out.Failed?
    ensures r.out.Failed? ==> r.w.cache == w.cache && r.w.hub == w.hub && r.out.exc in {IoError, ValueError, GithubError}
    ensures r.out.Done? <==>
              env.readFile(file).Some? && lessonId in w.cache.lessons.rows && TestPageSteps.SelectedCourse(w.cache, courseId).Some?
              && PublishTask(env, w, lessonId, moduleId, TestPageSteps.SelectedCourse(w.cache, courseId).value, title, env.readFile(file).value).out.Done?
    ensures r.out.Done? ==>
              r == PublishTask(env, w, lessonId, moduleId, TestPageSteps.SelectedCourse(w.cache, courseId).value, title, env.readFile(file).value)
  {
    match ReadFile(env, file)
    case Err(e) => Run(w, Failed(e))
    case Ok(content) =>
      if lessonId !in w.cache.lessons.rows then Run(w, Failed(ValueError))
      else match TestPageSteps.SelectedCourse(w.cache, courseId)
        case None => Run(w, Failed(ValueError))
        case Some(course) => PublishTask(env, w, lessonId, moduleId, course, title, content)
  }

  /** `create_task` in the selected lesson with the typed title and file path. Blank
      fields and a title a task of the same lesson already has (ignoring case) are
      refused; then the file is read, lesson, course and module are looked up, and the
      task is published. Only a finished action writes the cache. */
  function CreateTask(env: Env, w: World, lessonId: Option<int>, moduleId: Option<int>, courseId: Option<int>,
                      titleInput: string, fileInput: string): (r: Run)
    ensures !Truthy(lessonId) ==> r == Run(w, Warned(NothingSelected))
    ensures Truthy(lessonId) && Strip(titleInput) == "" ==> r == Run(w, Warned(BlankTitle))
    ensures Truthy(lessonId) && Strip(titleInput) != "" && Strip(fileInput) == "" ==> r == Run(w, Warned(NoFile))
    ensures (Truthy(lessonId) && Strip(titleInput) != "" && Strip(fileInput) != ""
             && AnyTitleLike(TasksOf(w.cache, lessonId.value), TaskTitle, Strip(titleInput))) ==> r == Run(w, Warned(DuplicateTitle))
    ensures r.w.lms == w.lms && NoDeletes(w, r.w)
    ensures !r.out.Done? ==> r.w.cache == w.cache && r.w.hub == w.hub
    ensures r.out.Failed? ==> r.out.exc in {IoError, ValueError, GithubError}
    ensures r.out.Done? <==>
              Truthy(lessonId) && Strip(titleInput) != "" && Strip(fileInput) != ""
              && !AnyTitleLike(TasksOf(w.cache, lessonId.value), TaskTitle, Strip(titleInput))
              && StoreTask(env, w, lessonId.value, moduleId, courseId, Strip(titleInput), Strip(fileInput)).out.Done?
    ensures r.out.Done? ==> r == StoreTask(env, w, lessonId.value, moduleId, courseId, Strip(titleInput), Strip(fileInput))
  {
    if !Truthy(lessonId) then Run(w, Warned(NothingSelected))
    else
      var title := Strip(titleInput);
      var file := Strip(fileInput);
      if title == "" then Run(w, Warned(BlankTitle))
      else if file == "" then Run(w, Warned(NoFile))
      else if AnyTitleLike(TasksOf(w.cache, lessonId.value), TaskTitle, title) then Run(w, Warned(DuplicateTitle))
      else StoreTask(env, w, lessonId.value, moduleId, courseId, title, file)
  }

  /** Once a task is created, asking for a task whose title differs from it only in case
      (or surrounding blanks) in the same lesson is refused as a duplicate. */
  lemma CreateTaskTwiceWarns(env: Env, w: World, lessonId: int, moduleId: Option<int>, courseId: Option<int>,
                             title1: string, file1: string, title2: string, file2: string)
    requires w.cache.Valid() && lessonId != 0
    requires CreateTask(env, w, Some(lessonId), moduleId, courseId, title1, file1).out.Done?
    requires SameIgnoringCase(Strip(title1), Strip(title2)) && Strip(title2) != "" && Strip(file2) != ""
    ensures var v := CreateTask(env, w, Some(lessonId), moduleId, courseId, title1, file1).w;
            CreateTask(env, v, Some(lessonId), moduleId, courseId, title2, file2) == Run(v, Warned(DuplicateTitle))
  {
    var v := CreateTask(env, w, Some(lessonId), moduleId, courseId, title1, file1).w;
    var course := TestPageSteps.SelectedCourse(w.cache, courseId).value;
    var content := env.readFile(Strip(file1)).value;
    assert v == PublishTask(env, w, lessonId, moduleId, course, Strip(title1), content).w;
    var path := MarkdownPath(w.cache.modules.rows[moduleId.value].githubPath, Strip(title1));
    var added := LocalDb.AddTask(w.cache, lessonId, path, Strip(title1), env.downloadUrl(w.hub.login, course.githubPath, path), None);
    assert v.cache == added.0;
    assert added.1 in v.cache.tasks.rows && v.cache.tasks.rows[added.1].lessonId == lessonId;
    TaskListingCheck(v.cache, lessonId, Strip(title2));
  }

  /** A page opened on a lesson without a module id writes the new task into the
      folder of the lesson's own module, and the stored row points at that file. */
  lemma CreateTaskInLessonModule(env: Env, w: World, lessonId: int, courseId: Option<int>, titleInput: string, fileInput: string)
    requires lessonId != 0
    requires CreateTask(env, w, Some(lessonId), LoadTask(w.cache, Some(lessonId), None), courseId, titleInput, fileInput).out.Done?
    ensures var r := CreateTask(env, w, Some(lessonId), LoadTask(w.cache, Some(lessonId), None), courseId, titleInput, fileInput);
            var m := w.cache.modules.rows[w.cache.lessons.rows[lessonId].moduleId];
            var path := MarkdownPath(m.githubPath, Strip(titleInput));
            var repo := TestPageSteps.SelectedCourse(w.cache, courseId).value.githubPath;
            repo in r.w.hub.repos && path in r.w.hub.repos[repo].files
            && exists id :: id in r.w.cache.tasks.rows
                            && r.w.cache.tasks.rows[id] == Task(lessonId, path, None, Strip(titleInput), env.downloadUrl(w.hub.login, repo, path))
  {
    var mid := LoadTask(w.cache, Some(lessonId), None);
    assert mid == Some(w.cache.lessons.rows[lessonId].moduleId);
    var course := TestPageSteps.SelectedCourse(w.cache, courseId).value;
    var content := env.readFile(Strip(fileInput)).value;
    var p := PublishTask(env, w, lessonId, mid, course, Strip(titleInput), content);
    assert CreateTask(env, w, Some(lessonId), mid, courseId, titleInput, fileInput) == p;
    var path := MarkdownPath(w.cache.modules.rows[mid.value].githubPath, Strip(titleInput));
    var added := LocalDb.AddTask(w.cache, lessonId, path, Strip(titleInput), env.downloadUrl(w.hub.login, course.githubPath, path), None);
    assert p.w.cache == added.0;
    assert added.1 in p.w.cache.tasks.rows;
  }

  /** `update_task` on the selected task and course with the typed title and file path:
      the same checks and steps as `update_lesson`, on the task's row and file. The
      cache update that follows writes back the values the row already has. */
  function UpdateTask(env: Env, w: World, current: Option<int>, courseId: Option<int>, titleInput: string, fileInput: string): (r: Run)
    ensures !Truthy(current) ==> r == Run(w, Warned(NothingSelected))
    ensures Truthy(current) && Strip(titleInput) == "" ==> r == Run(w, Warned(BlankTitle))
    ensures (Truthy(current) && Strip(titleInput) != "" && current.value in w.cache.tasks.rows
             && w.cache.tasks.rows[current.value].title != Strip(titleInput)) ==> r == Run(w, Warned(TitleChanged))
    ensures Truthy(current) && Strip(titleInput) != "" && current.value !in w.cache.tasks.rows && Strip(fileInput) != "" ==>
              r == Run(w, Escaped(TypeError))
    ensures r.w.cache == w.cache && r.w.lms == w.lms && NoDeletes(w, r.w)
    ensures !r.out.Done? ==> r.w.hub == w.hub
    ensures r.out.Failed? ==> r.out.exc in {IoError, ValueError, GithubError, Plain}
    ensures r.out.Done? <==>
              Truthy(current) && current.value in w.cache.tasks.rows
              && var t := w.cache.tasks.rows[current.value];
                 var file := Strip(fileInput);
                 Strip(titleInput) != "" && Strip(titleInput) == t.title && file != "" && file != t.githubPath && env.readFile(file).Some?
                 && TestPageSteps.SelectedCourse(w.cache, courseId).Some?
                 && var repo := TestPageSteps.SelectedCourse(w.cache, courseId).value.githubPath;
                    NoFailures(env, |w.log|, 3) && repo in w.hub.repos && t.githubPath in w.hub.repos[repo].files
    ensures r.out.Done? ==>
              var t := w.cache.tasks.rows[current.value];
              var repo := TestPageSteps.SelectedCourse(w.cache, courseId).value.githubPath;
              r.w.hub.repos.Keys == w.hub.repos.Keys
              && r.w.hub.repos[repo].files == w.hub.repos[repo].files[t.githubPath := Hub.File(env.readFile(Strip(fileInput)).value, w.hub.nextSha)]
  {
    if !Truthy(current) then Run(w, Warned(NothingSelected))
    else
      var title := Strip(titleInput);
      var file := Strip(fileInput);
      var id := current.value;
      if title == "" then Run(w, Warned(BlankTitle))
      else if id in w.cache.tasks.rows && w.cache.tasks.rows[id].title != title then Run(w, Warned(TitleChanged))
      else if file == "" then Run(w, Warned(SameFile))
      else if id !in w.cache.tasks.rows then Run(w, Escaped(TypeError))
      else
        var t := w.cache.tasks.rows[id];
        if file == t.githubPath then Run(w, Warned(SameFile))
        else match ReadFile(env, file)
          case Err(e) => Run(w, Failed(e))
          case Ok(content) =>
            match TestPageSteps.SelectedCourse(w.cache, courseId)
            case None => Run(w, Failed(ValueError))
            case Some(course) =>
              var s := TestPageSteps.PushUpdate(env, w, course, t.githubPath, content);
              if s.r.Err? then Run(s.w, Failed(s.r.error))
              else
                LocalDb.UpdateTaskSameValues(w.cache, id);
                Run(s.w.(cache := LocalDb.UpdateTask(w.cache, id, LocalDb.LeafPatch(None, Some(t.githubPath), None, Some(title), None))), Done)
  }

  /** `delete_task` on the selected task and course, once confirmed. With the task, the
      course and the task's `github_path` all there, the repository is opened (only
      that call can stop the action) and the file deleted, a failure ignored. The task
      row is then deleted. */
  function DeleteTask(env: Env, w: World, current: Option<int>, courseId: Option<int>): (r: Run)
    ensures !Truthy(current) ==> r == Run(w, Warned(NothingSelected))
    ensures Truthy(current) ==> r.out.Done? || r.out == Failed(GithubError)
    ensures r.w.lms == w.lms && Extends(w, r.w)
    ensures r.out.Failed? <==>
              Truthy(current) && current.value in w.cache.tasks.rows
              && TestPageSteps.SelectedCourse(w.cache, courseId).Some? && w.cache.tasks.rows[current.value].githubPath != ""
              && (env.fails(|w.log|) || TestPageSteps.SelectedCourse(w.cache, courseId).value.githubPath !in w.hub.repos)
    ensures r.out.Failed? ==> OnlyReads(w, r.w)
    ensures r.out.Done? ==> r.w.cache == LocalDb.DeleteTask(w.cache, current.value)
    ensures r.out.Done? && current.value in w.cache.tasks.rows && TestPageSteps.SelectedCourse(w.cache, courseId).Some?
            && w.cache.tasks.rows[current.value].githubPath != "" ==>
              var repo := TestPageSteps.SelectedCourse(w.cache, courseId).value.githubPath;
              var path := w.cache.tasks.rows[current.value].githubPath;
              r.w.hub == (if !env.fails(|w.log| + 1) && !env.fails(|w.log| + 2) && path in w.hub.repos[repo].files
                          then TestPageSteps.WithoutFile(w.hub, repo, path) else w.hub)
    ensures r.out.Done? && (current.value !in w.cache.tasks.rows || TestPageSteps.SelectedCourse(w.cache, courseId).None?
                            || w.cache.tasks.rows[current.value].githubPath == "") ==>
              r.w == w.(cache := LocalDb.DeleteTask(w.cache, current.value))
  {
    if !Truthy(current) then Run(w, Warned(NothingSelected))
    else
      var id := current.value;
      match w.cache.tasks.Get(id)
      case None => Run(w.(cache := LocalDb.DeleteTask(w.cache, id)), Done)
      case Some(t) =>
        match TestPageSteps.SelectedCourse(w.cache, courseId)
        case None => Run(w.(cache := LocalDb.DeleteTask(w.cache, id)), Done)
        case Some(course) =>
          if t.githubPath == "" then Run(w.(cache := LocalDb.DeleteTask(w.cache, id)), Done)
          else
            var s1 := TestPageSteps.OpenRepo(env, w, course.githubPath);
            if s1.r.Err? then Run(s1.w, Failed(GithubError))
            else
              var v := TestPageSteps.DeleteFetched(env, s1.w, s1.r.value, t.githubPath);
              ExtendsTrans(w, s1.w, v);
              Run(v.(cache := LocalDb.DeleteTask(w.cache, id)), Done)
  }

  /** With no call failing, deleting a task whose file is in its course's repository
      removes exactly that file from GitHub and the row from the cache. */
  lemma DeleteTaskClearsFile(env: Env, w: World, id: int, courseId: int)
    requires forall n :: n >= |w.log| ==> !env.fails(n)
    requires id != 0 && id in w.cache.tasks.rows && courseId in w.cache.courses.rows
    requires var repo := w.cache.courses.rows[courseId].githubPath;
             w.cache.tasks.rows[id].githubPath != "" && repo in w.hub.repos
    ensures var r := DeleteTask(env, w, Some(id), Some(courseId));
            var repo := w.cache.courses.rows[courseId].githubPath;
            r.out.Done? && repo in r.w.hub.repos
            && r.w.hub.repos[repo].files == w.hub.repos[repo].files - {w.cache.tasks.rows[id].githubPath}
            && id !in r.w.cache.tasks.rows
  {
    assert !env.fails(|w.log|) && !env.fails(|w.log| + 1) && !env.fails(|w.log| + 2);
  }
}

=== FILE: text.dfy ===
/** String helpers standing in for the Python `str` methods the application uses:
    `strip()`, `lower()`, `in` (substring), `split('/')[-1]` and the ordering SQLite
    applies to TEXT columns. */
module Text {

  /** Python's `str.isspace()` on one character (the full Unicode White_Space table
      Python uses, plus the ASCII information separators 0x1C..0x1F). */
  predicate IsSpace(c: char)
  {
    var n := c as int;
    (9 <= n <= 13) || (28 <= n <= 32) || n == 0x85 || n == 0xA0 || n == 0x1680
    || (0x2000 <= n <= 0x200A) || n == 0x2028 || n == 0x2029 || n == 0x202F
    || n == 0x205F || n == 0x3000
  }

  /** `s.lstrip()`: the suffix of `s` left after its longest all-space prefix. */
  function StripLeft(s: string): (r: string)
    ensures |r| <= |s| && r == s[|s| - |r|..]
    ensures forall k :: 0 <= k < |s| - |r| ==> IsSpace(s[k])
    ensures r == [] || !IsSpace(r[0])
  {
    if |s| > 0 && IsSpace(s[0]) then StripLeft(s[1..]) else s
  }

  /** `s.rstrip()`: the prefix of `s` left after its longest all-space suffix. */
  function StripRight(s: string): (r: string)
    ensures |r| <= |s| && r == s[..|r|]
    ensures forall k :: |r| <= k < |s| ==> IsSpace(s[k])
    ensures r == [] || !IsSpace(r[|r| - 1])
  {
    if |s| > 0 && IsSpace(s[|s| - 1]) then StripRight(s[..|s| - 1]) else s
  }

  /** `s.strip()`. */
  function Strip(s: string): string
  {
    StripRight(StripLeft(s))
  }

  /** A stripped string is empty exactly when every character of the input is a space:
      this is what `if not title.strip()` tests. */
  lemma StripEmptyIffBlank(s: string)
    ensures Strip(s) == [] <==> forall k :: 0 <= k < |s| ==> IsSpace(s[k])
  {
    var l := StripLeft(s);
    if Strip(s) == [] {
      assert l == [];
    } else {
      assert !IsSpace(Strip(s)[0]) && Strip(s)[0] == s[|s| - |l|];
    }
  }

  /** A stripped string neither starts nor ends with a space. */
  lemma StripHasNoOuterSpace(s: string)
    ensures Strip(s) == [] || (!IsSpace(Strip(s)[0]) && !IsSpace(Strip(s)[|Strip(s)| - 1]))
  {
    var l := StripLeft(s);
    var r := StripRight(l);
    if r != [] {
      assert r[0] == l[0];
    }
  }

  /** A string with no blank at either end is its own strip. */
  lemma StripUnchanged(s: string)
    requires s != [] && !IsSpace(s[0]) && !IsSpace(s[|s| - 1])
    ensures Strip(s) == s
  {
    assert StripLeft(s) == s;
  }

  /** Stripping twice is stripping once. */
  lemma StripIdempotent(s: string)
    ensures Strip(Strip(s)) == Strip(s)
  {
    var t := Strip(s);
    StripHasNoOuterSpace(s);
    assert StripLeft(t) == t;
    assert StripRight(t) == t;
  }

  /** Python's `str.lower()` on one character, for ASCII and the Russian Cyrillic
      capitals U+0400..U+042F; every other character is left as it is. */
  function LowerChar(c: char): char
  {
    if 'A' <= c <= 'Z' then (c as int + 32) as char
    else if 0x410 <= c as int <= 0x42F then (c as int + 0x20) as char
    else if 0x400 <= c as int <= 0x40F then (c as int + 0x50) as char
    else c
  }

  /** `s.lower()`. */
  function Lower(s: string): (r: string)
    ensures |r| == |s|
    ensures forall k :: 0 <= k < |s| ==> r[k] == LowerChar(s[k])
  {
    if s == [] then [] else [LowerChar(s[0])] + Lower(s[1..])
  }

  lemma LowerCharIdempotent(c: char)
    ensures LowerChar(LowerChar(c)) == LowerChar(c)
  {
  }

  /** Lower-casing twice is lower-casing once. */
  lemma LowerIdempotent(s: string)
    ensures Lower(Lower(s)) == Lower(s)
  {
    forall k | 0 <= k < |s|
      ensures Lower(Lower(s))[k] == Lower(s)[k]
    {
      LowerCharIdempotent(s[k]);
    }
  }

  /** `a.lower() == b.lower()`: the case-insensitive title comparison of the pages. */
  predicate SameIgnoringCase(a: string, b: string)
  {
    Lower(a) == Lower(b)
  }

  /** `q in s` for strings: `q` occurs as a contiguous piece of `s`. */
  predicate IsSubstring(q: string, s: string)
  {
    exists i :: 0 <= i <= |s| && OccursAt(q, s, i)
  }

  /** `q` occurs in `s` starting at index `i`. */
  predicate OccursAt(q: string, s: string, i: int)
  {
    0 <= i && i + |q| <= |s| && s[i..i + |q|] == q
  }

  /** The empty string occurs in every string. */
  lemma EmptyIsSubstring(s: string)
    ensures IsSubstring([], s)
  {
    assert OccursAt([], s, 0);
  }

  /** `p` is a prefix of `s`. */
  predicate IsPrefix(p: string, s: string)
  {
    |p| <= |s| && s[..|p|] == p
  }

  /** `s.split(sep)[-1]`: the text after the last `sep`, or all of `s` when there is none. */
  function LastSegment(s: string, sep: char): (r: string)
    ensures |r| <= |s| && r == s[|s| - |r|..]
    ensures sep !in r
    ensures |r| < |s| ==> s[|s| - |r| - 1] == sep
  {
    if s == [] then []
    else if s[|s| - 1] == sep then []
    else LastSegment(s[..|s| - 1], sep) + [s[|s| - 1]]
  }

  /** Appending a separator and a separator-free name: the name is the last segment. */
  lemma LastSegmentOfJoin(prefix: string, sep: char, name: string)
    requires sep !in name
    ensures LastSegment(prefix + [sep] + name, sep) == name
  {
    var s := prefix + [sep] + name;
    var r := LastSegment(s, sep);
    assert s[|s| - |name|..] == name;
    assert s[|s| - |name| - 1] == sep;
    assert |r| == |name|;
  }

  /** Lexicographic order on code points: SQLite's BINARY collation on UTF-8 text,
      which orders strings exactly as their code-point sequences. */
  predicate LexLe(a: string, b: string)
  {
    a == [] || (b != [] && (a[0] < b[0] || (a[0] == b[0] && LexLe(a[1..], b[1..]))))
  }

  lemma {:induction false} LexLeReflexive(a: string)
    ensures LexLe(a, a)
  {
    if a != [] {
      LexLeReflexive(a[1..]);
    }
  }

  lemma {:induction false} LexLeTotal(a: string, b: string)
    ensures LexLe(a, b) || LexLe(b, a)
  {
    if a != [] && b != [] && a[0] == b[0] {
      LexLeTotal(a[1..], b[1..]);
    }
  }

  lemma {:induction false} LexLeTransitive(a: string, b: string, c: string)
    requires LexLe(a, b) && LexLe(b, c)
    ensures LexLe(a, c)
  {
    if a != [] && b != [] && c != [] && a[0] == b[0] && b[0] == c[0] {
      LexLeTransitive(a[1..], b[1..], c[1..]);
    }
  }

  lemma {:induction false} LexLeAntisymmetric(a: string, b: string)
    requires LexLe(a, b) && LexLe(b, a)
    ensures a == b
  {
    if a != [] && b != [] {
      LexLeAntisymmetric(a[1..], b[1..]);
      assert a == [a[0]] + a[1..];
      assert b == [b[0]] + b[1..];
    }
  }
}

=== FILE: wrappers.dfy ===
/** Optional values and fallible results, used throughout the model in place of
    Python's `None` and raised exceptions. */
module Wrappers {

  /** A value that may be absent: Python's `X | None`. */
  datatype Option<+T> = None | Some(value: T) {

    /** The value, or `default` when absent. */
    function GetOr(default: T): T
    {
      match this
      case Some(v) => v
      case None => default
    }
  }

  /** The outcome of an operation that may raise: a value or an error. */
  datatype Result<+T, +E> = Ok(value: T) | Err(error: E)
}
